=== FILE: README.md ===
# SmartSport, modelled in Dafny

SmartSport is an esports tournament platform. A React single-page application talks to a Django REST Framework backend. This project is a functional model of the logic in both halves that decides something, with proofs of what that logic promises:

- **Client session and gateway.** `lib/api.ts` has an axios request interceptor that attaches `Bearer <authToken>` and a response interceptor that signs the user out on a 401. It also has the `auth` storage helpers and the resource path builders. `services/authService.ts` is a second login helper that writes a different storage key. `LoginForm` adopts a session only from a complete answer. The `Login` page words its errors in a fixed order. `ProtectedRoute` is a three-way guard.
- **Client page guards and forms.** This covers the administrator and organiser guards and the registration page's password rules. The create-tournament and edit-tournament pages are modelled with the DRF error-body normaliser they both carry, and the tournament sign-up form is modelled with its validation order.
- **Client list filters.** Tournaments, ranking, FAQ, news and the admin user search. Each is an order-preserving sub-sequence filter with case-insensitive substring matching and the sentinel values "Tous" and "Tous les jeux".
- **Backend domain rules.** This covers:
  - the three role permission classes;
  - the payment listing;
  - `inscrire_equipe`, `valider_score`, `RegisterAPI.post` and `LoginAPI.post` as decision functions over an immutable database (`Models.Store`);
  - the registration serializer's validators and `create` defaults;
  - the tournament and match `validate` methods;
  - the model choices, defaults, uniqueness and check constraints, and `Rencontre.save`;
  - the two `post_save` receivers of `signals.py`, as functions. No module connects them, so registration does not run them.

Browser storage is a `map<string, string>`. A navigation is a recorded effect. Toasts, `isLoading` transitions and requests are returned as data in each handler's `Effect` record. On the backend each endpoint returns the new database and a `Reply(status, body)`. DRF's order is kept: the permission check, then `get_object` (404), then the handler.

The modules follow the source files:

- Shared modules: `Wrappers` (Option/Result), `Text` (ASCII lowering, substring search, trimming), `SeqFilter` (order-preserving filter and sub-sequence facts), `Js` (JavaScript values, truthiness, stringification) and `Client` (the user record, toasts, thrown values, routes).
- Frontend modules: one per component or page.
- Backend modules: `Models`, `Permissions`, `Serializers`, `Signals` and `Views`.

The model follows the code. These points are easy to miss, and several of them differ from what the code's own test suite expects:

- **Errors are rethrown unchanged.** The gateway rethrows errors as they are and adds no message (`ApiGateway.Settle`).
- **Two login paths, neither fills the session keys.** `authService.login` stores the token under `token`, while the gateway reads `authToken`. The `Login` page stores nothing at all.
- **Anonymous writes get 500, not 403.** An anonymous write to a role-protected endpoint is answered 500, not 403. Django's `AnonymousUser` is truthy and has no `role` attribute, so the permission class raises `AttributeError` (`Permissions.RoleOrReadOnly`). `backend/tournois/tests.py:430-442` expects 403.
- **Partial updates get 500.** A partial update (PATCH) of a match or tournament that omits one of the two compared fields makes `validate` raise `KeyError`, which is a 500 (`Serializers.ValidateRencontre`, `Serializers.ValidateTournoi`). `backend/tournois/tests.py:174-192` expects 400.
- **Organiser-owned creation gets 500.** An organiser's valid team or tournament creation is answered 500 (`Views.OwnedCreationAlwaysFails`). `perform_create` reads `organisateur_profile`, which is not an attribute of any user: the one-to-one fields declare no `related_name`. The creation tests `backend/tournois/tests.py:92-105` and `backend/tournois/tests.py:107-123` expect 201, but their bodies each omit a field the serializer requires (`type` for the tournament, `organisateur` for the team), so the code answers them 400 before `perform_create` runs (`Views.CreateOwned`).
- **Registration requires `role`.** The model field has neither a default nor `blank=True`, so the serializer refuses a registration without it. The `'joueur'` default in `create` is therefore never reached through the endpoint.

## Model

| member | source | states |
|---|---|---|
| ApiGateway.AuthorizeRequest | frontend/smartsport-frontend/src/lib/api.ts:13-25 | With a non-empty stored `authToken` the request gains `Authorization: Bearer <token>` and nothing else changes; without one the request is returned untouched |
| ApiGateway.Logout | frontend/smartsport-frontend/src/lib/api.ts:90-93 | `authToken` and `authUser` are removed and every other key keeps its value |
| ApiGateway.GetCurrentUser | frontend/smartsport-frontend/src/lib/api.ts:95-101 | null exactly when `authUser` is absent or empty, otherwise the stored text |
| ApiGateway.IsAuthenticated | frontend/smartsport-frontend/src/lib/api.ts:103-105 | signed in exactly when a non-empty `authToken` is stored (`!!getItem` is false for the empty string); `authUser` is not consulted |
| ApiGateway.LogoutIdempotent | frontend/smartsport-frontend/src/lib/api.ts:90-93 | logout twice equals logout once |
| ApiGateway.RequestAfterLogoutCarriesNoBearer | frontend/smartsport-frontend/src/lib/api.ts:13-25 | after a logout no request is given a bearer header, the client is not authenticated and no current user is reported |
| ApiGateway.BearerIffAuthenticated | frontend/smartsport-frontend/src/lib/api.ts:103-105 | the interceptor adds an Authorization header exactly when `isAuthenticated` holds |
| ApiGateway.AuthUserNotConsulted | frontend/smartsport-frontend/src/lib/api.ts:103-105 | changing the stored `authUser` changes neither `isAuthenticated` nor the attached header |
| ApiGateway.Classify | frontend/smartsport-frontend/src/lib/api.ts:47-66 | no response, 401, 403, 404 and 500 are each recognised exactly; anything else is the default branch |
| ApiGateway.Settle | frontend/smartsport-frontend/src/lib/api.ts:32-69 | the outcome reaches the caller unchanged; only a 401 touches the browser, which it replaces by a logged-out storage at `/login`; every other outcome leaves storage and location alone |
| ApiGateway.UnauthorizedIsForcedLogout | frontend/smartsport-frontend/src/lib/api.ts:48-54 | after a 401 the storage equals an explicit logout: not authenticated, no current user |
| ApiGateway.RepeatedUnauthorizedIsHarmless | frontend/smartsport-frontend/src/lib/api.ts:49-53 | a second 401 after the first leaves the browser where the first put it |
| ApiGateway.Segments | frontend/smartsport-frontend/src/lib/api.ts:108-147 | every helper's URL begins with the `api` segment and has at least two segments |
| ApiGateway.Path | frontend/smartsport-frontend/src/lib/api.ts:108-147 | every helper's path starts with `/api/` and ends with `/` |
| ApiGateway.PathRoundTrip | frontend/smartsport-frontend/src/lib/api.ts:108-147 | splitting a helper's path on slashes gives back exactly its segments, when no segment contains a slash |
| ApiGateway.IdIsOneSegment | frontend/smartsport-frontend/src/lib/api.ts:110-113 | a slash-free id is spliced into the get, update and delete paths as exactly one segment after the collection |
| ApiGateway.UnprefixedPathMatchesNoHelper | frontend/smartsport-frontend/src/lib/api.ts:108-147 | a path not starting with `/api/` is the path of no helper |
| AuthService.Login | frontend/smartsport-frontend/src/services/authService.ts:13-28 | a resolved call returns exactly the body's `token` and `user` and stores the token under `token`; an HTTP error whose body is `null` makes the `catch` clause throw a `TypeError`; any other error body throws `String(message)` when its `message` is truthy, else 'Login failed'; no response (or a null success body) throws 'An error occurred during login'; every failure is an `Error` and leaves storage unchanged |
| AuthService.LoginLeavesGatewaySessionAlone | frontend/smartsport-frontend/src/services/authService.ts:19 | whatever the call does, `authToken` and `authUser` are untouched, so the gateway's authentication is unchanged |
| LoginForm.LandingRoute | frontend/smartsport-frontend/src/components/LoginForm.tsx:32-38 | `administrateur` lands on `/admin/dashboard`, every other role on `/` |
| LoginForm.HandleSubmit | frontend/smartsport-frontend/src/components/LoginForm.tsx:18-49 | a session is adopted iff the answer has both user and token, and then it is that pair with a success toast and role-based navigation; otherwise exactly one error toast (the thrown message, or the fallback for non-Error values) and no navigation; loading goes true then false on every path |
| LoginForm.Complete | frontend/smartsport-frontend/src/components/LoginForm.tsx:27 | an answer counts as a session only when it carries a user and a token that is not empty (`response.user && response.token`) |
| LoginForm.SubmitAdoptsOnlyCompleteAnswers | frontend/smartsport-frontend/src/components/LoginForm.tsx:24-42 | through the real helper: adoption happens iff the server answered with a user and a non-empty token; an administrator lands on the admin dashboard; a failed call leaves storage unchanged and does not navigate |
| LoginPage.OnMount | frontend/smartsport-frontend/src/pages/Login.tsx:19-23 | navigates to `/` exactly when the gateway reports the client authenticated |
| LoginPage.ErrorText | frontend/smartsport-frontend/src/pages/Login.tsx:36-45 | a non-empty `customMessage` wins, then a 401 gives "Email ou mot de passe incorrect", else the generic message |
| LoginPage.HandleSubmit | frontend/smartsport-frontend/src/pages/Login.tsx:25-49 | the error message is cleared first; success toasts "Connexion réussie!" and navigates to `/`; failure sets and toasts the `ErrorText` wording after the interceptor has settled the browser; loading is reset on both paths |
| LoginPage.WrongPasswordClearsSession | frontend/smartsport-frontend/src/pages/Login.tsx:36-41 | a 401 shows the bad-credentials text and the browser is logged out at `/login` |
| LoginPage.SuccessStoresNothing | frontend/smartsport-frontend/src/pages/Login.tsx:31-33 | a successful login through this page leaves storage, and so the authentication flag, as it was |
| ProtectedRoute.Guard | frontend/smartsport-frontend/src/components/ProtectedRoute.tsx:5-18 | loading shows the placeholder whatever the flag; settled and unauthenticated replaces the route with `/login`; settled and authenticated renders the outlet |
| ProtectedRoute.ThreeWayDecision | frontend/smartsport-frontend/src/components/ProtectedRoute.tsx:8-17 | each outcome happens exactly under its condition, so every input yields exactly one; the only redirect is a replacing one to `/login` |
| ProtectedRoute.RoleNotConsulted | frontend/smartsport-frontend/src/components/ProtectedRoute.tsx:6 | changing the user (its role included) or the token never changes the decision |
| RegisterPage.CheckRules | frontend/smartsport-frontend/src/pages/Register.tsx:69-72 | the four indicators hold iff the length is at least 8 and some character is in A-Z, a-z, 0-9 respectively |
| RegisterPage.SubmitEnabled | frontend/smartsport-frontend/src/pages/Register.tsx:226 | enabled iff all four rules hold, the passwords are equal and not loading (the rules already exclude the empty password) |
| RegisterPage.SignUpErrorToast | frontend/smartsport-frontend/src/pages/Register.tsx:45-49 | a message containing "duplicate" gives the already-exists toast, any other the prefixed message |
| RegisterPage.HandleSubmit | frontend/smartsport-frontend/src/pages/Register.tsx:22-66 | sign-up is called iff the passwords are equal; a mismatch sets the error, toasts it and leaves loading alone; only a successful sign-up navigates, to `/login`; a sign-up error is shown as message and toast |
| RegisterPage.EnabledSubmitCallsSignUp | frontend/smartsport-frontend/src/pages/Register.tsx:25-29 | every click the button allows reaches sign-up; the handler alone would also accept two empty passwords, which the button never enables |
| RegisterPage.StrongPasswordExample | frontend/smartsport-frontend/src/pages/Register.tsx:69-72 | "Passw0rd" typed twice enables the button; "password" does not |
| AdminDashboard.Guard | frontend/smartsport-frontend/src/pages/AdminDashboard.tsx:32-37 | the page renders iff the user is an administrator; otherwise one "Accès non autorisé." toast and navigation to `/` |
| AdminDashboard.FilteredUsers | frontend/smartsport-frontend/src/pages/AdminDashboard.tsx:80-86 | an empty term returns the table unchanged; otherwise an order-preserving sub-list whose every user matches the term |
| AdminDashboard.FilteredUsersMembership | frontend/smartsport-frontend/src/pages/AdminDashboard.tsx:80-86 | a user is listed iff in the table and, for a non-empty term, the lowered username or email contains the lowered term |
| AdminDashboard.SearchIgnoresTermCase | frontend/smartsport-frontend/src/pages/AdminDashboard.tsx:82-85 | searching for the lowered term lists the same users |
| AdminDashboard.CountsBoundedByTables | frontend/smartsport-frontend/src/pages/AdminDashboard.tsx:184-244 | the counts in both card titles never exceed the table sizes and equal them for an empty term |
| AdminDashboard.HandleError | frontend/smartsport-frontend/src/pages/AdminDashboard.tsx:68-78 | a thrown string is its own text, an Error its message, anything else the default text |
| AdminDashboard.ToggleAction | frontend/smartsport-frontend/src/pages/AdminDashboard.tsx:217 | the action is deactivate iff `is_active` is true, activate otherwise (a missing flag included) |
| AdminDashboard.StatusLabel | frontend/smartsport-frontend/src/pages/AdminDashboard.tsx:210 | the badge reads "Actif" exactly when `is_active` is true and "Inactif" otherwise, a missing flag included |
| AdminDashboard.ToggleOpposesBadge | frontend/smartsport-frontend/src/pages/AdminDashboard.tsx:208-219 | the button deactivates exactly the users whose badge reads "Actif" |
| OrganiserDashboard.Render | frontend/smartsport-frontend/src/pages/OrganisateurDashboard.tsx:63-70 | a non-organiser renders nothing; an organiser sees the loading text exactly while loading |
| OrganiserDashboard.Mount | frontend/smartsport-frontend/src/pages/OrganisateurDashboard.tsx:29-61 | a non-organiser gets a toast, navigation home and no request; the list is requested iff an organiser has a token; loading is cleared iff the request was made; a failure keeps the empty list and toasts |
| OrganiserDashboard.NoTokenNeverLeavesLoading | frontend/smartsport-frontend/src/pages/OrganisateurDashboard.tsx:27-61 | an organiser with no (or an empty) token stays on the loading text |
| OrganiserDashboard.RequestMissesApiPrefix | frontend/smartsport-frontend/src/pages/OrganisateurDashboard.tsx:45 | the requested `/tournois/` is not the path of any gateway helper, the tournament list included |
| TournamentForm.Payload | frontend/smartsport-frontend/src/pages/CreerTournoiPage.tsx:48-58 | the body has exactly the keys nom, description, type, regles, date_debut, date_fin, prix_inscription, statut, in that order; each of the first six carries its form field as a string (`type` the form's game kind), `prix_inscription` the parsed price and `statut` the given status |
| TournamentForm.PayloadStatus | frontend/smartsport-frontend/src/pages/CreerTournoiPage.tsx:56-57 | the body's `statut` is the given status and it carries no organiser key, although the backend's serializer requires one |
| TournamentErrors.Read | frontend/smartsport-frontend/src/pages/CreerTournoiPage.tsx:64-117 | a string `detail` in an object body is read first; otherwise any non-detail key makes it a field-error reading; otherwise the message is the validation text for a non-empty body, the unknown text for an empty one, `customMessage` then axios `message` without an object body, or an Error's message |
| TournamentErrors.Toasts | frontend/smartsport-frontend/src/pages/CreerTournoiPage.tsx:64-119 | the detail is toasted alone, field errors one toast per message, and only the generic message is prefixed |
| TournamentErrors.FieldToastsNameTheirField | frontend/smartsport-frontend/src/pages/CreerTournoiPage.tsx:91-99 | every field toast reads `<field>: …` for a non-detail field of the body |
| TournamentErrors.StringFieldIsShown | frontend/smartsport-frontend/src/pages/CreerTournoiPage.tsx:96-97 | every string-valued field error is toasted as `<field>: <message>` |
| TournamentErrors.DetailWins | frontend/smartsport-frontend/src/pages/CreerTournoiPage.tsx:83-87 | a body starting with a string `detail` toasts exactly that detail, whatever else it holds |
| TournamentErrors.BodyWithoutUsableFields | frontend/smartsport-frontend/src/pages/CreerTournoiPage.tsx:105-108 | a body with only a non-string `detail` gives the validation text; an empty body keeps the unknown-error text even with a `customMessage` |
| TournamentErrors.OddFieldSilencesPage | frontend/smartsport-frontend/src/pages/CreerTournoiPage.tsx:91-104 | a field whose value is neither array nor string still counts as a field error, so no toast at all is shown |
| TournamentErrors.PrefixOnlyTouchesGeneric | frontend/smartsport-frontend/src/pages/ModifierTournoiPage.tsx:120-154 | the create and edit normalisers differ only in the prefix of the generic toast |
| CreateTournament.Submit | frontend/smartsport-frontend/src/pages/CreerTournoiPage.tsx:37-123 | a request is made iff the user is an organiser, to `/tournois/` with the form's body and status `planifie`; a refusal toasts and goes home; success goes to the organiser dashboard; failure shows the normaliser's toasts with the creation prefix; loading starts true and ends false |
| CreateTournament.RenderRedirect | frontend/smartsport-frontend/src/pages/CreerTournoiPage.tsx:126-131 | anyone but an organiser is sent to `/` |
| CreateTournament.PostedBodyIsPlanned | frontend/smartsport-frontend/src/pages/CreerTournoiPage.tsx:48-61 | whatever the form holds, the posted body asks for `planifie`, names no organiser, and the path matches no gateway helper |
| CreateTournament.DetailShownUnprefixed | frontend/smartsport-frontend/src/pages/CreerTournoiPage.tsx:83-87 | a string `detail` is the only toast, without the page prefix |
| EditTournament.DetailUrl | frontend/smartsport-frontend/src/pages/ModifierTournoiPage.tsx:68 | the URL is `/api/tournois/`, then the id, then a closing slash, so the id can be read back from between the slashes |
| EditTournament.DetailUrlIsGatewayPath | frontend/smartsport-frontend/src/pages/ModifierTournoiPage.tsx:68 | the page's URL for an id is the gateway's detail and update path for it |
| EditTournament.FormFromFetched | frontend/smartsport-frontend/src/pages/ModifierTournoiPage.tsx:70-80 | the fetched status and text fields are copied; null or empty `regles` becomes '', a missing price '0', missing dates '' |
| EditTournament.Mount | frontend/smartsport-frontend/src/pages/ModifierTournoiPage.tsx:58-91 | a request is made iff the route id is non-empty; a missing id toasts, navigates to the organiser dashboard and leaves the initial form; a failed fetch toasts and navigates there too |
| EditTournament.Edit | frontend/smartsport-frontend/src/pages/ModifierTournoiPage.tsx:93-95 | a change event gives its own input the new text; every other input and the status keep their values |
| EditTournament.EditsKeepStatus | frontend/smartsport-frontend/src/pages/ModifierTournoiPage.tsx:221 | no sequence of change events alters the status, whose input is disabled |
| EditTournament.Submit | frontend/smartsport-frontend/src/pages/ModifierTournoiPage.tsx:97-158 | a PUT is made iff the user is an organiser, to the detail URL with the form's body and its status; a refusal goes home; success goes to the dashboard; failure uses the normaliser with the "Erreur: " prefix |
| EditTournament.StatusSentIsStatusFetched | frontend/smartsport-frontend/src/pages/ModifierTournoiPage.tsx:108-114 | load, any edits, submit: the status sent is the status fetched and the PUT goes to the gateway's update path |
| EditTournament.Render | frontend/smartsport-frontend/src/pages/ModifierTournoiPage.tsx:160-172 | the loading text while fetching; afterwards the form iff the user is an organiser, a redirect home otherwise |
| EditTournament.MissingIdLeavesLoadingView | frontend/smartsport-frontend/src/pages/ModifierTournoiPage.tsx:56-63 | with no id the page itself stays on the loading text and no request is made |
| TournamentSignup.Submitted | frontend/smartsport-frontend/src/pages/InscriptionTournoi.tsx:65-69 | the object built holds each of the six form fields under its own key, in form order, followed by `jeu` = the selected game and `statut` = `en_attente` |
| TournamentSignup.RegisterCall | frontend/smartsport-frontend/src/lib/api.ts:115-116 | the call posts to `/api/tournois/<id>/inscrire_joueur/` with the id stringified as a template literal does, and sends the data argument as the body |
| TournamentSignup.Submit | frontend/smartsport-frontend/src/pages/InscriptionTournoi.tsx:51-76 | no game: its toast and no call; a game but no tournament name: that toast and no call; a call exactly when both are given; success navigates to `/profile`, failure only toasts |
| TournamentSignup.CallIgnoresForm | frontend/smartsport-frontend/src/pages/InscriptionTournoi.tsx:65-69 | the object is passed as the tournament id, so every call goes to `/api/tournois/[object Object]/inscrire_joueur/` with no body, whatever the form holds |
| TournamentSignup.RenderRedirect | frontend/smartsport-frontend/src/pages/InscriptionTournoi.tsx:86-89 | without a user the page navigates to `/login` |
| TournamentsPage.StatusOfLabel | frontend/smartsport-frontend/src/pages/Tournaments.tsx:187-191 | each of the four labels maps to its status code and no other label does |
| TournamentsPage.Filtered | frontend/smartsport-frontend/src/pages/Tournaments.tsx:181-194 | an order-preserving sub-list whose every tournament passes the search, game and status filters |
| TournamentsPage.FilteredMembership | frontend/smartsport-frontend/src/pages/Tournaments.tsx:181-194 | a tournament is listed iff it is in the data and passes all three filters |
| TournamentsPage.ResetShowsAll | frontend/smartsport-frontend/src/pages/Tournaments.tsx:283-287 | the reset state ("", "Tous", "Tous") lists every tournament, in order |
| TournamentsPage.UnknownLabelShowsNothing | frontend/smartsport-frontend/src/pages/Tournaments.tsx:187-191 | a status label outside the four and other than "Tous" lists nothing |
| TournamentsPage.TighteningNeverEnlarges | frontend/smartsport-frontend/src/pages/Tournaments.tsx:193 | a query extending the old one, or a specific game or status replacing "Tous", yields a sub-list of the previous result |
| RankingPage.Filtered | frontend/smartsport-frontend/src/pages/Ranking.tsx:131-135 | an order-preserving sub-list; each team plays the selected game unless all are selected, and its lowered name contains the lowered term |
| RankingPage.FilteredMembership | frontend/smartsport-frontend/src/pages/Ranking.tsx:131-135 | a team is listed iff it is in the data, plays the game (or all are selected) and its name matches |
| RankingPage.InitialStateShowsAll | frontend/smartsport-frontend/src/pages/Ranking.tsx:127-128 | the initial state lists every team |
| RankingPage.UnplayedGameShowsNothing | frontend/smartsport-frontend/src/pages/Ranking.tsx:132 | a game no team lists yields an empty ranking |
| FaqPage.Filtered | frontend/smartsport-frontend/src/pages/FAQ.tsx:44-53 | a blank query returns all items; otherwise an order-preserving sub-list whose items contain the lowered, trimmed query in question or answer |
| FaqPage.BlankQueryShowsAll | frontend/smartsport-frontend/src/pages/FAQ.tsx:45 | an empty or whitespace-only query lists every item |
| FaqPage.FilteredMembership | frontend/smartsport-frontend/src/pages/FAQ.tsx:47-52 | for a non-blank query an item is listed iff present and its lowered question or answer contains the normalised query |
| FaqPage.QueryCaseIrrelevant | frontend/smartsport-frontend/src/pages/FAQ.tsx:47 | the lowered query lists the same items |
| NewsPage.Filtered | frontend/smartsport-frontend/src/pages/News.tsx:93-97 | an empty term lists all articles; otherwise an order-preserving sub-list of matching articles |
| NewsPage.FilteredMembership | frontend/smartsport-frontend/src/pages/News.tsx:94-96 | an article is listed iff present and its lowered title or excerpt contains the lowered term |
| NewsPage.Displayed | frontend/smartsport-frontend/src/pages/News.tsx:129-137 | whatever tab is selected, the listed articles are a sub-list of the articles |
| NewsPage.TabsDoNotFilter | frontend/smartsport-frontend/src/pages/News.tsx:129-137 | every tab lists what "Tous" lists |
| Text.IncludesNonLetter | frontend/smartsport-frontend/src/pages/News.tsx:95-96 | a case-insensitive search for one non-letter character finds exactly the texts that hold it |
| SeqFilter.SubseqKeepsDescending | backend/tournois/models.py:147-149 | any sub-list of a list in descending date order (the `-date_paiement` ordering) is itself in that order, and none of its dates passes the list's first |
| Js.NatToStringReadsBack | frontend/smartsport-frontend/src/lib/api.ts:146 | the decimal text a number is interpolated as (`${tournoiId}`) reads back as that number and has no leading zero |
| NewsPage.SpaceTermStillFilters | frontend/smartsport-frontend/src/pages/News.tsx:93 | the term is not trimmed: a single-space term lists exactly the articles whose title or excerpt holds a space (both directions) |
| Models.RoleOf | backend/tournois/models.py:10-15 | only the four role values read back as roles, each as the role stored under it |
| Models.RoleCodeRoundTrip | backend/tournois/models.py:10-20 | every role's stored value reads back as that role, and a value is a role's iff it is one of the four |
| Models.AddMembership | backend/tournois/models.py:172-200 | the row is added iff the role (defaulting to `membre`) is a listed choice and the (player, team) pair is new; otherwise the matching error and no change |
| Models.AddMembershipKeepsPairsUnique | backend/tournois/models.py:193-200 | adding a membership never breaks the unique (player, team) constraint |
| Models.NewTournoi | backend/tournois/models.py:219-237 | an omitted price defaults to 0 and an omitted status to `planifie`; given values are kept |
| Models.DefaultTournoiConstraints | backend/tournois/models.py:225-246 | with the default price, a new tournament meets the constraints iff its end is after its start |
| Models.TeamName | backend/tournois/models.py:168-169 | a team's string is its name when the team exists, and there is none otherwise |
| Models.SaveRencontre | backend/tournois/models.py:304-307 | a blank name becomes "<team 1> vs <team 2>", a set name and every other field are kept; a missing second team raises the team-does-not-exist error; the row is written iff the non-null `date_heure` and `equipe2` rules and the different-teams constraint hold |
| Models.ValidRowSaves | backend/tournois/models.py:304-307 | a match that meets the constraints and names existing teams is written, still naming existing teams |
| Models.ReplacedRencontreKeepsWellFormed | backend/tournois/models.py:304-307 | replacing one match by a row that meets the constraints and names existing teams keeps the database well-formed |
| Models.SaveRencontreIdempotent | backend/tournois/models.py:304-307 | saving a saved match again returns it unchanged |
| Models.NewPaiement | backend/tournois/models.py:118-145 | a payment is created iff the amount is non-negative and the method and status are listed; the status defaults to `en_attente` and a given status is kept; the date is the clock reading at creation (`auto_now_add`); a negative amount is its own error |
| Models.NewPaymentComesFirst | backend/tournois/models.py:142-149 | a payment dated no earlier than every stored one, put in front of payments in newest-first order, keeps that order: a new payment heads the `-date_paiement` listing |
| Permissions.RoleOrReadOnly | backend/tournois/views.py:22-40 | safe methods are always allowed; a write is allowed iff a signed-in user has the class's role, refused for another signed-in user, and raises for the anonymous user |
| Permissions.IsAdminOrReadOnly | backend/tournois/views.py:22-26 | allowed iff the method is safe or a signed-in user is an administrator; raises iff an anonymous user writes |
| Permissions.IsOrganisateurOrReadOnly | backend/tournois/views.py:29-33 | allowed iff the method is safe or a signed-in user is an organiser; raises iff an anonymous user writes |
| Permissions.IsArbitreOrReadOnly | backend/tournois/views.py:36-40 | allowed iff the method is safe or a signed-in user is a referee; raises iff an anonymous user writes |
| Permissions.WritersAreDisjoint | backend/tournois/views.py:22-40 | no write is allowed by two of the three classes |
| Permissions.PlayersOnlyRead | backend/tournois/views.py:22-40 | a player is allowed exactly the safe methods by every class |
| Serializers.RequiredChar | backend/tournois/serializers.py:45-47 | an absent value is "required", a value blank after trimming is refused, otherwise the trimmed value |
| Serializers.OptionalChar | backend/tournois/serializers.py:51 | an absent optional name stays absent, a present one is trimmed |
| Serializers.ValidateEmail | backend/tournois/serializers.py:53-59 | a value without '@' is refused as malformed before the uniqueness lookup; a taken address is refused; otherwise accepted unchanged |
| Serializers.ValidateUsername | backend/tournois/serializers.py:61-65 | refused iff some user already has that exact username |
| Serializers.RoleChoice | backend/tournois/serializers.py:51 | the role is required and accepted iff it is one of the four choices |
| Serializers.CheckFields | backend/tournois/serializers.py:42-63 | username and email pass iff the declared field accepts the trimmed value and its `validate_<field>` method accepts it; password is the plain required field and role the model's choice field |
| Serializers.ErrorsRanked | backend/tournois/serializers.py:42-49 | the per-field errors, concatenated in declaration order, are ordered by field |
| Serializers.ErrorsListFailures | backend/tournois/serializers.py:42-49 | the concatenated per-field errors hold a (field, message) pair exactly when that field failed with that message |
| Serializers.Errors | backend/tournois/serializers.py:42-49 | no errors iff every field passed; otherwise exactly the failed fields with their messages, in the declaration order username, email, password, role |
| Serializers.ValidateRegistration | backend/tournois/serializers.py:44-65 | the validated data are the trimmed fields, the address holding '@', username and address unused, the role one of the four; on failure the errors are exactly the failed fields with their messages, in declaration order, and a missing role is always reported |
| Serializers.ValidIffFieldsPass | backend/tournois/serializers.py:44-65 | the body validates exactly when every field passes its declared field and its `validate_<field>` method |
| Serializers.MalformedEmailReported | backend/tournois/serializers.py:55-56 | an address without '@' is reported as malformed even when it is also taken |
| Serializers.NormalizeEmail | backend/tournois/serializers.py:70-77 | an address without '@' is unchanged; otherwise the length and everything up to the last '@' are kept |
| Serializers.NormalizeEmailLowersDomain | backend/tournois/serializers.py:70-77 | the text after the last '@' is the lower-cased domain of the input |
| Serializers.NormalizeEmailIdempotent | backend/tournois/serializers.py:70-77 | normalising twice is normalising once |
| Serializers.CreateUser | backend/tournois/serializers.py:67-82 | the user is created iff the normalised address and username are free; first and last names default to '', role to 'joueur'; the id is fresh and the account active |
| Serializers.CreateUserKeepsIdentitiesUnique | backend/tournois/serializers.py:67-82 | appending the created user keeps ids, usernames and addresses unique |
| Serializers.CreatedFromInput | backend/tournois/serializers.py:67-82 | a body that validates and is inserted gives a user with the body's trimmed username, its trimmed first and last names (empty when not sent), its role, the normalised trimmed address (holding '@', unused before) and the trimmed non-empty password, active |
| Serializers.RegisterUser | backend/tournois/views.py:261-265 | refused as invalid exactly when validation fails, with the serializer's errors; a stored user is the one the body describes: its trimmed username, trimmed first and last names (empty when not sent), role, normalised trimmed address, trimmed password, active |
| Serializers.RegisterUserKeepsIdentitiesUnique | backend/tournois/views.py:261-265 | a registered user keeps ids, usernames and addresses unique |
| Serializers.SerializeUser | backend/tournois/serializers.py:38-41 | the public view of a user: id, email, first and last name and role, never the password; what it determines is stated by `Serializers.UserViewShowsOnlyPublicFields` |
| Serializers.UserViewShowsOnlyPublicFields | backend/tournois/serializers.py:38-41 | two users serialise the same iff they agree on id, email, first and last name and role; the password never shows |
| Serializers.ValidateTournoi | backend/tournois/serializers.py:146-151 | with both dates, valid iff the end is after the start; a missing date raises KeyError |
| Serializers.ValidTournoiMeetsConstraints | backend/tournois/serializers.py:146-151 | a validated tournament with a non-negative price satisfies the table's check constraint |
| Serializers.ValidateRencontre | backend/tournois/serializers.py:163-168 | with both teams, valid iff they differ; a missing team raises KeyError |
| Serializers.ValidRencontreMeetsConstraints | backend/tournois/serializers.py:163-168 | validated teams, with the date the serializer requires, give a match the table accepts |
| Signals.CreateUserProfile | backend/tournois/signals.py:7-18 | a created user with a known role gets exactly one profile row of that kind; a plain save or an unknown role adds nothing |
| Signals.OneProfilePerCreatedUser | backend/tournois/signals.py:10-18 | a new user ends with exactly one profile, of its role's kind |
| Signals.SaveUserProfile | backend/tournois/signals.py:21-31 | a profile is saved iff the role is known and its `<role>_profile` attribute exists, and then it is that role's profile |
| Signals.SaveUserProfileIsInert | backend/tournois/signals.py:21-31 | with the reverse accessors Django defines, no profile is ever saved |
| Views.Refusal | backend/tournois/views.py:21-38 | a permission class that returns false gives 403; the `AttributeError` an anonymous write raises gives 500 |
| Views.ListPayments | backend/tournois/views.py:89-100 | anonymous callers get 401 (the `IsAuthenticated` permission); an administrator sees every payment; anyone else sees exactly their own, in the stored order, so a list in `-date_paiement` order (models.py:149) stays newest first |
| Views.ListedPaymentsMembership | backend/tournois/views.py:96-100 | a payment is listed iff the caller is an administrator or the payment's player is the caller |
| Views.Registered | backend/tournois/views.py:171-172 | a team is registered when some match of the tournament has it as `equipe1` or `equipe2` |
| Views.PendingMatch | backend/tournois/views.py:179-184 | the created match has a key no stored match has, the team as `equipe1`, status `planifie`, and no name, `date_heure`, scores or `equipe2` |
| Views.InscrireEquipeAsWritten | backend/tournois/views.py:160-194 | as written, the database never changes and 201 is never returned: an allowed request for an existing, unregistered team gets 404 "team not found" |
| Views.HasTournoi | backend/tournois/views.py:165 | the tournament `get_object` looks up exists: some stored tournament has that id; when none does the view answers 404 |
| Views.InscrireEquipe | backend/tournois/views.py:160-194 | 201 iff allowed, the tournament and team exist and the team is in no match of that tournament; exactly one pending match is then added; otherwise nothing changes, with the refusal, 404 or 400 in that order |
| Views.SecondRegistrationRefused | backend/tournois/views.py:171-176 | registering the same team twice: the second attempt gets 400 |
| Views.PendingMatchBreaksConstraints | backend/tournois/views.py:179-184 | the stored pending match has neither `date_heure` nor `equipe2`, so it violates both non-null rules; the earlier matches are kept |
| Views.Truthy | backend/tournois/views.py:239 | `not score` is false exactly for a present, non-zero score |
| Views.ValiderScore | backend/tournois/views.py:230-253 | a referee's request with two truthy scores for an existing match sets both scores and `termine` on that match only and answers 200; otherwise nothing changes, with the refusal, 404 or 400 |
| Views.ValiderScoreKeepsWellFormed | backend/tournois/views.py:245-248 | on a well-formed database a valid validation succeeds and keeps every constraint |
| Views.ZeroScoreRefused | backend/tournois/views.py:239-243 | a score of 0 is refused with 400 like a missing one, and nothing changes |
| Views.RegisterPost | backend/tournois/views.py:259-280 | the status is 201, 400 or 500; 400 with the serializer's errors iff validation fails; 201 iff a user is validated and inserted |
| Views.RegisterPostStores | backend/tournois/views.py:259-280 | 201 appends exactly one row, the user built from the body (trimmed username, trimmed first and last names or empty, role, normalised trimmed address, trimmed password, active), answers with its public view and changes nothing else (no profile row); 400 and 500 change nothing |
| Views.RegisterKeepsWellFormed | backend/tournois/views.py:259-280 | registration keeps the database well-formed |
| Views.LoginPost | backend/tournois/views.py:286-310 | 400 without both fields; 404 iff no user has the address; 200 only with the right password on an active account, as that user; 401 otherwise |
| Views.LoginDecidedByFirstHolder | backend/tournois/views.py:293-310 | sign-in with an address is decided by the password and active flag of the first user holding it |
| Views.LoginAcceptsRightPassword | backend/tournois/views.py:299-310 | on a well-formed database the right password signs in iff the account is active; an inactive one gets 401 |
| Views.RegisteredUserFacts | backend/tournois/views.py:259-280 | a successful registration appends one active user with the normalised trimmed address (unused before, containing '@') and the trimmed non-empty password |
| Views.RegisterThenLogin | backend/tournois/views.py:286-310 | signing in with the address and password just registered, as stored, succeeds as the new user |
| Views.PaddedPasswordRefused | backend/tournois/views.py:286-310 | the password is stored trimmed and sign-in does not trim, so the padded original is refused with 401 |
| Views.NewUserSignsInAs | backend/tournois/views.py:293-310 | a user appended under an address nobody held is the one sign-in finds |
| Views.OrganiserProfile | backend/tournois/views.py:111-112 | the organiser profile is found iff `organisateur_profile` is an attribute of the user |
| Views.CreateOwned | backend/tournois/views.py:142-143 | 201 iff allowed, validated and the profile attribute exists; a refused permission gets the refusal and a failed validation 400 with its message |
| Views.OwnedCreationAlwaysFails | backend/tournois/views.py:111-112 | with the accessors Django defines no team or tournament is ever created, and a valid organiser request gets 500 |

## Left out

- HTTP transport (axios), real browser storage and `window.location`: storage is a map and a navigation is a recorded value.
- The authentication context (`useAuth`) is not part of this model. Its `user`, `token`, `isLoading` and flags are inputs, and how a session is restored is not modelled.
- `JSON.parse` of the stored user: `ApiGateway.GetCurrentUser` returns the stored text.
- The supabase `signUp` call on the registration page is a foreign call. It is an input that succeeds, returns an error message, or throws.
- Floats and dates: `parseFloat` of the price is an input value. The conversion of dates for `datetime-local` inputs is an input function. Backend dates are ordered integers and money is integer cents.
- Unicode: `toLowerCase`, `trim`, `str.lower` and Django's NFKC username normalisation are modelled on ASCII letters and one fixed whitespace set (`Text.IsSpace`). That set matches neither JavaScript's `trim` nor Python's `str.strip` (used by DRF's `CharField`). Both also strip U+1680, U+2000-U+200A, U+202F, U+205F and U+3000. Python's `strip` also strips U+001C-U+001F and U+0085, and does not strip U+FEFF.
- Password hashing: a stored password is compared for equality with the submitted one.
- JWT token generation in `LoginAPI.post`: tokens are left abstract in the reply.
- Field length limits (`max_length`), JSON `null` values and non-integer scores in request bodies. JSON `null` in response bodies is not distinguished from an absent field either: a `null` token given to `localStorage.setItem` would be stored as `"null"`, while `AuthService.Login` stores `"undefined"` for a missing one.
- Concurrency, rate limiting, pagination and performance: the code has none of these.
- Presentational and static pages and components (Privacy, Terms, Support, Games, Index, NotFound, Hero, Footer, JoinCTA, FeatureSection, GamesSection, FeaturedTournaments, Navbar, TournamentDetail), Contact (a library schema), Profile (depends on the authentication context) and App.tsx (a route table). The guards are modelled as functions, not as reachable routes.
- Scripts and configuration: seed, admin creation, urls, apps, admin, check_config and test_api.
- `backend/backend/views.py`, and the FAQ serializer and view set, which name fields the models do not have.
- The other CRUD view sets are modelled only through their permission classes and, for teams and tournaments, `perform_create`.
- Django settings are not part of this model. The default `ModelBackend` and the stock user manager are assumed, and the first authentication class is taken to send a `WWW-Authenticate` header (JWT or Basic), so an unauthenticated request is answered 401; with DRF's default `SessionAuthentication` first it would be 403 (`Views.ListPayments`).
- Views.LoginPost: `authenticate` is modelled as the default backend's check (a matching password on an active account); a custom authentication backend would change it.
- Views.RegisterPost: the `post_save` receivers are not run. No module imports `tournois.signals` and `backend/tournois/apps.py` has no `ready` hook. `create_admin.py`, `seed.py` and the tests insert the profile row by hand after `create_user`. `Signals` models the receivers' bodies on their own.
- Views.InscrireEquipe: the corrected registration stores the pending match as the view builds it, without `date_heure` or `equipe2`. `Views.PendingMatchBreaksConstraints` states that this row breaks both non-null rules. A complete correction would also have to choose a date and allow a missing opponent, which the code gives no hint of.
- Models.Rencontre: the nullable `duree`, `arbitre` and `terrain` columns are not represented; no rule reads them.
- AdminDashboard.CountsBoundedByTables: states the bound on the displayed counts, not their equality with the filtered lengths, which holds by construction.
- Views.ListPayments: the payment sequence stands for the queryset already in `-date_paiement` order (models.py:149); the model keeps that order and proves the filtered list stays newest first, but does not compute the database sort or how it breaks ties between equal dates.
- JSON objects: `Js.Lookup` returns the first entry with a key, while `JSON.parse` keeps the last of duplicated keys; the bodies in this model are built without duplicates, so the two agree on them. `Js.Entries` keeps insertion order, while `Object.entries` lists integer-like keys first in ascending order; no modelled body has such keys (error keys are field names).
- String lengths count characters, not UTF-16 code units: four characters outside the Basic Multilingual Plane have JavaScript `length` 8 and pass the registration page's length-8 rule, while `RegisterPage.CheckRules` counts 4 and fails it.

## Findings

| source | as written | input that shows it | evidently intended | confidence | as-written member | corrected member |
|---|---|---|---|---|---|---|
| backend/tournois/views.py:179-194 | The new match is created with `equipe2=None`, no `date_heure` and a blank name. `Rencontre.save` (models.py:304-307) then formats the missing `equipe2`, which raises `RelatedObjectDoesNotExist`, a subclass of `Equipe.DoesNotExist`. The view's own handler answers 404 "team not found". Even with the name set, both columns are `NOT NULL`, so the insert itself would still fail. | An organiser posts `equipe_id` of an existing team that is in no match of an existing tournament; the answer is 404 and nothing is stored | 201 "team registered", with one pending match stored for the team | medium, not executed | Views.InscrireEquipeAsWritten | Views.InscrireEquipe |

=== FILE: admin_dashboard.dfy ===
/**
 * `pages/AdminDashboard.tsx`: the administrator guard, the user search
 * applied to both tables, the error-to-text mapping and the
 * activate/deactivate choice.
 */
module AdminDashboard {
  import opened Wrappers
  import opened Client
  import Text
  import SeqFilter

  const DeniedText := "Accès non autorisé."
  const DefaultErrorText := "Erreur lors de la récupération des données."

  /** A row of either table; `is_active` is optional. */
  datatype UserData = UserData(id: int, username: string, email: string, role: string, isActive: Option<bool>)

  /** The mount effect of the guard and whether the page renders at all. */
  datatype GuardEffect = GuardEffect(toasts: seq<Toast>, navigation: Option<string>, renders: bool)

  function Guard(user: Option<User>): (g: GuardEffect)
    ensures g.renders <==> HasRole(user, AdminRole)
    ensures !g.renders ==> g.toasts == [ToastError(DeniedText)] && g.navigation == Some(HomeRoute)
    ensures g.renders ==> g.toasts == [] && g.navigation.None?
  {
    if HasRole(user, AdminRole) then GuardEffect([], None, true)
    else GuardEffect([ToastError(DeniedText)], Some(HomeRoute), false)
  }

  /** The search predicate: lowered username or lowered email contains the lowered term. */
  predicate Matches(u: UserData, term: string) {
    Text.IncludesIgnoringCase(u.username, term) || Text.IncludesIgnoringCase(u.email, term)
  }

  /** `filteredUsers`: everything for an empty term, else the matching users in order. */
  function FilteredUsers(users: seq<UserData>, term: string): (r: seq<UserData>)
    ensures term == "" ==> r == users
    ensures SeqFilter.IsSubseq(r, users)
    ensures term != "" ==> forall i :: 0 <= i < |r| ==> Matches(r[i], term)
  {
    if term == "" then
      SeqFilter.SubseqRefl(users);
      users
    else
      SeqFilter.Filter(users, u => Matches(u, term))
  }

  /** A user is listed iff in the table and, for a non-empty term, matching it. */
  lemma FilteredUsersMembership(users: seq<UserData>, term: string, u: UserData)
    ensures u in FilteredUsers(users, term) <==> u in users && (term == "" || Matches(u, term))
  {
    if term != "" {
      SeqFilter.FilterMembership(users, u => Matches(u, term), u);
    }
  }

  /** The search ignores the case of the term. */
  lemma {:induction false} SearchIgnoresTermCase(users: seq<UserData>, term: string)
    ensures FilteredUsers(users, Text.Lower(term)) == FilteredUsers(users, term)
  {
    if term != "" {
      Text.LowerIdempotent(term);
      SeqFilter.FilterCongruent(users, u => Matches(u, Text.Lower(term)), u => Matches(u, term));
    }
  }

  /** The counts in the card titles never exceed the table sizes, and equal them for an empty term. */
  lemma CountsBoundedByTables(joueurs: seq<UserData>, organisateurs: seq<UserData>, term: string)
    ensures |FilteredUsers(joueurs, term)| <= |joueurs|
    ensures |FilteredUsers(organisateurs, term)| <= |organisateurs|
    ensures term == "" ==> |FilteredUsers(joueurs, term)| == |joueurs|
    ensures term == "" ==> |FilteredUsers(organisateurs, term)| == |organisateurs|
  {
    SeqFilter.SubseqLength(FilteredUsers(joueurs, term), joueurs);
    SeqFilter.SubseqLength(FilteredUsers(organisateurs, term), organisateurs);
  }

  /** `handleError`: a string is its own text, an `Error` its message, anything else the default. */
  function HandleError(err: Thrown): (text: string)
    ensures err.ThrownString? ==> text == err.s
    ensures err.ThrownError? ==> text == err.message
    ensures err.ThrownOther? ==> text == DefaultErrorText
  {
    match err
    case ThrownString(s) => s
    case ThrownError(m) => m
    case ThrownOther => DefaultErrorText
  }

  datatype UserAction = Activate | Deactivate

  /** The label of the status badge. */
  function StatusLabel(isActive: Option<bool>): (r: string)
    ensures r == "Actif" <==> isActive == Some(true)
    ensures r == "Actif" || r == "Inactif"
  {
    if isActive == Some(true) then "Actif" else "Inactif"
  }

  /** The row button's action: deactivate an active user, activate anyone else (an absent flag counts as inactive). */
  function ToggleAction(isActive: Option<bool>): (a: UserAction)
    ensures a == Deactivate <==> isActive == Some(true)
  {
    if isActive == Some(true) then Deactivate else Activate
  }

  /** The button always proposes the opposite of what the badge shows. */
  lemma ToggleOpposesBadge(isActive: Option<bool>)
    ensures ToggleAction(isActive) == Deactivate <==> StatusLabel(isActive) == "Actif"
  {
  }
}

=== FILE: api_gateway.dfy ===
/**
 * The shared HTTP client of the single-page application (`lib/api.ts`):
 * the request interceptor that attaches the bearer token, the response
 * interceptor that classifies failures and forcibly signs the user out on
 * a 401, the `auth` storage helpers and the resource path builders.
 *
 * Browser storage is a `map<string, string>`; the navigation performed
 * by `window.location.href = …` is recorded in `Browser.location`.
 */
module ApiGateway {
  import opened Wrappers
  import opened Js

  type Storage = map<string, string>

  const AuthTokenKey := "authToken"
  const AuthUserKey := "authUser"
  const AuthorizationHeader := "Authorization"
  const LoginLocation := "/login"

  /** `localStorage.getItem(key)` is truthy: the key is present and not empty. */
  predicate Stored(s: Storage, key: string) {
    key in s && s[key] != ""
  }

  datatype Method = GET | POST | PUT | PATCH | DELETE

  datatype Request = Request(verb: Method, url: string, headers: map<string, string>, body: Option<JsVal>)

  /**
   * The request interceptor: with a truthy stored `authToken` the request
   * carries `Authorization: Bearer <token>`; otherwise it goes out as built.
   */
  function AuthorizeRequest(s: Storage, req: Request): (r: Request)
    ensures r.verb == req.verb && r.url == req.url && r.body == req.body
    ensures Stored(s, AuthTokenKey) ==>
              r.headers == req.headers[AuthorizationHeader := "Bearer " + s[AuthTokenKey]]
    ensures !Stored(s, AuthTokenKey) ==> r == req
  {
    if Stored(s, AuthTokenKey) then
      req.(headers := req.headers[AuthorizationHeader := "Bearer " + s[AuthTokenKey]])
    else req
  }

  /** `auth.isAuthenticated()`: only `authToken` is consulted. */
  predicate IsAuthenticated(s: Storage) {
    Stored(s, AuthTokenKey)
  }

  /** `auth.logout()`: both session keys removed, every other key kept. */
  function Logout(s: Storage): (r: Storage)
    ensures AuthTokenKey !in r && AuthUserKey !in r
    ensures forall k :: k in r <==> k in s && k != AuthTokenKey && k != AuthUserKey
    ensures forall k :: k in r ==> r[k] == s[k]
  {
    s - {AuthTokenKey, AuthUserKey}
  }

  /**
   * `auth.getCurrentUser()`: the stored user text (JSON parsing is left
   * abstract), or null when `authUser` is absent or empty.
   */
  function GetCurrentUser(s: Storage): (r: Option<string>)
    ensures r.None? <==> !Stored(s, AuthUserKey)
    ensures r.Some? ==> AuthUserKey in s && r.value == s[AuthUserKey]
  {
    if Stored(s, AuthUserKey) then Some(s[AuthUserKey]) else None
  }

  /** Logging out twice is logging out once. */
  lemma LogoutIdempotent(s: Storage)
    ensures Logout(Logout(s)) == Logout(s)
  {
    assert Logout(Logout(s)).Keys == Logout(s).Keys;
  }

  /** After a logout no request carries a bearer token, and no user is reported. */
  lemma RequestAfterLogoutCarriesNoBearer(s: Storage, req: Request)
    ensures AuthorizeRequest(Logout(s), req) == req
    ensures !IsAuthenticated(Logout(s)) && GetCurrentUser(Logout(s)) == None
  {
  }

  /** The Authorization header is attached exactly when the client counts as authenticated. */
  lemma BearerIffAuthenticated(s: Storage, req: Request)
    requires AuthorizationHeader !in req.headers
    ensures AuthorizationHeader in AuthorizeRequest(s, req).headers <==> IsAuthenticated(s)
  {
  }

  /** The stored user never influences `isAuthenticated` or the attached header. */
  lemma AuthUserNotConsulted(s: Storage, v: string, req: Request)
    ensures IsAuthenticated(s[AuthUserKey := v]) == IsAuthenticated(s)
    ensures AuthorizeRequest(s[AuthUserKey := v], req) == AuthorizeRequest(s, req)
  {
  }

  // ---------------------------------------------------------------------
  // Response interceptor

  datatype Response = Response(status: int, data: JsVal)

  /**
   * A rejected request: the server's response when there was one, axios's
   * own `message`, and the `customMessage` some pages look for.
   */
  datatype HttpError = HttpError(response: Option<Response>, message: string, customMessage: Option<string>)

  /** What the awaited call settles to. */
  datatype Outcome = Resolved(response: Response) | Rejected(error: HttpError)

  /** The browser state the gateway touches. */
  datatype Browser = Browser(storage: Storage, location: string)

  /** The branches of the interceptor's `switch` on the status, plus "no response". */
  datatype ErrorKind = Unauthenticated | Forbidden | NotFound | ServerError | OtherStatus | NoResponse

  function Classify(e: HttpError): (k: ErrorKind)
    ensures k == NoResponse <==> e.response.None?
    ensures k == Unauthenticated <==> e.response.Some? && e.response.value.status == 401
    ensures k == Forbidden <==> e.response.Some? && e.response.value.status == 403
    ensures k == NotFound <==> e.response.Some? && e.response.value.status == 404
    ensures k == ServerError <==> e.response.Some? && e.response.value.status == 500
  {
    match e.response
    case None => NoResponse
    case Some(resp) =>
      if resp.status == 401 then Unauthenticated
      else if resp.status == 403 then Forbidden
      else if resp.status == 404 then NotFound
      else if resp.status == 500 then ServerError
      else OtherStatus
  }

  /**
   * The response interceptor: a success passes through, every error is
   * rethrown unchanged, and only a 401 clears the session and sends the
   * browser to the login page.
   */
  function Settle(b: Browser, o: Outcome): (r: (Browser, Outcome))
    ensures r.1 == o
    ensures o.Rejected? && Classify(o.error) == Unauthenticated ==>
              r.0 == Browser(Logout(b.storage), LoginLocation)
    ensures !(o.Rejected? && Classify(o.error) == Unauthenticated) ==> r.0 == b
  {
    match o
    case Resolved(_) => (b, o)
    case Rejected(e) =>
      match Classify(e)
      case Unauthenticated => (Browser(Logout(b.storage), LoginLocation), o)
      case _ => (b, o)
  }

  /** A 401 leaves the browser exactly as an explicit logout followed by a visit to /login. */
  lemma UnauthorizedIsForcedLogout(b: Browser, e: HttpError)
    requires e.response.Some? && e.response.value.status == 401
    ensures Settle(b, Rejected(e)).0.storage == Logout(b.storage)
    ensures !IsAuthenticated(Settle(b, Rejected(e)).0.storage)
    ensures GetCurrentUser(Settle(b, Rejected(e)).0.storage) == None
  {
  }

  /** A second 401 racing the first (or a logout) changes nothing further. */
  lemma RepeatedUnauthorizedIsHarmless(b: Browser, e1: HttpError, e2: HttpError)
    requires e1.response.Some? && e1.response.value.status == 401
    requires e2.response.Some? && e2.response.value.status == 401
    ensures Settle(Settle(b, Rejected(e1)).0, Rejected(e2)).0 == Settle(b, Rejected(e1)).0
  {
    LogoutIdempotent(b.storage);
  }

  // ---------------------------------------------------------------------
  // Resource helpers

  datatype Collection = Tournois | Equipes | Rencontres | Utilisateurs

  function CollectionName(c: Collection): string {
    match c
    case Tournois => "tournois"
    case Equipes => "equipes"
    case Rencontres => "rencontres"
    case Utilisateurs => "utilisateurs"
  }

  /**
   * The helpers exported by the gateway: `auth.login`/`register`, the
   * per-collection `getAll`/`getById`/`create`/`update`/`delete`,
   * `tournaments.getMyTournaments`/`register` and `dashboard.getAdminStats`.
   * The `dashboard` user and tournament helpers reuse `Update`/`Remove`.
   */
  datatype Endpoint =
    | AuthLogin
    | AuthRegister
    | ListAll(c: Collection)
    | Detail(c: Collection, id: string)
    | Create(c: Collection)
    | Update(c: Collection, id: string)
    | Remove(c: Collection, id: string)
    | MyTournaments
    | RegisterPlayer(tournoiId: string)
    | AdminStats

  /** The path segments between the slashes of each helper's URL. */
  function Segments(e: Endpoint): (r: seq<string>)
    ensures |r| >= 2 && r[0] == "api"
  {
    match e
    case AuthLogin => ["api", "auth", "login"]
    case AuthRegister => ["api", "auth", "register"]
    case ListAll(c) => ["api", CollectionName(c)]
    case Detail(c, id) => ["api", CollectionName(c), id]
    case Create(c) => ["api", CollectionName(c)]
    case Update(c, id) => ["api", CollectionName(c), id]
    case Remove(c, id) => ["api", CollectionName(c), id]
    case MyTournaments => ["api", "tournois", "mes_tournois"]
    case RegisterPlayer(id) => ["api", "tournois", id, "inscrire_joueur"]
    case AdminStats => ["api", "dashboard", "admin"]
  }

  /** Each segment followed by a slash. */
  function JoinTerminated(segs: seq<string>): string {
    if segs == [] then "" else segs[0] + "/" + JoinTerminated(segs[1..])
  }

  /** A leading slash, then every segment followed by a slash: `/api/tournois/7/`. */
  function JoinPath(segs: seq<string>): string {
    "/" + JoinTerminated(segs)
  }

  /** The URL path a helper requests. */
  function Path(e: Endpoint): (p: string)
    ensures |p| >= 5 && p[..5] == "/api/"
    ensures p[|p| - 1] == '/'
  {
    var segs := Segments(e);
    assert JoinTerminated(segs) == "api/" + JoinTerminated(segs[1..]);
    JoinTerminatedEndsWithSlash(segs[1..]);
    JoinPath(segs)
  }

  /** The path of three segments, with the first two kept together as a prefix. */
  lemma ThreeSegmentPath(a: string, b: string, x: string)
    ensures JoinPath([a, b, x]) == ("/" + a + "/" + b + "/") + x + "/"
  {
    assert [a, b, x][1..] == [b, x] && [b, x][1..] == [x] && [x][1..] == [];
    assert JoinTerminated([x]) == x + "/";
    assert JoinTerminated([b, x]) == b + "/" + (x + "/");
    assert JoinTerminated([a, b, x]) == a + "/" + (b + "/" + (x + "/"));
  }

  /** The path of four segments, the first two and the last kept together as literal text. */
  lemma FourSegmentPath(a: string, b: string, x: string, c: string)
    ensures JoinPath([a, b, x, c]) == ("/" + a + "/" + b + "/") + x + ("/" + c + "/")
  {
    assert [a, b, x, c][1..] == [b, x, c] && [b, x, c][1..] == [x, c] && [x, c][1..] == [c] && [c][1..] == [];
    assert JoinTerminated([c]) == c + "/";
    assert JoinTerminated([x, c]) == x + "/" + (c + "/");
    assert JoinTerminated([b, x, c]) == b + "/" + (x + "/" + (c + "/"));
    assert JoinTerminated([a, b, x, c]) == a + "/" + (b + "/" + (x + "/" + (c + "/")));
  }

  lemma {:induction false} JoinTerminatedEndsWithSlash(segs: seq<string>)
    ensures JoinTerminated(segs) == "" || JoinTerminated(segs)[|JoinTerminated(segs)| - 1] == '/'
    decreases |segs|
  {
    if segs != [] {
      JoinTerminatedEndsWithSlash(segs[1..]);
    }
  }

  /** Position of the first slash in `s`, or `|s|` when there is none. */
  function FirstSlash(s: string): (k: nat)
    ensures k <= |s|
    ensures forall i :: 0 <= i < k ==> s[i] != '/'
    ensures k < |s| ==> s[k] == '/'
  {
    if s == [] || s[0] == '/' then 0 else 1 + FirstSlash(s[1..])
  }

  /** Reads back slash-terminated segments; `None` when the text does not end in a slash. */
  function SplitTerminated(s: string): Option<seq<string>>
    decreases |s|
  {
    if s == [] then Some([])
    else
      var k := FirstSlash(s);
      if k == |s| then None
      else
        match SplitTerminated(s[k + 1..])
        case None => None
        case Some(rest) => Some([s[..k]] + rest)
  }

  /** The segments of an absolute, slash-terminated path. */
  function SplitPath(p: string): Option<seq<string>> {
    if p != [] && p[0] == '/' then SplitTerminated(p[1..]) else None
  }

  predicate SlashFree(seg: string) {
    forall i :: 0 <= i < |seg| ==> seg[i] != '/'
  }

  /** Splitting a joined path gives back its segments, provided none contains a slash. */
  lemma {:induction false} SplitJoin(segs: seq<string>)
    requires forall j :: 0 <= j < |segs| ==> SlashFree(segs[j])
    ensures SplitPath(JoinPath(segs)) == Some(segs)
    ensures SplitTerminated(JoinTerminated(segs)) == Some(segs)
    decreases |segs|
  {
    assert JoinPath(segs)[1..] == JoinTerminated(segs);
    if segs != [] {
      var s := JoinTerminated(segs);
      var rest := JoinTerminated(segs[1..]);
      assert s == segs[0] + ("/" + rest);
      FirstSlashAfter(segs[0], "/" + rest);
      assert s[|segs[0]| + 1..] == rest;
      assert s[..|segs[0]|] == segs[0];
      SplitJoin(segs[1..]);
      assert [segs[0]] + segs[1..] == segs;
    }
  }

  lemma FirstSlashAfter(seg: string, tail: string)
    requires SlashFree(seg) && tail != [] && tail[0] == '/'
    ensures FirstSlash(seg + tail) == |seg|
  {
    assert (seg + tail)[|seg|] == '/';
  }

  /** Every exposed helper's URL reads back as its segments. */
  lemma PathRoundTrip(e: Endpoint)
    requires forall j :: 0 <= j < |Segments(e)| ==> SlashFree(Segments(e)[j])
    ensures SplitPath(Path(e)) == Some(Segments(e))
  {
    SplitJoin(Segments(e));
  }

  /** A slash-free id is spliced into `/api/<collection>/<id>/` as exactly one segment. */
  lemma IdIsOneSegment(c: Collection, id: string)
    requires SlashFree(id)
    ensures SplitPath(Path(Detail(c, id))) == Some(["api", CollectionName(c), id])
    ensures SplitPath(Path(Update(c, id))) == Some(["api", CollectionName(c), id])
    ensures SplitPath(Path(Remove(c, id))) == Some(["api", CollectionName(c), id])
  {
    SplitJoin(["api", CollectionName(c), id]);
  }

  /** Paths built without the `/api/` prefix (as two pages do) match no helper. */
  lemma UnprefixedPathMatchesNoHelper(p: string, e: Endpoint)
    requires |p| >= 5 && p[..5] != "/api/"
    ensures Path(e) != p
  {
  }
}

=== FILE: auth_service.dfy ===
/**
 * `services/authService.ts`: a login helper that posts the credentials
 * with a bare axios call (so neither gateway interceptor runs), stores the
 * returned token under the key `token`, and converts every failure into an
 * `Error`.
 */
module AuthService {
  import opened Wrappers
  import opened Client
  import opened Js
  import ApiGateway

  /** The storage key this helper writes, which is not the gateway's `authToken`. */
  const TokenKey := "token"

  const LoginFailed := "Login failed"
  const LoginCrashed := "An error occurred during login"

  /** The body of a resolved POST: `null`, or an object whose `token` and `user` may be missing. */
  datatype LoginData = NullData | LoginData(token: Option<string>, user: Option<User>)

  /**
   * How the POST settles: with a body, with an HTTP error response carrying
   * its parsed body, or with no response at all.
   */
  datatype PostOutcome = Answered(data: LoginData) | HttpFailure(body: JsVal) | NoResponse

  /** The `{ token, user }` object returned to the caller. */
  datatype LoginResponse = LoginResponse(token: Option<string>, user: Option<User>)

  /** What `localStorage.setItem` stores for a value that may be `undefined`. */
  function SetItemText(v: Option<string>): string {
    match v
    case Some(t) => t
    case None => "undefined"
  }

  /** The `TypeError` V8 raises for reading `message` of `null` or `undefined`. */
  function ReadMessageOfNothing(body: JsVal): string {
    "Cannot read properties of " + ToString(body) + " (reading 'message')"
  }

  /**
   * `login(email, password)`: storage after the call and either the
   * response or the value it rejects with. An error body of `null` (or no
   * body) makes the `catch` clause itself throw a `TypeError`; otherwise a
   * truthy `message` becomes the `Error`'s text through `String(…)`.
   */
  function Login(s: ApiGateway.Storage, post: PostOutcome): (r: (ApiGateway.Storage, Result<LoginResponse, Thrown>))
    ensures post.Answered? && post.data.LoginData? ==>
              r.1 == Success(LoginResponse(post.data.token, post.data.user))
              && r.0 == s[TokenKey := SetItemText(post.data.token)]
    ensures post.HttpFailure? && (post.body.JNull? || post.body.JUndefined?) ==>
              r.1 == Failure(ThrownError(ReadMessageOfNothing(post.body)))
    ensures post.HttpFailure? && !(post.body.JNull? || post.body.JUndefined?) ==>
              r.1 == Failure(ThrownError(if Truthy(Get(post.body, "message")) then ToString(Get(post.body, "message"))
                                         else LoginFailed))
    ensures post.HttpFailure? && post.body.JStr? ==> r.1 == Failure(ThrownError(LoginFailed))
    ensures (post.Answered? && post.data.NullData?) || post.NoResponse? ==> r.1 == Failure(ThrownError(LoginCrashed))
    ensures r.1.Failure? ==> r.0 == s && r.1.error.ThrownError?
  {
    match post
    case Answered(NullData) => (s, Failure(ThrownError(LoginCrashed)))
    case Answered(LoginData(token, user)) => (s[TokenKey := SetItemText(token)], Success(LoginResponse(token, user)))
    case HttpFailure(body) =>
      if body.JNull? || body.JUndefined? then (s, Failure(ThrownError(ReadMessageOfNothing(body))))
      else
        var m := Get(body, "message");
        (s, Failure(ThrownError(if Truthy(m) then ToString(m) else LoginFailed)))
    case NoResponse => (s, Failure(ThrownError(LoginCrashed)))
  }

  /**
   * Whatever the POST does, the keys the gateway reads are untouched: a
   * login through this helper never authenticates later API calls.
   */
  lemma LoginLeavesGatewaySessionAlone(s: ApiGateway.Storage, post: PostOutcome)
    ensures var s' := Login(s, post).0;
            (ApiGateway.AuthTokenKey in s' <==> ApiGateway.AuthTokenKey in s)
            && (ApiGateway.AuthTokenKey in s ==> s'[ApiGateway.AuthTokenKey] == s[ApiGateway.AuthTokenKey])
            && (ApiGateway.AuthUserKey in s' <==> ApiGateway.AuthUserKey in s)
            && ApiGateway.IsAuthenticated(s') == ApiGateway.IsAuthenticated(s)
  {
  }
}

=== FILE: client.dfy ===
/**
 * Vocabulary shared by the client pages: the signed-in user as the
 * authentication context exposes it, notifications, thrown values and
 * the routes the pages navigate to.
 */
module Client {
  import opened Wrappers

  /** The user record the authentication context hands to the pages. */
  datatype User = User(id: int, username: string, email: string, role: string)

  /** A notification shown by the toast library. */
  datatype Toast = ToastSuccess(text: string) | ToastError(text: string)

  /**
   * A value caught by a `catch` clause: a thrown string, an `Error`
   * instance (with its `message`), or any other value.
   */
  datatype Thrown = ThrownString(s: string) | ThrownError(message: string) | ThrownOther

  const AdminRole := "administrateur"
  const OrganiserRole := "organisateur"

  const HomeRoute := "/"
  const LoginRoute := "/login"
  const ProfileRoute := "/profile"
  const AdminDashboardRoute := "/admin/dashboard"
  const OrganiserDashboardRoute := "/organisateur/dashboard"

  /** `!user || user.role !== role`: the role guard every restricted page repeats. */
  predicate HasRole(user: Option<User>, role: string) {
    user.Some? && user.value.role == role
  }
}

=== FILE: create_tournament.dfy ===
/**
 * `pages/CreerTournoiPage.tsx`: the organiser-only tournament creation
 * form. A submit builds the body with status `planifie`, posts it to a
 * path without the `/api/` prefix, and words failures with the shared
 * error-body normaliser behind the page's own prefix.
 */
module CreateTournament {
  import opened Wrappers
  import opened Client
  import opened Js
  import TournamentForm
  import TournamentErrors
  import ApiGateway

  const DeniedText := "Action non autorisée."
  const SuccessText := "Tournoi créé avec succès !"
  const ErrorPrefix := "Erreur lors de la création du tournoi: "
  const CreatePath := "/tournois/"
  const InitialStatus := "planifie"

  /** The form as the page first shows it: type `elimination`, price `0`, everything else empty. */
  const InitialForm := TournamentForm.Form("", "", "elimination", "", "", "", "0")

  datatype PostOutcome = Created | PostFailed(err: TournamentErrors.SubmitError)

  /**
   * The effects of one submit: the request made (path and body), the
   * toasts, the navigation and the values given to `isLoading`.
   */
  datatype Effect = Effect(request: Option<(string, JsVal)>, toasts: seq<Toast>, navigation: Option<string>,
                           loading: seq<bool>)

  /** `handleSubmit`; `price` is what `parseFloat` makes of the price text. */
  function Submit(user: Option<User>, form: TournamentForm.Form, price: JsVal, post: PostOutcome): (e: Effect)
    ensures |e.loading| >= 2 && e.loading[0] && !e.loading[|e.loading| - 1]
    ensures e.request.Some? <==> HasRole(user, OrganiserRole)
    ensures !HasRole(user, OrganiserRole) ==>
              e.toasts == [ToastError(DeniedText)] && e.navigation == Some(HomeRoute)
    ensures e.request.Some? ==>
              e.request.value == (CreatePath, TournamentForm.Payload(form, price, InitialStatus))
    ensures e.request.Some? && post.Created? ==>
              e.toasts == [ToastSuccess(SuccessText)] && e.navigation == Some(OrganiserDashboardRoute)
    ensures e.request.Some? && post.PostFailed? ==>
              e.toasts == TournamentErrors.Toasts(post.err, ErrorPrefix) && e.navigation.None?
  {
    if !HasRole(user, OrganiserRole) then
      Effect(None, [ToastError(DeniedText)], Some(HomeRoute), [true, false])
    else
      var req := (CreatePath, TournamentForm.Payload(form, price, InitialStatus));
      match post
      case Created => Effect(Some(req), [ToastSuccess(SuccessText)], Some(OrganiserDashboardRoute), [true, false])
      case PostFailed(err) => Effect(Some(req), TournamentErrors.Toasts(err, ErrorPrefix), None, [true, false])
  }

  /** The render guard: anyone but an organiser is sent home and sees nothing. */
  function RenderRedirect(user: Option<User>): (nav: Option<string>)
    ensures nav.Some? <==> !HasRole(user, OrganiserRole)
    ensures nav.Some? ==> nav.value == HomeRoute
  {
    if HasRole(user, OrganiserRole) then None else Some(HomeRoute)
  }

  /**
   * Whatever the form holds, a posted tournament asks for status
   * `planifie` and names no organiser; and the path matches none of the
   * gateway's helpers.
   */
  lemma PostedBodyIsPlanned(user: Option<User>, form: TournamentForm.Form, price: JsVal, post: PostOutcome, ep: ApiGateway.Endpoint)
    requires HasRole(user, OrganiserRole)
    ensures var req := Submit(user, form, price, post).request.value;
            Get(req.1, "statut") == JStr(InitialStatus)
            && Get(req.1, "organisateur") == JUndefined
            && req.0 != ApiGateway.Path(ep)
  {
    TournamentForm.PayloadStatus(form, price, InitialStatus);
    assert CreatePath[..5][1] != "/api/"[1];
    ApiGateway.UnprefixedPathMatchesNoHelper(CreatePath, ep);
  }

  /** A body with a string `detail` shows that detail alone, without the page prefix. */
  lemma DetailShownUnprefixed(user: Option<User>, form: TournamentForm.Form, price: JsVal,
                              detail: string, rest: seq<(string, JsVal)>, cm: Option<string>, m: string)
    requires HasRole(user, OrganiserRole) && detail != ""
    ensures Submit(user, form, price,
                   PostFailed(TournamentErrors.AxiosFailure(JObj([("detail", JStr(detail))] + rest), cm, m))).toasts
            == [ToastError(detail)]
  {
    TournamentErrors.DetailWins(rest, detail, cm, m, ErrorPrefix);
  }
}

=== FILE: edit_tournament.dfy ===
/**
 * `pages/ModifierTournoiPage.tsx`: loads one tournament into the form,
 * lets the organiser edit every field but the status, and puts the result
 * back, wording failures with the shared error-body normaliser.
 */
module EditTournament {
  import opened Wrappers
  import opened Client
  import opened Js
  import TournamentForm
  import TournamentErrors
  import ApiGateway

  const MissingIdText := "ID du tournoi manquant."
  const FetchErrorText := "Erreur lors de la récupération des détails du tournoi."
  const DeniedText := "Action non autorisée."
  const SuccessText := "Tournoi mis à jour avec succès !"
  const ErrorPrefix := "Erreur: "

  /** The page's form: the shared fields plus the (read-only) status. */
  datatype EditForm = EditForm(fields: TournamentForm.Form, statut: string)

  const InitialForm := EditForm(TournamentForm.Form("", "", "elimination", "", "", "", "0"), "planifie")

  /**
   * The tournament the detail endpoint returns; `regles`, the dates and
   * the price may be null or missing, and the price is already in text form.
   */
  datatype Fetched = Fetched(nom: string, description: string, kind: string, regles: Option<string>,
                             dateDebut: Option<string>, dateFin: Option<string>,
                             prixInscription: Option<string>, statut: string)

  /** The URL of one tournament, as the page writes it. */
  function DetailUrl(id: string): (r: string)
    ensures |r| == |id| + 15 && r[..14] == "/api/tournois/" && r[14..|r| - 1] == id && r[|r| - 1] == '/'
  {
    "/api/tournois/" + id + "/"
  }

  /** The page's URL is the gateway's detail (and update) path for that id. */
  lemma DetailUrlIsGatewayPath(id: string)
    ensures DetailUrl(id) == ApiGateway.Path(ApiGateway.Detail(ApiGateway.Tournois, id))
    ensures DetailUrl(id) == ApiGateway.Path(ApiGateway.Update(ApiGateway.Tournois, id))
  {
    ApiGateway.ThreeSegmentPath("api", "tournois", id);
    assert "/" + "api" + "/" + "tournois" + "/" == "/api/tournois/";
  }

  /**
   * The form filled from a fetched tournament. `localInput` stands for
   * the conversion of a date to the `datetime-local` input format.
   */
  function FormFromFetched(t: Fetched, localInput: string -> string): (f: EditForm)
    ensures f.statut == t.statut
    ensures f.fields.nom == t.nom && f.fields.description == t.description && f.fields.kind == t.kind
    ensures t.regles.None? || t.regles.value == "" ==> f.fields.regles == ""
    ensures t.regles.Some? && t.regles.value != "" ==> f.fields.regles == t.regles.value
    ensures t.prixInscription.None? || t.prixInscription.value == "" ==> f.fields.prixInscription == "0"
    ensures t.prixInscription.Some? && t.prixInscription.value != "" ==> f.fields.prixInscription == t.prixInscription.value
    ensures t.dateDebut.None? || t.dateDebut.value == "" ==> f.fields.dateDebut == ""
    ensures t.dateFin.None? || t.dateFin.value == "" ==> f.fields.dateFin == ""
  {
    var text := (v: Option<string>, fallback: string) => if v.Some? && v.value != "" then v.value else fallback;
    var date := (v: Option<string>) => if v.Some? && v.value != "" then localInput(v.value) else "";
    EditForm(TournamentForm.Form(t.nom, t.description, t.kind, text(t.regles, ""),
                                 date(t.dateDebut), date(t.dateFin), text(t.prixInscription, "0")),
             t.statut)
  }

  datatype FetchOutcome = FetchOk(tournoi: Fetched) | FetchFailed

  /** The state after the mount effect: toasts, navigation, the request made, the form and `isFetching`. */
  datatype Mounted = Mounted(toasts: seq<Toast>, navigation: Option<string>, request: Option<string>,
                             form: EditForm, isFetching: bool)

  function Mount(id: Option<string>, fetch: FetchOutcome, localInput: string -> string): (m: Mounted)
    ensures m.request.Some? <==> id.Some? && id.value != ""
    ensures m.request.None? ==>
              m.toasts == [ToastError(MissingIdText)] && m.navigation == Some(OrganiserDashboardRoute)
              && m.form == InitialForm && m.isFetching
    ensures m.request.Some? ==> m.request.value == DetailUrl(id.value) && !m.isFetching
    ensures m.request.Some? && fetch.FetchOk? ==>
              m.form == FormFromFetched(fetch.tournoi, localInput) && m.navigation.None? && m.toasts == []
    ensures m.request.Some? && fetch.FetchFailed? ==>
              m.form == InitialForm && m.navigation == Some(OrganiserDashboardRoute)
              && m.toasts == [ToastError(FetchErrorText)]
  {
    if id.None? || id.value == "" then
      Mounted([ToastError(MissingIdText)], Some(OrganiserDashboardRoute), None, InitialForm, true)
    else
      match fetch
      case FetchOk(t) => Mounted([], None, Some(DetailUrl(id.value)), FormFromFetched(t, localInput), false)
      case FetchFailed =>
        Mounted([ToastError(FetchErrorText)], Some(OrganiserDashboardRoute), Some(DetailUrl(id.value)), InitialForm, false)
  }

  /** The inputs that emit change events; the status input is disabled. */
  datatype Field = Nom | Description | Kind | Regles | DateDebut | DateFin | Prix

  /** The text an input shows. */
  function Value(x: TournamentForm.Form, field: Field): string {
    match field
    case Nom => x.nom
    case Description => x.description
    case Kind => x.kind
    case Regles => x.regles
    case DateDebut => x.dateDebut
    case DateFin => x.dateFin
    case Prix => x.prixInscription
  }

  /** `handleChange` for one input: that input takes the new text, every other input and the status keep theirs. */
  function Edit(f: EditForm, field: Field, value: string): (r: EditForm)
    ensures r.statut == f.statut
    ensures forall g :: Value(r.fields, g) == if g == field then value else Value(f.fields, g)
  {
    var x := f.fields;
    var y := match field
      case Nom => x.(nom := value)
      case Description => x.(description := value)
      case Kind => x.(kind := value)
      case Regles => x.(regles := value)
      case DateDebut => x.(dateDebut := value)
      case DateFin => x.(dateFin := value)
      case Prix => x.(prixInscription := value);
    f.(fields := y)
  }

  /** A sequence of change events, applied in order. */
  function ApplyEdits(f: EditForm, edits: seq<(Field, string)>): EditForm
    decreases |edits|
  {
    if edits == [] then f else ApplyEdits(Edit(f, edits[0].0, edits[0].1), edits[1..])
  }

  /** No sequence of edits changes the status. */
  lemma {:induction false} EditsKeepStatus(f: EditForm, edits: seq<(Field, string)>)
    ensures ApplyEdits(f, edits).statut == f.statut
    decreases |edits|
  {
    if edits != [] {
      EditsKeepStatus(Edit(f, edits[0].0, edits[0].1), edits[1..]);
    }
  }

  datatype PutOutcome = Updated | PutFailed(err: TournamentErrors.SubmitError)

  /** The effects of one submit: the request (URL and body), toasts, navigation and `isLoading` values. */
  datatype Effect = Effect(request: Option<(string, JsVal)>, toasts: seq<Toast>, navigation: Option<string>,
                           loading: seq<bool>)

  /** `handleSubmit`; `price` is what `parseFloat` makes of the price text. */
  function Submit(user: Option<User>, id: string, form: EditForm, price: JsVal, put: PutOutcome): (e: Effect)
    ensures e.loading == [true, false]
    ensures e.request.Some? <==> HasRole(user, OrganiserRole)
    ensures !HasRole(user, OrganiserRole) ==>
              e.toasts == [ToastError(DeniedText)] && e.navigation == Some(HomeRoute)
    ensures e.request.Some? ==>
              e.request.value == (DetailUrl(id), TournamentForm.Payload(form.fields, price, form.statut))
    ensures e.request.Some? && put.Updated? ==>
              e.toasts == [ToastSuccess(SuccessText)] && e.navigation == Some(OrganiserDashboardRoute)
    ensures e.request.Some? && put.PutFailed? ==>
              e.toasts == TournamentErrors.Toasts(put.err, ErrorPrefix) && e.navigation.None?
  {
    if !HasRole(user, OrganiserRole) then
      Effect(None, [ToastError(DeniedText)], Some(HomeRoute), [true, false])
    else
      var req := (DetailUrl(id), TournamentForm.Payload(form.fields, price, form.statut));
      match put
      case Updated => Effect(Some(req), [ToastSuccess(SuccessText)], Some(OrganiserDashboardRoute), [true, false])
      case PutFailed(err) => Effect(Some(req), TournamentErrors.Toasts(err, ErrorPrefix), None, [true, false])
  }

  /**
   * Load, edit anything, submit: the status sent is the status fetched,
   * and the request goes to the gateway's update path.
   */
  lemma StatusSentIsStatusFetched(t: Fetched, localInput: string -> string, edits: seq<(Field, string)>,
                                  user: Option<User>, id: string, price: JsVal, put: PutOutcome)
    requires HasRole(user, OrganiserRole)
    ensures var req := Submit(user, id, ApplyEdits(FormFromFetched(t, localInput), edits), price, put).request.value;
            Get(req.1, "statut") == JStr(t.statut)
            && req.0 == ApiGateway.Path(ApiGateway.Update(ApiGateway.Tournois, id))
  {
    var f := ApplyEdits(FormFromFetched(t, localInput), edits);
    EditsKeepStatus(FormFromFetched(t, localInput), edits);
    TournamentForm.PayloadStatus(f.fields, price, f.statut);
    DetailUrlIsGatewayPath(id);
  }

  /** What renders: the loading text while fetching, then nothing (and a redirect home) for non-organisers. */
  datatype View = LoadingText | RedirectHome | FormView

  function Render(user: Option<User>, isFetching: bool): (v: View)
    ensures isFetching ==> v == LoadingText
    ensures !isFetching ==> (v == FormView <==> HasRole(user, OrganiserRole))
    ensures v != FormView && !isFetching ==> v == RedirectHome
  {
    if isFetching then LoadingText
    else if !HasRole(user, OrganiserRole) then RedirectHome
    else FormView
  }

  /** With no id the page navigates away but its own view stays on the loading text. */
  lemma MissingIdLeavesLoadingView(user: Option<User>, fetch: FetchOutcome, localInput: string -> string)
    ensures Render(user, Mount(None, fetch, localInput).isFetching) == LoadingText
    ensures Mount(Some(""), fetch, localInput).request.None?
  {
  }
}

=== FILE: faq_page.dfy ===
/**
 * `pages/FAQ.tsx`: the questions filtered by a query that is lower-cased
 * and trimmed before matching; a blank query lists everything.
 */
module FaqPage {
  import Text
  import SeqFilter

  datatype Item = Item(question: string, answer: string)

  /** `searchQuery.toLowerCase().trim()`. */
  function Normalised(query: string): string {
    Text.Trim(Text.Lower(query))
  }

  predicate Keep(item: Item, needle: string) {
    Text.Contains(Text.Lower(item.question), needle) || Text.Contains(Text.Lower(item.answer), needle)
  }

  /** `filteredFAQs`. */
  function Filtered(items: seq<Item>, query: string): (r: seq<Item>)
    ensures SeqFilter.IsSubseq(r, items)
    ensures Text.Trim(query) == [] ==> r == items
    ensures Text.Trim(query) != [] ==> forall i :: 0 <= i < |r| ==> Keep(r[i], Normalised(query))
  {
    if Text.Trim(query) == [] then
      SeqFilter.SubseqRefl(items);
      items
    else
      SeqFilter.Filter(items, it => Keep(it, Normalised(query)))
  }

  /** An empty or whitespace-only query lists every item. */
  lemma BlankQueryShowsAll(items: seq<Item>, query: string)
    requires Text.AllSpace(query)
    ensures Filtered(items, query) == items
  {
    Text.TrimEmptyIffAllSpace(query);
  }

  /** For a non-blank query, an item is listed exactly when its lowered question or answer contains the normalised query. */
  lemma FilteredMembership(items: seq<Item>, query: string, item: Item)
    requires !Text.AllSpace(query)
    ensures item in Filtered(items, query) <==> item in items && Keep(item, Normalised(query))
  {
    Text.TrimEmptyIffAllSpace(query);
    SeqFilter.FilterMembership(items, it => Keep(it, Normalised(query)), item);
  }

  /** The case of the query does not matter. */
  lemma QueryCaseIrrelevant(items: seq<Item>, query: string)
    ensures Filtered(items, Text.Lower(query)) == Filtered(items, query)
  {
    Text.LowerKeepsSpaces(query);
    Text.TrimEmptyIffAllSpace(query);
    Text.TrimEmptyIffAllSpace(Text.Lower(query));
    Text.LowerIdempotent(query);
  }
}

=== FILE: js.dfy ===
/**
 * The fragment of JavaScript value semantics the pages depend on:
 * JSON-shaped values, truthiness, `typeof … === 'object'`, property
 * lookup, `Object.entries` and template-literal stringification.
 * Numbers are integers here; floating point is not modelled.
 */
module Js {

  datatype JsVal =
    | JUndefined
    | JNull
    | JBool(b: bool)
    | JNum(n: int)
    | JStr(s: string)
    | JArr(items: seq<JsVal>)
    | JObj(entries: seq<(string, JsVal)>)

  /** The value counts as true in an `if`, `&&` or `||`. */
  predicate Truthy(v: JsVal) {
    match v
    case JUndefined => false
    case JNull => false
    case JBool(b) => b
    case JNum(n) => n != 0
    case JStr(s) => s != ""
    case JArr(_) => true
    case JObj(_) => true
  }

  /** `typeof v === 'object'`: null, arrays and plain objects. */
  predicate IsObject(v: JsVal) {
    v.JNull? || v.JArr? || v.JObj?
  }

  /** Property lookup of a non-index key: the first entry with that key, else `undefined`. */
  function Get(v: JsVal, key: string): (r: JsVal)
    ensures !v.JObj? ==> r == JUndefined
  {
    if v.JObj? then Lookup(v.entries, key) else JUndefined
  }

  function Lookup(entries: seq<(string, JsVal)>, key: string): (r: JsVal)
    ensures r != JUndefined ==> exists i :: 0 <= i < |entries| && entries[i] == (key, r)
  {
    if entries == [] then JUndefined
    else if entries[0].0 == key then
      if entries[0].1 == JUndefined then JUndefined
      else assert entries[0] == (key, entries[0].1); entries[0].1
    else
      var r := Lookup(entries[1..], key);
      if r != JUndefined then
        var i :| 0 <= i < |entries[1..]| && entries[1..][i] == (key, r);
        assert entries[i + 1] == (key, r);
        r
      else r
  }

  /** The first entry carrying the key decides the lookup. */
  lemma {:induction false} LookupFirst(entries: seq<(string, JsVal)>, key: string, i: int)
    requires 0 <= i < |entries| && entries[i].0 == key && entries[i].1 != JUndefined
    requires forall j :: 0 <= j < i ==> entries[j].0 != key
    ensures Lookup(entries, key) == entries[i].1
    decreases i
  {
    if i > 0 {
      LookupFirst(entries[1..], key, i - 1);
    }
  }

  /** A key no entry carries reads as `undefined`. */
  lemma {:induction false} LookupAbsent(entries: seq<(string, JsVal)>, key: string)
    requires forall j :: 0 <= j < |entries| ==> entries[j].0 != key
    ensures Lookup(entries, key) == JUndefined
    decreases |entries|
  {
    if entries != [] {
      LookupAbsent(entries[1..], key);
    }
  }

  /** Decimal digits of a natural number. */
  function NatToString(n: nat): (r: string)
    ensures |r| > 0
    ensures forall i :: 0 <= i < |r| ==> '0' <= r[i] <= '9'
    decreases n
  {
    var d := ['0' + (n % 10) as char];
    if n < 10 then d else NatToString(n / 10) + d
  }

  /** The number a string of decimal digits reads as, most significant digit first. */
  function DigitsValue(s: string): nat
    requires forall i :: 0 <= i < |s| ==> '0' <= s[i] <= '9'
  {
    if s == [] then 0 else DigitsValue(s[..|s| - 1]) * 10 + (s[|s| - 1] - '0') as int
  }

  /** The digits read back as the number, with no leading zero except for zero itself. */
  lemma {:induction false} NatToStringReadsBack(n: nat)
    ensures DigitsValue(NatToString(n)) == n
    ensures NatToString(n)[0] == '0' ==> n == 0
    decreases n
  {
    var r := NatToString(n);
    if n >= 10 {
      NatToStringReadsBack(n / 10);
      var front := NatToString(n / 10);
      assert r == front + ['0' + (n % 10) as char];
      assert r[..|r| - 1] == front;
      assert r[0] == front[0];
    }
  }

  /** `${n}` for an integer. */
  function IntToString(n: int): string {
    if n < 0 then "-" + NatToString(-n) else NatToString(n)
  }

  /** `Object.entries(v)` for the object-like values: plain objects and arrays. */
  function Entries(v: JsVal): (r: seq<(string, JsVal)>)
    ensures v.JObj? ==> r == v.entries
    ensures v.JArr? ==> |r| == |v.items|
  {
    match v
    case JObj(es) => es
    case JArr(items) => seq(|items|, i requires 0 <= i < |items| => (NatToString(i), items[i]))
    case _ => []
  }

  /** Template-literal stringification `${v}`. */
  function ToString(v: JsVal): string
    decreases v
  {
    match v
    case JUndefined => "undefined"
    case JNull => "null"
    case JBool(b) => if b then "true" else "false"
    case JNum(n) => IntToString(n)
    case JStr(s) => s
    case JObj(_) => "[object Object]"
    case JArr(items) =>
      JoinComma(seq(|items|, i requires 0 <= i < |items| =>
        if items[i].JUndefined? || items[i].JNull? then "" else ToString(items[i])))
  }

  /** `Array.prototype.join(",")` on already stringified elements. */
  function JoinComma(parts: seq<string>): string {
    if parts == [] then ""
    else if |parts| == 1 then parts[0]
    else parts[0] + "," + JoinComma(parts[1..])
  }
}

=== FILE: login_form.dfy ===
/**
 * `components/LoginForm.tsx`, `handleSubmit`: adopts a session only when
 * the login helper returned both a user and a token, then routes
 * administrators to their dashboard and everyone else home.
 */
module LoginForm {
  import opened Wrappers
  import opened Client
  import AuthService
  import ApiGateway

  const SuccessText := "Connexion réussie!"
  const InvalidResponseText := "Erreur lors de la connexion: réponse invalide"
  const FallbackText := "Une erreur est survenue lors de la connexion"

  /**
   * The effects of one submit: the `(user, token)` pair handed to the
   * context's `login`, the toasts, the navigation and the successive
   * values of `isLoading`.
   */
  datatype Effect = Effect(adopted: Option<(User, string)>, toasts: seq<Toast>, navigation: Option<string>, loading: seq<bool>)

  /** Where a freshly signed-in user is sent. */
  function LandingRoute(role: string): (route: string)
    ensures route == AdminDashboardRoute <==> role == AdminRole
    ensures route != AdminDashboardRoute ==> route == HomeRoute
  {
    if role == AdminRole then AdminDashboardRoute else HomeRoute
  }

  /** `response.user && response.token`: both present, the token non-empty. */
  predicate Complete(resp: AuthService.LoginResponse) {
    resp.user.Some? && resp.token.Some? && resp.token.value != ""
  }

  function HandleSubmit(result: Result<AuthService.LoginResponse, Thrown>): (e: Effect)
    ensures e.loading == [true, false]
    ensures e.adopted.Some? <==> result.Success? && Complete(result.value)
    ensures e.adopted.Some? ==>
              e.adopted.value == (result.value.user.value, result.value.token.value)
              && e.navigation == Some(LandingRoute(result.value.user.value.role))
              && e.toasts == [ToastSuccess(SuccessText)]
    ensures e.adopted.None? ==> e.navigation.None? && |e.toasts| == 1 && e.toasts[0].ToastError?
    ensures result.Failure? && result.error.ThrownError? ==> e.toasts == [ToastError(result.error.message)]
    ensures result.Failure? && !result.error.ThrownError? ==> e.toasts == [ToastError(FallbackText)]
  {
    match result
    case Success(resp) =>
      if Complete(resp) then
        Effect(Some((resp.user.value, resp.token.value)), [ToastSuccess(SuccessText)],
               Some(LandingRoute(resp.user.value.role)), [true, false])
      else
        Effect(None, [ToastError(InvalidResponseText)], None, [true, false])
    case Failure(err) =>
      var text := if err.ThrownError? then err.message else FallbackText;
      Effect(None, [ToastError(text)], None, [true, false])
  }

  /** The submit wired to the login helper, whose failures are all `Error`s. */
  function Submit(s: ApiGateway.Storage, post: AuthService.PostOutcome): (ApiGateway.Storage, Effect) {
    var (s', res) := AuthService.Login(s, post);
    match res
    case Success(resp) => (s', HandleSubmit(Success(resp)))
    case Failure(err) => (s', HandleSubmit(Failure(err)))
  }

  /**
   * End to end: a session is adopted exactly when the server answered with a
   * user and a non-empty token, it is that user and token, an administrator
   * lands on the admin dashboard, and a failed login shows the helper's
   * message without touching storage.
   */
  lemma SubmitAdoptsOnlyCompleteAnswers(s: ApiGateway.Storage, post: AuthService.PostOutcome)
    ensures var (s', e) := Submit(s, post);
            && (e.adopted.Some? <==>
                  post.Answered? && post.data.LoginData? && post.data.user.Some?
                  && post.data.token.Some? && post.data.token.value != "")
            && (e.adopted.Some? ==> e.adopted.value == (post.data.user.value, post.data.token.value))
            && (e.adopted.Some? && post.data.user.value.role == AdminRole ==> e.navigation == Some(AdminDashboardRoute))
            && (post.HttpFailure? || post.NoResponse? ==> s' == s && e.navigation.None?)
            && ApiGateway.IsAuthenticated(s') == ApiGateway.IsAuthenticated(s)
  {
    AuthService.LoginLeavesGatewaySessionAlone(s, post);
  }
}

=== FILE: login_page.dfy ===
/**
 * `pages/Login.tsx`: sends an already-authenticated visitor home on mount,
 * and on submit calls the gateway's `auth.login`, whose rejections pass
 * through the response interceptor before the page words the error.
 */
module LoginPage {
  import opened Wrappers
  import opened Client
  import opened ApiGateway

  const SuccessText := "Connexion réussie!"
  const BadCredentialsText := "Email ou mot de passe incorrect"
  const UnexpectedText := "Une erreur inattendue s'est produite"

  /** The mount effect: the navigation it triggers, if any. */
  function OnMount(s: Storage): (nav: Option<string>)
    ensures nav.Some? <==> IsAuthenticated(s)
    ensures nav.Some? ==> nav.value == HomeRoute
  {
    if IsAuthenticated(s) then Some(HomeRoute) else None
  }

  /** The message shown for a rejected login: `customMessage`, then 401, then the generic text. */
  function ErrorText(e: HttpError): (text: string)
    ensures e.customMessage.Some? && e.customMessage.value != "" ==> text == e.customMessage.value
    ensures !(e.customMessage.Some? && e.customMessage.value != "") && Classify(e) == Unauthenticated ==>
              text == BadCredentialsText
    ensures !(e.customMessage.Some? && e.customMessage.value != "") && Classify(e) != Unauthenticated ==>
              text == UnexpectedText
  {
    if e.customMessage.Some? && e.customMessage.value != "" then e.customMessage.value
    else if e.response.Some? && e.response.value.status == 401 then BadCredentialsText
    else UnexpectedText
  }

  /**
   * The effects of one submit: the browser after the gateway settled the
   * call, the successive values of `errorMessage`, the toasts, the
   * in-app navigation and the successive values of `isLoading`.
   */
  datatype Effect = Effect(browser: Browser, errorMessages: seq<Option<string>>, toasts: seq<Toast>,
                           navigation: Option<string>, loading: seq<bool>)

  function HandleSubmit(b: Browser, o: Outcome): (e: Effect)
    ensures |e.errorMessages| >= 1 && e.errorMessages[0].None?
    ensures e.loading == [true, false]
    ensures o.Resolved? ==>
              e.navigation == Some(HomeRoute) && e.errorMessages == [None] && e.browser == b
              && e.toasts == [ToastSuccess(SuccessText)]
    ensures o.Rejected? ==>
              e.navigation.None?
              && e.errorMessages == [None, Some(ErrorText(o.error))]
              && e.toasts == [ToastError(ErrorText(o.error))]
              && e.browser == Settle(b, o).0
  {
    var (b', o') := Settle(b, o);
    match o'
    case Resolved(_) => Effect(b', [None], [ToastSuccess(SuccessText)], Some(HomeRoute), [true, false])
    case Rejected(err) =>
      var text := ErrorText(err);
      Effect(b', [None, Some(text)], [ToastError(text)], None, [true, false])
  }

  /**
   * Wrong credentials answered with 401: the page says so, and the
   * interceptor has already wiped any stored session and sent the browser
   * to /login.
   */
  lemma WrongPasswordClearsSession(b: Browser, e: HttpError)
    requires e.response.Some? && e.response.value.status == 401
    requires e.customMessage.None?
    ensures HandleSubmit(b, Rejected(e)).errorMessages == [None, Some(BadCredentialsText)]
    ensures HandleSubmit(b, Rejected(e)).browser == Browser(Logout(b.storage), LoginLocation)
  {
  }

  /** A successful login through this page stores nothing: storage is what it was. */
  lemma SuccessStoresNothing(b: Browser, resp: Response)
    ensures HandleSubmit(b, Resolved(resp)).browser.storage == b.storage
    ensures IsAuthenticated(HandleSubmit(b, Resolved(resp)).browser.storage) == IsAuthenticated(b.storage)
  {
  }
}

=== FILE: models.dfy ===
/**
 * `backend/tournois/models.py`: the tables behind the REST API, with the
 * choices, defaults, uniqueness and check constraints that the database
 * and the model layer enforce, and `Rencontre.save`, which names a match
 * after its two teams.
 *
 * Dates are whole numbers (their order is all that matters here) and money
 * is an integer number of cents.
 */
module Models {
  import opened Wrappers
  import SeqFilter

  /** `Utilisateur.ROLE_CHOICES`. */
  datatype Role = Joueur | Organisateur | Administrateur | Arbitre

  /** The value a role is stored as. */
  function RoleCode(r: Role): (code: string) {
    match r
    case Joueur => "joueur"
    case Organisateur => "organisateur"
    case Administrateur => "administrateur"
    case Arbitre => "arbitre"
  }

  /** The role a stored value stands for; `None` for values outside the choices. */
  function RoleOf(code: string): (r: Option<Role>)
    ensures r.Some? ==> RoleCode(r.value) == code
  {
    if code == "joueur" then Some(Joueur)
    else if code == "organisateur" then Some(Organisateur)
    else if code == "administrateur" then Some(Administrateur)
    else if code == "arbitre" then Some(Arbitre)
    else None
  }

  /** Every role is stored as a value that reads back as that role, and only the four codes are roles. */
  lemma RoleCodeRoundTrip(r: Role, code: string)
    ensures RoleOf(RoleCode(r)) == Some(r)
    ensures RoleOf(code).Some? <==> code in {"joueur", "organisateur", "administrateur", "arbitre"}
  {
  }

  /**
   * A row of `utilisateur`. `password` stands for the secret the stored
   * hash was made from: checking a password is comparing with it.
   */
  datatype Utilisateur = Utilisateur(id: int, username: string, email: string, password: string,
                                     firstName: string, lastName: string, role: string, isActive: bool)

  /** `username` and `email` are unique columns, `id` the primary key. */
  predicate UniqueIdentities(users: seq<Utilisateur>) {
    forall i, j :: 0 <= i < j < |users| ==>
      users[i].id != users[j].id && users[i].username != users[j].username && users[i].email != users[j].email
  }

  /** A row of `joueur`, `organisateur`, `administrateur` or `arbitre`: its key is the user's id. */
  datatype Profile = Profile(kind: Role, userId: int)

  datatype Equipe = Equipe(id: int, nom: string)

  /** `JoueurEquipe.ROLE_CHOICES` and its default. */
  const MemberRoles: set<string> := {"capitaine", "membre", "remplacant"}
  const DefaultMemberRole := "membre"

  datatype JoueurEquipe = JoueurEquipe(joueurId: int, equipeId: int, role: string)

  /** The `unique_joueur_equipe` constraint. */
  predicate UniqueMemberships(ms: seq<JoueurEquipe>) {
    forall i, j :: 0 <= i < j < |ms| ==> (ms[i].joueurId, ms[i].equipeId) != (ms[j].joueurId, ms[j].equipeId)
  }

  datatype MembershipError = DuplicateMembership | InvalidMemberRole(role: string)

  /**
   * Adding a player to a team: the role defaults to `membre` and must be
   * one of the choices; a second row for the same player and team
   * violates the unique constraint.
   */
  function AddMembership(ms: seq<JoueurEquipe>, joueurId: int, equipeId: int, role: Option<string>)
    : (r: Result<seq<JoueurEquipe>, MembershipError>)
    ensures r.Success? <==>
            role.GetOr(DefaultMemberRole) in MemberRoles &&
            forall i :: 0 <= i < |ms| ==> (ms[i].joueurId, ms[i].equipeId) != (joueurId, equipeId)
    ensures r.Success? ==> r.value == ms + [JoueurEquipe(joueurId, equipeId, role.GetOr(DefaultMemberRole))]
    ensures role.None? && r.Success? ==> r.value[|ms|].role == "membre"
  {
    var chosen := role.GetOr(DefaultMemberRole);
    if chosen !in MemberRoles then Failure(InvalidMemberRole(chosen))
    else if exists i :: 0 <= i < |ms| && (ms[i].joueurId, ms[i].equipeId) == (joueurId, equipeId) then
      Failure(DuplicateMembership)
    else Success(ms + [JoueurEquipe(joueurId, equipeId, chosen)])
  }

  /** Adding a membership never breaks the uniqueness of (player, team) pairs. */
  lemma AddMembershipKeepsPairsUnique(ms: seq<JoueurEquipe>, joueurId: int, equipeId: int, role: Option<string>)
    requires UniqueMemberships(ms)
    requires AddMembership(ms, joueurId, equipeId, role).Success?
    ensures UniqueMemberships(AddMembership(ms, joueurId, equipeId, role).value)
  {
  }

  /** `Tournoi.STATUT_CHOICES`, `TYPE_CHOICES` and the defaults. */
  const TournoiStatuses: set<string> := {"planifie", "en_cours", "termine", "annule"}
  const TournoiKinds: set<string> := {"elimination", "round-robin", "mixte"}
  const DefaultTournoiStatus := "planifie"
  const DefaultPrice := 0

  datatype Tournoi = Tournoi(id: int, nom: string, description: string, kind: string, regles: string,
                             dateDebut: int, dateFin: int, prixInscription: int, statut: string,
                             organisateurId: int)

  /** `check_date_fin_apres_debut` together with the price's `MinValueValidator(0)`. */
  predicate TournoiConstraints(t: Tournoi) {
    t.dateFin > t.dateDebut && t.prixInscription >= 0
  }

  /** A new tournament row, with the price and status left to their defaults when not given. */
  function NewTournoi(id: int, nom: string, description: string, kind: string, dateDebut: int, dateFin: int,
                      organisateurId: int, prix: Option<int>, statut: Option<string>): (t: Tournoi)
    ensures prix.None? ==> t.prixInscription == 0
    ensures prix.Some? ==> t.prixInscription == prix.value
    ensures statut.None? ==> t.statut == "planifie"
    ensures statut.Some? ==> t.statut == statut.value
    ensures t.dateDebut == dateDebut && t.dateFin == dateFin && t.regles == ""
  {
    Tournoi(id, nom, description, kind, "", dateDebut, dateFin, prix.GetOr(DefaultPrice),
            statut.GetOr(DefaultTournoiStatus), organisateurId)
  }

  /** With the default price, the constraints reduce to the date order. */
  lemma DefaultTournoiConstraints(id: int, nom: string, description: string, kind: string, dateDebut: int,
                                  dateFin: int, organisateurId: int, statut: Option<string>)
    ensures TournoiConstraints(NewTournoi(id, nom, description, kind, dateDebut, dateFin, organisateurId, None, statut))
            <==> dateFin > dateDebut
  {
  }

  /** `Rencontre.STATUT_CHOICES`: the tournament's four plus `reporte`. */
  const RencontreStatuses: set<string> := {"planifie", "en_cours", "termine", "annule", "reporte"}
  const FinishedStatus := "termine"

  /**
   * A match. `date_heure` and `equipe2` are optional here so that a match
   * built without them can be expressed; both columns are `NOT NULL` and
   * `date_heure` has no default. The nullable `duree`, `arbitre` and
   * `terrain` columns take part in no rule and are not represented.
   */
  datatype Rencontre = Rencontre(id: int, tournoiId: int, nom: string, dateHeure: Option<int>,
                                 score1: Option<int>, score2: Option<int>,
                                 statut: string, equipe1: int, equipe2: Option<int>)

  /** The non-null `date_heure` and `equipe2` columns and the `check_equipes_differentes` constraint. */
  predicate RencontreConstraints(r: Rencontre) {
    r.dateHeure.Some? && r.equipe2.Some? && r.equipe2.value != r.equipe1
  }

  /** `str(equipe)`: the team's name, when the team exists. */
  function TeamName(equipes: seq<Equipe>, id: int): (n: Option<string>)
    ensures n.Some? <==> exists i :: 0 <= i < |equipes| && equipes[i].id == id
    ensures n.Some? ==> exists i :: 0 <= i < |equipes| && equipes[i].id == id && equipes[i].nom == n.value
    decreases |equipes|
  {
    if equipes == [] then None
    else if equipes[0].id == id then Some(equipes[0].nom)
    else
      var rest := TeamName(equipes[1..], id);
      assert rest.Some? ==> exists i :: 0 <= i < |equipes[1..]| && equipes[1..][i].id == id && equipes[1..][i].nom == rest.value;
      rest
  }

  /**
   * Why saving a match fails: reading a team that does not exist (for a
   * non-null foreign key left at `None`, Django raises
   * `RelatedObjectDoesNotExist`, a subclass of `Equipe.DoesNotExist`), or
   * a row the database refuses.
   */
  datatype SaveError = TeamDoesNotExist | IntegrityError

  /**
   * `Rencontre.save`: a blank name becomes "<team 1> vs <team 2>" before
   * the row is written; the database then enforces the two constraints.
   */
  function SaveRencontre(r: Rencontre, equipes: seq<Equipe>): (res: Result<Rencontre, SaveError>)
    ensures res.Success? ==> RencontreConstraints(res.value)
    ensures res.Success? ==> res.value == r.(nom := res.value.nom) && res.value.nom != ""
    ensures res.Success? && r.nom != "" ==> res.value == r
    ensures res.Success? && r.nom == "" ==>
            && r.equipe2.Some? && TeamName(equipes, r.equipe1).Some? && TeamName(equipes, r.equipe2.value).Some?
            && res.value.nom == TeamName(equipes, r.equipe1).value + " vs " + TeamName(equipes, r.equipe2.value).value
    ensures r.nom == "" && r.equipe2.None? ==> res == Failure(TeamDoesNotExist)
    ensures r.nom != "" ==> (res.Success? <==> RencontreConstraints(r))
  {
    var named :=
      if r.nom != "" then Success(r)
      else
        var n1 := TeamName(equipes, r.equipe1);
        if n1.None? || r.equipe2.None? then Failure(TeamDoesNotExist)
        else
          var n2 := TeamName(equipes, r.equipe2.value);
          if n2.None? then Failure(TeamDoesNotExist)
          else Success(r.(nom := n1.value + " vs " + n2.value));
    if named.Failure? then named
    else if !RencontreConstraints(named.value) then Failure(IntegrityError)
    else named
  }

  /** Saving a saved match again changes nothing: its name is no longer blank. */
  lemma SaveRencontreIdempotent(r: Rencontre, equipes: seq<Equipe>)
    requires SaveRencontre(r, equipes).Success?
    ensures SaveRencontre(SaveRencontre(r, equipes).value, equipes) == SaveRencontre(r, equipes)
  {
  }

  /** `Paiement.METHODE_CHOICES`, `STATUT_CHOICES` and the default status. */
  const PaymentMethods: set<string> := {"carte", "virement", "especes", "autre"}
  const PaymentStatuses: set<string> := {"en_attente", "paye", "refuse", "rembourse"}
  const DefaultPaymentStatus := "en_attente"

  /**
   * A payment; `joueurId` is the paying player's key, which is their user
   * id, and `datePaiement` the moment it was recorded.
   */
  datatype Paiement = Paiement(id: int, joueurId: int, montant: int, datePaiement: int, methode: string,
                               statut: string)

  /** The ordering key of `Paiement.Meta`: payments are listed by descending date. */
  function PaidAt(p: Paiement): int {
    p.datePaiement
  }

  datatype PaymentError = NegativeAmount | InvalidMethod(methode: string) | InvalidPaymentStatus(statut: string)

  /**
   * A new payment through the model's validators: a non-negative amount,
   * a listed method, and a listed status that defaults to `en_attente`.
   * `now` is the clock reading `auto_now_add` stores as the date.
   */
  function NewPaiement(id: int, joueurId: int, montant: int, methode: string, statut: Option<string>, now: int)
    : (r: Result<Paiement, PaymentError>)
    ensures r.Success? <==>
            montant >= 0 && methode in PaymentMethods && statut.GetOr(DefaultPaymentStatus) in PaymentStatuses
    ensures r.Success? ==> r.value.montant == montant && r.value.joueurId == joueurId && r.value.methode == methode
    ensures r.Success? ==> r.value.datePaiement == now
    ensures r.Success? && statut.None? ==> r.value.statut == "en_attente"
    ensures r.Success? && statut.Some? ==> r.value.statut == statut.value
    ensures montant < 0 ==> r == Failure(NegativeAmount)
  {
    if montant < 0 then Failure(NegativeAmount)
    else if methode !in PaymentMethods then Failure(InvalidMethod(methode))
    else if statut.GetOr(DefaultPaymentStatus) !in PaymentStatuses then
      Failure(InvalidPaymentStatus(statut.GetOr(DefaultPaymentStatus)))
    else Success(Paiement(id, joueurId, montant, now, methode, statut.GetOr(DefaultPaymentStatus)))
  }

  /**
   * A payment recorded no earlier than every stored one heads the
   * newest-first order: put in front of the payments, the order still holds.
   */
  lemma NewPaymentComesFirst(ps: seq<Paiement>, id: int, joueurId: int, montant: int, methode: string,
                             statut: Option<string>, now: int)
    requires SeqFilter.Descending(ps, PaidAt)
    requires forall i :: 0 <= i < |ps| ==> ps[i].datePaiement <= now
    requires NewPaiement(id, joueurId, montant, methode, statut, now).Success?
    ensures SeqFilter.Descending([NewPaiement(id, joueurId, montant, methode, statut, now).value] + ps, PaidAt)
  {
    var all := [NewPaiement(id, joueurId, montant, methode, statut, now).value] + ps;
    forall i, j | 0 <= i < j < |all|
      ensures PaidAt(all[i]) >= PaidAt(all[j])
    {
      assert all[j] == ps[j - 1];
      if i > 0 {
        assert all[i] == ps[i - 1];
      }
    }
  }

  /** The match's foreign keys point at existing teams. */
  predicate TeamsExist(equipes: seq<Equipe>, r: Rencontre) {
    TeamName(equipes, r.equipe1).Some? && (r.equipe2.Some? ==> TeamName(equipes, r.equipe2.value).Some?)
  }

  /** The database: one sequence of rows per table the core touches. */
  datatype Store = Store(users: seq<Utilisateur>, profiles: seq<Profile>, equipes: seq<Equipe>,
                         tournois: seq<Tournoi>, rencontres: seq<Rencontre>, paiements: seq<Paiement>)

  /** What the database and the model validators guarantee of every committed state. */
  predicate WellFormed(s: Store) {
    && UniqueIdentities(s.users)
    && (forall i :: 0 <= i < |s.rencontres| ==> RencontreConstraints(s.rencontres[i]))
    && (forall i :: 0 <= i < |s.rencontres| ==> TeamsExist(s.equipes, s.rencontres[i]))
    && (forall i :: 0 <= i < |s.tournois| ==> TournoiConstraints(s.tournois[i]))
  }

  /** Replacing one match by a row that meets the constraints and names existing teams keeps the database well-formed. */
  lemma ReplacedRencontreKeepsWellFormed(s: Store, i: int, m: Rencontre)
    requires WellFormed(s) && 0 <= i < |s.rencontres|
    requires RencontreConstraints(m) && TeamsExist(s.equipes, m)
    ensures WellFormed(s.(rencontres := s.rencontres[i := m]))
  {
    var rs := s.rencontres[i := m];
    forall k | 0 <= k < |rs|
      ensures RencontreConstraints(rs[k]) && TeamsExist(s.equipes, rs[k])
    {
      if k != i {
        assert rs[k] == s.rencontres[k];
      }
    }
  }

  /** A row that meets the constraints and names existing teams is saved, and still names existing teams. */
  lemma ValidRowSaves(r: Rencontre, equipes: seq<Equipe>)
    requires RencontreConstraints(r) && TeamsExist(equipes, r)
    ensures SaveRencontre(r, equipes).Success?
    ensures TeamsExist(equipes, SaveRencontre(r, equipes).value)
  {
    var m := SaveRencontre(r, equipes).value;
    assert m.equipe1 == r.equipe1 && m.equipe2 == r.equipe2;
  }
}

=== FILE: news_page.dfy ===
/**
 * `pages/News.tsx`: the articles filtered by an untrimmed search term on
 * title and excerpt. The category tabs only render triggers; they select
 * nothing.
 */
module NewsPage {
  import Text
  import SeqFilter

  datatype Article = Article(id: int, title: string, excerpt: string, category: string)

  predicate Keep(a: Article, term: string) {
    Text.IncludesIgnoringCase(a.title, term) || Text.IncludesIgnoringCase(a.excerpt, term)
  }

  /** `filteredArticles`. */
  function Filtered(articles: seq<Article>, term: string): (r: seq<Article>)
    ensures SeqFilter.IsSubseq(r, articles)
    ensures term == "" ==> r == articles
    ensures forall i :: 0 <= i < |r| ==> Keep(r[i], term)
  {
    if term == "" then
      SeqFilter.SubseqRefl(articles);
      forall i | 0 <= i < |articles|
        ensures Keep(articles[i], term)
      {
        Text.EveryTextIncludesEmpty(articles[i].title);
      }
      articles
    else
      SeqFilter.Filter(articles, a => Keep(a, term))
  }

  /** An article is listed exactly when its lowered title or excerpt contains the lowered term. */
  lemma FilteredMembership(articles: seq<Article>, term: string, a: Article)
    ensures a in Filtered(articles, term) <==> a in articles && Keep(a, term)
  {
    if term == "" {
      if a in articles {
        Text.EveryTextIncludesEmpty(a.title);
      }
    } else {
      SeqFilter.FilterMembership(articles, x => Keep(x, term), a);
    }
  }

  /** What the page lists with a given tab selected: the tab is not consulted. */
  function Displayed(articles: seq<Article>, term: string, tab: string): (r: seq<Article>)
    ensures SeqFilter.IsSubseq(r, articles)
  {
    Filtered(articles, term)
  }

  lemma TabsDoNotFilter(articles: seq<Article>, term: string, tab: string)
    ensures Displayed(articles, term, tab) == Displayed(articles, term, "Tous")
  {
  }

  /**
   * The term is not trimmed: a single space still filters, listing exactly
   * the articles whose title or excerpt holds a space.
   */
  lemma SpaceTermStillFilters(articles: seq<Article>, a: Article)
    ensures a in Filtered(articles, " ") <==> a in articles && (' ' in a.title || ' ' in a.excerpt)
  {
    FilteredMembership(articles, " ", a);
    Text.IncludesNonLetter(a.title, ' ');
    Text.IncludesNonLetter(a.excerpt, ' ');
    assert " " == [' '];
  }
}

=== FILE: organiser_dashboard.dfy ===
/**
 * `pages/OrganisateurDashboard.tsx`: the organiser guard, the tournament
 * list fetched only when the context holds a token, and the loading flag
 * that only the fetch clears.
 */
module OrganiserDashboard {
  import opened Wrappers
  import opened Client
  import opened Js
  import ApiGateway

  const DeniedText := "Accès non autorisé."
  const FetchErrorText := "Erreur lors du chargement des tournois."

  /** The path the page requests, written without the gateway's `/api/` prefix. */
  const ListPath := "/tournois/"

  /** How the list request settles, if it is made. */
  datatype FetchOutcome = Fetched(data: seq<JsVal>) | FetchFailed

  datatype View = RenderNothing | LoadingText | TournamentTable(rows: seq<JsVal>)

  /**
   * The state after the mount effect has run: toasts, navigation, the
   * path requested (if any), the list, the loading flag and what renders.
   */
  datatype Mounted = Mounted(toasts: seq<Toast>, navigation: Option<string>, request: Option<string>,
                             tournois: seq<JsVal>, isLoading: bool, view: View)

  /** What the page renders for a given state. */
  function Render(user: Option<User>, isLoading: bool, tournois: seq<JsVal>): (v: View)
    ensures v == RenderNothing <==> !HasRole(user, OrganiserRole)
    ensures v == LoadingText <==> HasRole(user, OrganiserRole) && isLoading
  {
    if !HasRole(user, OrganiserRole) then RenderNothing
    else if isLoading then LoadingText
    else TournamentTable(tournois)
  }

  function Mount(user: Option<User>, token: Option<string>, fetch: FetchOutcome): (m: Mounted)
    ensures !HasRole(user, OrganiserRole) ==>
              m.toasts == [ToastError(DeniedText)] && m.navigation == Some(HomeRoute)
              && m.request.None? && m.view == RenderNothing
    ensures m.request.Some? <==> HasRole(user, OrganiserRole) && token.Some? && token.value != ""
    ensures m.request.Some? ==> m.request.value == ListPath
    ensures m.isLoading <==> m.request.None?
    ensures m.request.Some? && fetch.Fetched? ==> m.tournois == fetch.data && m.toasts == []
    ensures m.request.Some? && fetch.FetchFailed? ==> m.tournois == [] && m.toasts == [ToastError(FetchErrorText)]
    ensures m.view == Render(user, m.isLoading, m.tournois)
  {
    if !HasRole(user, OrganiserRole) then
      Mounted([ToastError(DeniedText)], Some(HomeRoute), None, [], true, Render(user, true, []))
    else if token.Some? && token.value != "" then
      match fetch
      case Fetched(data) => Mounted([], None, Some(ListPath), data, false, Render(user, false, data))
      case FetchFailed => Mounted([ToastError(FetchErrorText)], None, Some(ListPath), [], false, Render(user, false, []))
    else
      Mounted([], None, None, [], true, Render(user, true, []))
  }

  /** An organiser whose context holds no token waits on the loading text for ever. */
  lemma NoTokenNeverLeavesLoading(user: Option<User>, fetch: FetchOutcome)
    requires HasRole(user, OrganiserRole)
    ensures Mount(user, None, fetch).view == LoadingText
    ensures Mount(user, Some(""), fetch).view == LoadingText
  {
  }

  /** The list request is not the gateway's tournament list: it lacks the `/api/` prefix. */
  lemma RequestMissesApiPrefix(user: Option<User>, token: Option<string>, fetch: FetchOutcome, e: ApiGateway.Endpoint)
    requires Mount(user, token, fetch).request.Some?
    ensures Mount(user, token, fetch).request.value != ApiGateway.Path(e)
    ensures Mount(user, token, fetch).request.value != ApiGateway.Path(ApiGateway.ListAll(ApiGateway.Tournois))
  {
    assert ListPath[..5][1] != "/api/"[1];
    ApiGateway.UnprefixedPathMatchesNoHelper(ListPath, e);
    ApiGateway.UnprefixedPathMatchesNoHelper(ListPath, ApiGateway.ListAll(ApiGateway.Tournois));
  }
}

=== FILE: permissions.dfy ===
/**
 * The permission classes of `backend/tournois/views.py`: reads are open
 * to everyone, writes need one role. The unauthenticated user Django
 * supplies is a truthy object without a `role` attribute, so for a write
 * the comparison raises `AttributeError` instead of refusing.
 */
module Permissions {
  import opened Models

  datatype HttpMethod = Get | Head | Options | Post | Put | Patch | Delete

  /** `permissions.SAFE_METHODS`. */
  predicate Safe(m: HttpMethod) {
    m == Get || m == Head || m == Options
  }

  /** `request.user`: Django's anonymous user, or a row of `utilisateur`. */
  datatype Requester = Anonymous | Authenticated(user: Utilisateur)

  /** `has_permission` returns true, returns false, or raises (a 500 answer). */
  datatype Decision = Allow | Deny | Raises

  /** The shared body of the three `Is<Role>OrReadOnly` classes, for the role value `role`. */
  function RoleOrReadOnly(role: string, m: HttpMethod, who: Requester): (d: Decision)
    ensures d == Allow <==> Safe(m) || (who.Authenticated? && who.user.role == role)
    ensures d == Raises <==> !Safe(m) && who.Anonymous?
    ensures d == Deny <==> !Safe(m) && who.Authenticated? && who.user.role != role
  {
    if Safe(m) then Allow
    else match who
      case Anonymous => Raises
      case Authenticated(u) => if u.role == role then Allow else Deny
  }

  function IsAdminOrReadOnly(m: HttpMethod, who: Requester): (d: Decision)
    ensures d == Allow <==> Safe(m) || (who.Authenticated? && who.user.role == RoleCode(Administrateur))
    ensures d == Raises <==> !Safe(m) && who.Anonymous?
  {
    RoleOrReadOnly(RoleCode(Administrateur), m, who)
  }

  function IsOrganisateurOrReadOnly(m: HttpMethod, who: Requester): (d: Decision)
    ensures d == Allow <==> Safe(m) || (who.Authenticated? && who.user.role == RoleCode(Organisateur))
    ensures d == Raises <==> !Safe(m) && who.Anonymous?
  {
    RoleOrReadOnly(RoleCode(Organisateur), m, who)
  }

  function IsArbitreOrReadOnly(m: HttpMethod, who: Requester): (d: Decision)
    ensures d == Allow <==> Safe(m) || (who.Authenticated? && who.user.role == RoleCode(Arbitre))
    ensures d == Raises <==> !Safe(m) && who.Anonymous?
  {
    RoleOrReadOnly(RoleCode(Arbitre), m, who)
  }

  /** No write is allowed by two of the classes: each admits exactly one role. */
  lemma WritersAreDisjoint(m: HttpMethod, who: Requester)
    requires !Safe(m)
    ensures !(IsAdminOrReadOnly(m, who) == Allow && IsOrganisateurOrReadOnly(m, who) == Allow)
    ensures !(IsAdminOrReadOnly(m, who) == Allow && IsArbitreOrReadOnly(m, who) == Allow)
    ensures !(IsOrganisateurOrReadOnly(m, who) == Allow && IsArbitreOrReadOnly(m, who) == Allow)
  {
  }

  /** A player may read everything and write nothing through these classes. */
  lemma PlayersOnlyRead(m: HttpMethod, u: Utilisateur)
    requires u.role == RoleCode(Joueur)
    ensures IsAdminOrReadOnly(m, Authenticated(u)) == Allow <==> Safe(m)
    ensures IsOrganisateurOrReadOnly(m, Authenticated(u)) == Allow <==> Safe(m)
    ensures IsArbitreOrReadOnly(m, Authenticated(u)) == Allow <==> Safe(m)
  {
  }

  /** `permissions.IsAuthenticated`: any signed-in user, whatever the method. */
  predicate IsAuthenticated(who: Requester) {
    who.Authenticated?
  }
}

=== FILE: protected_route.dfy ===
/**
 * `components/ProtectedRoute.tsx`: the route guard. It reads only the
 * authentication context's `isLoading` and `isAuthenticated` flags.
 */
module ProtectedRoute {
  import opened Wrappers
  import opened Client

  /** What the authentication context exposes; how it is restored is not modelled. */
  datatype AuthState = AuthState(user: Option<User>, token: Option<string>, isAuthenticated: bool, isLoading: bool)

  datatype View =
    | LoadingPlaceholder
    | NavigateTo(route: string, replace: bool)
    | ChildOutlet

  function Guard(st: AuthState): (v: View)
    ensures st.isLoading ==> v == LoadingPlaceholder
    ensures !st.isLoading && !st.isAuthenticated ==> v == NavigateTo(LoginRoute, true)
    ensures !st.isLoading && st.isAuthenticated ==> v == ChildOutlet
  {
    if st.isLoading then LoadingPlaceholder
    else if !st.isAuthenticated then NavigateTo(LoginRoute, true)
    else ChildOutlet
  }

  /**
   * Exactly one of the three outcomes for every input; the child renders
   * only for a settled, authenticated context, and the only redirect is a
   * replacing one to /login.
   */
  lemma ThreeWayDecision(st: AuthState)
    ensures Guard(st).ChildOutlet? <==> !st.isLoading && st.isAuthenticated
    ensures Guard(st).LoadingPlaceholder? <==> st.isLoading
    ensures Guard(st).NavigateTo? <==> !st.isLoading && !st.isAuthenticated
    ensures Guard(st).NavigateTo? ==> Guard(st).route == LoginRoute && Guard(st).replace
  {
  }

  /** No role (indeed no user field, nor the token) is consulted. */
  lemma RoleNotConsulted(st: AuthState, user: Option<User>, token: Option<string>)
    ensures Guard(st.(user := user, token := token)) == Guard(st)
  {
  }
}

=== FILE: ranking_page.dfy ===
/**
 * `pages/Ranking.tsx`: the team ranking filtered by a game selector and a
 * free-text search on the team name.
 */
module RankingPage {
  import Text
  import SeqFilter

  const AllGames := "Tous les jeux"

  datatype Team = Team(id: int, name: string, games: seq<string>)

  predicate Keep(t: Team, game: string, term: string) {
    (game == AllGames || game in t.games) && Text.IncludesIgnoringCase(t.name, term)
  }

  /** `filteredTeams`. */
  function Filtered(teams: seq<Team>, game: string, term: string): (r: seq<Team>)
    ensures SeqFilter.IsSubseq(r, teams)
    ensures game != AllGames ==> forall i :: 0 <= i < |r| ==> game in r[i].games
    ensures forall i :: 0 <= i < |r| ==> Text.IncludesIgnoringCase(r[i].name, term)
  {
    SeqFilter.Filter(teams, t => Keep(t, game, term))
  }

  /** A team is listed exactly when it plays the selected game (or all are selected) and its name matches. */
  lemma FilteredMembership(teams: seq<Team>, game: string, term: string, t: Team)
    ensures t in Filtered(teams, game, term) <==>
            t in teams && (game == AllGames || game in t.games) && Text.IncludesIgnoringCase(t.name, term)
  {
    SeqFilter.FilterMembership(teams, u => Keep(u, game, term), t);
  }

  /** The page's initial state lists every team. */
  lemma InitialStateShowsAll(teams: seq<Team>)
    ensures Filtered(teams, AllGames, "") == teams
  {
    forall i | 0 <= i < |teams|
      ensures Keep(teams[i], AllGames, "")
    {
      Text.EveryTextIncludesEmpty(teams[i].name);
    }
    SeqFilter.FilterAll(teams, t => Keep(t, AllGames, ""));
  }

  /** A game no team lists yields an empty ranking. */
  lemma UnplayedGameShowsNothing(teams: seq<Team>, game: string, term: string)
    requires game != AllGames
    requires forall i :: 0 <= i < |teams| ==> game !in teams[i].games
    ensures Filtered(teams, game, term) == []
  {
    SeqFilter.FilterNone(teams, t => Keep(t, game, term));
  }
}

=== FILE: register_page.dfy ===
/**
 * `pages/Register.tsx`: the password-strength rules that enable the submit
 * button, and the submit handler around the external sign-up call.
 */
module RegisterPage {
  import opened Wrappers
  import opened Client
  import Text

  const MismatchText := "Les mots de passe ne correspondent pas"
  const DuplicateText := "Un utilisateur avec cet email existe déjà"
  const SignUpErrorPrefix := "Erreur lors de l'inscription: "
  const SuccessText := "Inscription réussie! Vous pouvez maintenant vous connecter."
  const UnexpectedText := "Une erreur inattendue s'est produite"
  const MinLength := 8

  predicate IsUpper(c: char) { 'A' <= c <= 'Z' }
  predicate IsLowerCase(c: char) { 'a' <= c <= 'z' }
  predicate IsDigit(c: char) { '0' <= c <= '9' }

  /** `/[A-Z]/.test`, `/[a-z]/.test`, `/[0-9]/.test`: some character lies in the range. */
  predicate HasUppercase(p: string) { exists i :: 0 <= i < |p| && IsUpper(p[i]) }
  predicate HasLowercase(p: string) { exists i :: 0 <= i < |p| && IsLowerCase(p[i]) }
  predicate HasNumber(p: string) { exists i :: 0 <= i < |p| && IsDigit(p[i]) }

  /** The four indicators shown under the password field. */
  datatype Rules = Rules(minLength: bool, uppercase: bool, lowercase: bool, number: bool)

  /** All four indicators in one pass over the password. */
  method CheckRules(p: string) returns (r: Rules)
    ensures r.minLength <==> |p| >= MinLength
    ensures r.uppercase <==> HasUppercase(p)
    ensures r.lowercase <==> HasLowercase(p)
    ensures r.number <==> HasNumber(p)
  {
    var up, low, num := false, false, false;
    var i := 0;
    while i < |p|
      invariant 0 <= i <= |p|
      invariant up <==> exists j :: 0 <= j < i && IsUpper(p[j])
      invariant low <==> exists j :: 0 <= j < i && IsLowerCase(p[j])
      invariant num <==> exists j :: 0 <= j < i && IsDigit(p[j])
    {
      up := up || IsUpper(p[i]);
      low := low || IsLowerCase(p[i]);
      num := num || IsDigit(p[i]);
      i := i + 1;
    }
    r := Rules(|p| >= MinLength, up, low, num);
  }

  /** `passwordsMatch`: equal and not both empty. */
  predicate PasswordsMatch(password: string, confirm: string) {
    password == confirm && password != ""
  }

  /** The submit button's enablement. */
  function SubmitEnabled(password: string, confirm: string, isLoading: bool): (enabled: bool)
    ensures enabled ==> |password| >= MinLength && HasUppercase(password) && HasLowercase(password)
                        && HasNumber(password) && password == confirm && !isLoading
    ensures !enabled ==> |password| < MinLength || !HasUppercase(password) || !HasLowercase(password)
                         || !HasNumber(password) || password != confirm || isLoading
  {
    |password| >= MinLength && HasUppercase(password) && HasLowercase(password) && HasNumber(password)
    && PasswordsMatch(password, confirm) && !isLoading
  }

  /** The sign-up call settles with success, with an `error` object, or by throwing. */
  datatype SignUpOutcome = SignUpOk | SignUpError(message: string) | SignUpThrew(customMessage: Option<string>)

  /**
   * The effects of one submit: whether sign-up was called, the successive
   * values of `errorMessage`, the toasts, the navigation and the values
   * given to `isLoading`.
   */
  datatype Effect = Effect(signUpCalled: bool, errorMessages: seq<Option<string>>, toasts: seq<Toast>,
                           navigation: Option<string>, loading: seq<bool>)

  /** The toast for a sign-up error: the duplicate text, or the message behind a prefix. */
  function SignUpErrorToast(message: string): (t: Toast)
    ensures Text.Contains(message, "duplicate") ==> t == ToastError(DuplicateText)
    ensures !Text.Contains(message, "duplicate") ==> t == ToastError(SignUpErrorPrefix + message)
  {
    if Text.Contains(message, "duplicate") then ToastError(DuplicateText)
    else ToastError(SignUpErrorPrefix + message)
  }

  /** `handleSubmit`; the strength rules are not re-checked here. */
  function HandleSubmit(password: string, confirm: string, signUp: SignUpOutcome): (e: Effect)
    ensures |e.errorMessages| >= 1 && e.errorMessages[0].None?
    ensures e.signUpCalled <==> password == confirm
    ensures !e.signUpCalled ==>
              e.errorMessages == [None, Some(MismatchText)] && e.toasts == [ToastError(MismatchText)]
              && e.navigation.None? && e.loading == []
    ensures e.signUpCalled ==> e.loading == [true, false]
    ensures e.navigation.Some? <==> e.signUpCalled && signUp.SignUpOk?
    ensures e.navigation.Some? ==> e.navigation.value == LoginRoute && e.toasts == [ToastSuccess(SuccessText)]
    ensures e.signUpCalled && signUp.SignUpError? ==>
              e.errorMessages == [None, Some(signUp.message)] && e.toasts == [SignUpErrorToast(signUp.message)]
  {
    if password != confirm then
      Effect(false, [None, Some(MismatchText)], [ToastError(MismatchText)], None, [])
    else
      match signUp
      case SignUpOk => Effect(true, [None], [ToastSuccess(SuccessText)], Some(LoginRoute), [true, false])
      case SignUpError(m) => Effect(true, [None, Some(m)], [SignUpErrorToast(m)], None, [true, false])
      case SignUpThrew(cm) =>
        var text := if cm.Some? && cm.value != "" then cm.value else UnexpectedText;
        Effect(true, [None, Some(text)], [ToastError(text)], None, [true, false])
  }

  /**
   * Whenever the button is enabled, a click reaches the sign-up call; the
   * handler itself would also accept two equal empty passwords, which the
   * button never lets through.
   */
  lemma EnabledSubmitCallsSignUp(password: string, confirm: string, signUp: SignUpOutcome)
    requires SubmitEnabled(password, confirm, false)
    ensures HandleSubmit(password, confirm, signUp).signUpCalled
    ensures HandleSubmit("", "", signUp).signUpCalled && !SubmitEnabled("", "", false)
  {
  }

  /** A password meeting all four rules is at least eight characters with one of each class. */
  lemma StrongPasswordExample()
    ensures SubmitEnabled("Passw0rd", "Passw0rd", false)
    ensures !SubmitEnabled("password", "password", false)
  {
    assert IsUpper("Passw0rd"[0]) && IsLowerCase("Passw0rd"[1]) && IsDigit("Passw0rd"[5]);
  }
}

=== FILE: seqfilter.dfy ===
/**
 * `Array.prototype.filter` on sequences: the order-preserving sub-list of
 * the elements a predicate accepts, and the facts every list page relies on.
 */
module SeqFilter {
  import opened Wrappers

  /** `a` can be obtained from `b` by deleting elements (order preserved). */
  predicate IsSubseq<T(==)>(a: seq<T>, b: seq<T>)
    decreases |b|
  {
    if a == [] then true
    else if b == [] then false
    else if a[0] == b[0] then IsSubseq(a[1..], b[1..])
    else IsSubseq(a, b[1..])
  }

  lemma {:induction false} SubseqOfCons<T>(a: seq<T>, x: T, b: seq<T>)
    requires IsSubseq(a, b)
    ensures IsSubseq(a, [x] + b)
    decreases |b|, 1
  {
    if a != [] && a[0] != x {
      assert ([x] + b)[1..] == b;
    } else if a != [] {
      assert ([x] + b)[1..] == b;
      SubseqDropHead(a, b);
    }
  }

  lemma {:induction false} SubseqDropHead<T>(a: seq<T>, b: seq<T>)
    requires a != [] && IsSubseq(a, b)
    ensures IsSubseq(a[1..], b)
    decreases |b|, 0
  {
    if a[0] == b[0] {
      SubseqOfCons(a[1..], b[0], b[1..]);
      assert [b[0]] + b[1..] == b;
    } else {
      SubseqDropHead(a, b[1..]);
      SubseqOfCons(a[1..], b[0], b[1..]);
      assert [b[0]] + b[1..] == b;
    }
  }

  /** Every sequence is a sub-list of itself. */
  lemma {:induction false} SubseqRefl<T>(a: seq<T>)
    ensures IsSubseq(a, a)
    decreases |a|
  {
    if a != [] {
      SubseqRefl(a[1..]);
    }
  }

  /** A sub-list is no longer than the list it comes from. */
  lemma {:induction false} SubseqLength<T>(a: seq<T>, b: seq<T>)
    requires IsSubseq(a, b)
    ensures |a| <= |b|
    decreases |b|
  {
    if a != [] {
      if a[0] == b[0] {
        SubseqLength(a[1..], b[1..]);
      } else {
        SubseqLength(a, b[1..]);
      }
    }
  }

  /** The keys never increase along the list: newest first, for a date key. */
  predicate Descending<T>(xs: seq<T>, key: T -> int) {
    forall i, j :: 0 <= i < j < |xs| ==> key(xs[i]) >= key(xs[j])
  }

  /** A sub-list of a list in descending key order is in descending key order, bounded by the list's head. */
  lemma {:induction false} SubseqKeepsDescending<T>(a: seq<T>, b: seq<T>, key: T -> int)
    requires IsSubseq(a, b) && Descending(b, key)
    ensures Descending(a, key)
    ensures a != [] ==> b != [] && forall k :: 0 <= k < |a| ==> key(a[k]) <= key(b[0])
    decreases |b|
  {
    if a != [] {
      assert Descending(b[1..], key) by {
        forall i, j | 0 <= i < j < |b| - 1
          ensures key(b[1..][i]) >= key(b[1..][j])
        {
          assert b[1..][i] == b[i + 1] && b[1..][j] == b[j + 1];
        }
      }
      if a[0] == b[0] {
        SubseqKeepsDescending(a[1..], b[1..], key);
        forall k | 0 <= k < |a|
          ensures key(a[k]) <= key(b[0])
        {
          if k > 0 {
            assert a[k] == a[1..][k - 1];
          }
        }
        forall i, j | 0 <= i < j < |a|
          ensures key(a[i]) >= key(a[j])
        {
          assert a[j] == a[1..][j - 1];
          if i > 0 {
            assert a[i] == a[1..][i - 1];
          }
        }
      } else {
        SubseqKeepsDescending(a, b[1..], key);
      }
    }
  }

  /** The elements of `xs` that `p` accepts, in their original order. */
  function Filter<T(==,!new)>(xs: seq<T>, p: T -> bool): (r: seq<T>)
    ensures IsSubseq(r, xs)
    ensures forall i :: 0 <= i < |r| ==> p(r[i])
    ensures forall x :: multiset(r)[x] == if p(x) then multiset(xs)[x] else 0
    decreases |xs|
  {
    if xs == [] then []
    else
      var rest := Filter(xs[1..], p);
      assert xs == [xs[0]] + xs[1..];
      if p(xs[0]) then
        assert ([xs[0]] + rest)[1..] == rest;
        [xs[0]] + rest
      else
        SubseqOfCons(rest, xs[0], xs[1..]);
        rest
  }

  /** An element is kept exactly when it is in the list and accepted. */
  lemma FilterMembership<T(!new)>(xs: seq<T>, p: T -> bool, x: T)
    ensures x in Filter(xs, p) <==> x in xs && p(x)
  {
    var r := Filter(xs, p);
    assert x in r <==> multiset(r)[x] > 0;
    assert x in xs <==> multiset(xs)[x] > 0;
  }

  /** A predicate that accepts every element leaves the list unchanged. */
  lemma {:induction false} FilterAll<T(!new)>(xs: seq<T>, p: T -> bool)
    requires forall i :: 0 <= i < |xs| ==> p(xs[i])
    ensures Filter(xs, p) == xs
    decreases |xs|
  {
    if xs != [] {
      FilterAll(xs[1..], p);
      assert xs == [xs[0]] + xs[1..];
    }
  }

  /** A predicate that rejects every element yields the empty list. */
  lemma {:induction false} FilterNone<T(!new)>(xs: seq<T>, p: T -> bool)
    requires forall i :: 0 <= i < |xs| ==> !p(xs[i])
    ensures Filter(xs, p) == []
    decreases |xs|
  {
    if xs != [] {
      FilterNone(xs[1..], p);
    }
  }

  /** A stricter predicate keeps a sub-list of what a looser one keeps. */
  lemma {:induction false} FilterMonotone<T(!new)>(xs: seq<T>, p: T -> bool, q: T -> bool)
    requires forall i :: 0 <= i < |xs| && p(xs[i]) ==> q(xs[i])
    ensures IsSubseq(Filter(xs, p), Filter(xs, q))
    ensures |Filter(xs, p)| <= |Filter(xs, q)|
    decreases |xs|
  {
    if xs != [] {
      FilterMonotone(xs[1..], p, q);
      var rp := Filter(xs[1..], p);
      var rq := Filter(xs[1..], q);
      if p(xs[0]) {
        assert ([xs[0]] + rp)[1..] == rp && ([xs[0]] + rq)[1..] == rq;
      } else if q(xs[0]) {
        SubseqOfCons(rp, xs[0], rq);
      }
    }
    SubseqLength(Filter(xs, p), Filter(xs, q));
  }

  /** Two predicates that agree on every element of the list keep the same elements. */
  lemma {:induction false} FilterCongruent<T(!new)>(xs: seq<T>, p: T -> bool, q: T -> bool)
    requires forall i :: 0 <= i < |xs| ==> p(xs[i]) == q(xs[i])
    ensures Filter(xs, p) == Filter(xs, q)
    decreases |xs|
  {
    if xs != [] {
      FilterCongruent(xs[1..], p, q);
    }
  }

  /** The position of the first element `p` accepts, as `QuerySet.get` on a unique key finds its row. */
  function FirstIndex<T>(xs: seq<T>, p: T -> bool): (i: Option<nat>)
    ensures i.Some? ==> i.value < |xs| && p(xs[i.value])
    ensures i.Some? ==> forall k :: 0 <= k < i.value ==> !p(xs[k])
    ensures i.None? <==> forall k :: 0 <= k < |xs| ==> !p(xs[k])
    decreases |xs|
  {
    if xs == [] then None
    else if p(xs[0]) then Some(0)
    else
      var rest := FirstIndex(xs[1..], p);
      if rest.None? then None else Some(rest.value + 1)
  }

  /** A key larger than every key in the list: the next primary key a table hands out. */
  function NextKey<T>(xs: seq<T>, key: T -> int): (n: int)
    ensures forall i :: 0 <= i < |xs| ==> key(xs[i]) < n
    decreases |xs|
  {
    if xs == [] then 1
    else
      var rest := NextKey(xs[1..], key);
      if key(xs[0]) < rest then rest else key(xs[0]) + 1
  }
}

=== FILE: serializers.dfy ===
/**
 * `backend/tournois/serializers.py`: the registration serializer (its
 * field checks, its two validators and `create`), the public view of a
 * user, and the cross-field checks of the tournament and match
 * serializers.
 *
 * The declared `email`, `username` and `password` fields are plain
 * required `CharField`s: they trim surrounding whitespace, refuse blank
 * values, and do not carry the model's unique validators. `role` comes
 * from the model field, which has neither a default nor `blank=True`, so
 * the serializer requires it.
 */
module Serializers {
  import opened Wrappers
  import opened Models
  import Text
  import SeqFilter

  const RequiredText := "This field is required."
  const BlankText := "This field may not be blank."
  const BadEmailText := "Format d'email invalide (doit contenir un @)"
  const EmailTakenText := "Cet email est déjà utilisé"
  const UsernameTakenText := "Ce nom d'utilisateur est déjà pris"

  function InvalidChoiceText(v: string): string {
    "\"" + v + "\" is not a valid choice."
  }

  /** The registration body; `None` where a key is absent. */
  datatype RegisterInput = RegisterInput(username: Option<string>, email: Option<string>, password: Option<string>,
                                         firstName: Option<string>, lastName: Option<string>, role: Option<string>)

  /** `validated_data`: the optional fields stay absent when they were not sent. */
  datatype Registration = Registration(username: string, email: string, password: string,
                                       firstName: Option<string>, lastName: Option<string>, role: Option<string>)

  /** `serializer.errors`: (field, message) pairs in field order. */
  type FieldErrors = seq<(string, string)>

  /** A required `CharField` that refuses blanks; the value is trimmed. */
  function RequiredChar(v: Option<string>): (r: Result<string, string>)
    ensures v.None? ==> r == Failure(RequiredText)
    ensures v.Some? ==> (r.Success? <==> Text.Trim(v.value) != [])
    ensures r.Success? ==> v.Some? && r.value == Text.Trim(v.value)
  {
    if v.None? then Failure(RequiredText)
    else if Text.Trim(v.value) == [] then Failure(BlankText)
    else Success(Text.Trim(v.value))
  }

  /** An optional `CharField` that allows blanks; the value is trimmed when present. */
  function OptionalChar(v: Option<string>): (r: Option<string>)
    ensures r.Some? <==> v.Some?
    ensures r.Some? ==> r.value == Text.Trim(v.value)
  {
    if v.None? then None else Some(Text.Trim(v.value))
  }

  predicate EmailTaken(users: seq<Utilisateur>, email: string) {
    exists i :: 0 <= i < |users| && users[i].email == email
  }

  predicate UsernameTaken(users: seq<Utilisateur>, username: string) {
    exists i :: 0 <= i < |users| && users[i].username == username
  }

  /** `validate_email`: the '@' check first, then the exact-match lookup. */
  function ValidateEmail(users: seq<Utilisateur>, value: string): (r: Result<string, string>)
    ensures r.Success? <==> '@' in value && !EmailTaken(users, value)
    ensures r.Success? ==> r.value == value
    ensures '@' !in value ==> r == Failure(BadEmailText)
    ensures '@' in value && EmailTaken(users, value) ==> r == Failure(EmailTakenText)
  {
    if '@' !in value then Failure(BadEmailText)
    else if exists i :: 0 <= i < |users| && users[i].email == value then Failure(EmailTakenText)
    else Success(value)
  }

  /** `validate_username`: an exact-match lookup. */
  function ValidateUsername(users: seq<Utilisateur>, value: string): (r: Result<string, string>)
    ensures r.Success? <==> !UsernameTaken(users, value)
    ensures r.Success? ==> r.value == value
    ensures r.Failure? ==> r.error == UsernameTakenText
  {
    if exists i :: 0 <= i < |users| && users[i].username == value then Failure(UsernameTakenText)
    else Success(value)
  }

  /** The `role` `ChoiceField`: required, and one of the four role values (not trimmed). */
  function RoleChoice(v: Option<string>): (r: Result<string, string>)
    ensures r.Success? <==> v.Some? && RoleOf(v.value).Some?
    ensures r.Success? ==> r.value == v.value
    ensures v.None? ==> r == Failure(RequiredText)
  {
    if v.None? then Failure(RequiredText)
    else if RoleOf(v.value).None? then Failure(InvalidChoiceText(v.value))
    else Success(v.value)
  }

  function ErrorsOf<T>(field: string, r: Result<T, string>): (errs: FieldErrors)
    ensures r.Success? ==> errs == []
    ensures r.Failure? ==> errs == [(field, r.error)]
  {
    if r.Success? then [] else [(field, r.error)]
  }

  /** The outcome of each checked field, validators included. */
  datatype Checked = Checked(username: Result<string, string>, email: Result<string, string>,
                             password: Result<string, string>, role: Result<string, string>)

  function CheckFields(users: seq<Utilisateur>, input: RegisterInput): (c: Checked)
    ensures c.username.Success? <==>
            RequiredChar(input.username).Success? && !UsernameTaken(users, RequiredChar(input.username).value)
    ensures c.username.Success? ==> input.username.Some? && c.username.value == Text.Trim(input.username.value)
    ensures c.email.Success? <==>
            RequiredChar(input.email).Success? && ValidateEmail(users, RequiredChar(input.email).value).Success?
    ensures c.email.Success? ==> input.email.Some? && c.email.value == Text.Trim(input.email.value)
    ensures c.password == RequiredChar(input.password)
    ensures c.role == RoleChoice(input.role)
  {
    var username := RequiredChar(input.username);
    var email := RequiredChar(input.email);
    Checked(if username.Failure? then username else ValidateUsername(users, username.value),
            if email.Failure? then email else ValidateEmail(users, email.value),
            RequiredChar(input.password),
            RoleChoice(input.role))
  }

  /** Field `f` of the checked registration failed with message `m`. */
  predicate FailedWith(c: Checked, f: string, m: string) {
    || (f == "username" && c.username == Failure(m))
    || (f == "email" && c.email == Failure(m))
    || (f == "password" && c.password == Failure(m))
    || (f == "role" && c.role == Failure(m))
  }

  /** The position of a registration field in the serializer's declaration order. */
  function FieldRank(f: string): int {
    if f == "username" then 0 else if f == "email" then 1 else if f == "password" then 2 else 3
  }

  /** `errs` reports exactly the failed fields of `c`, with their messages, in declaration order. */
  ghost predicate ReportsFailures(errs: FieldErrors, c: Checked) {
    && (forall f, m :: (f, m) in errs <==> FailedWith(c, f, m))
    && (forall j, k :: 0 <= j < k < |errs| ==> FieldRank(errs[j].0) < FieldRank(errs[k].0))
  }

  /** Every entry of `errs` names a field ranked below `n`, and the ranks strictly increase. */
  predicate RankedBelow(errs: FieldErrors, n: int) {
    && (forall k :: 0 <= k < |errs| ==> FieldRank(errs[k].0) < n)
    && (forall j, k :: 0 <= j < k < |errs| ==> FieldRank(errs[j].0) < FieldRank(errs[k].0))
  }

  /** Appending one field's errors after those of the fields declared before it keeps the order. */
  lemma AppendRanked<T>(errs: FieldErrors, field: string, r: Result<T, string>)
    requires RankedBelow(errs, FieldRank(field))
    ensures RankedBelow(errs + ErrorsOf(field, r), FieldRank(field) + 1)
  {
  }

  /** A field's errors hold `(f, m)` exactly when that field failed with `m`. */
  lemma ErrorsOfHas<T>(field: string, r: Result<T, string>, f: string, m: string)
    ensures (f, m) in ErrorsOf(field, r) <==> f == field && r == Failure(m)
  {
  }

  /** The four fields' errors, in declaration order, have strictly increasing ranks. */
  lemma ErrorsRanked(c: Checked)
    ensures RankedBelow(ErrorsOf("username", c.username) + ErrorsOf("email", c.email)
                        + ErrorsOf("password", c.password) + ErrorsOf("role", c.role), 4)
  {
    var a := ErrorsOf("username", c.username);
    var b := ErrorsOf("email", c.email);
    var p := ErrorsOf("password", c.password);
    AppendRanked([], "username", c.username);
    assert [] + a == a;
    AppendRanked(a, "email", c.email);
    AppendRanked(a + b, "password", c.password);
    AppendRanked(a + b + p, "role", c.role);
  }

  /** The four fields' errors hold `(f, m)` exactly when field `f` failed with `m`. */
  lemma ErrorsListFailures(c: Checked)
    ensures forall f, m :: (f, m) in ErrorsOf("username", c.username) + ErrorsOf("email", c.email)
                                      + ErrorsOf("password", c.password) + ErrorsOf("role", c.role)
                           <==> FailedWith(c, f, m)
  {
    var a := ErrorsOf("username", c.username);
    var b := ErrorsOf("email", c.email);
    var p := ErrorsOf("password", c.password);
    var r := ErrorsOf("role", c.role);
    forall f, m
      ensures (f, m) in a + b + p + r <==> FailedWith(c, f, m)
    {
      assert (f, m) in a + b + p + r <==> (f, m) in a || (f, m) in b || (f, m) in p || (f, m) in r;
      ErrorsOfHas("username", c.username, f, m);
      ErrorsOfHas("email", c.email, f, m);
      ErrorsOfHas("password", c.password, f, m);
      ErrorsOfHas("role", c.role, f, m);
    }
  }

  /** `serializer.errors` of the checked fields, in field order. */
  function Errors(c: Checked): (errs: FieldErrors)
    ensures errs == [] <==> c.username.Success? && c.email.Success? && c.password.Success? && c.role.Success?
    ensures forall k :: 0 <= k < |errs| ==> errs[k].0 in {"username", "email", "password", "role"}
    ensures ReportsFailures(errs, c)
  {
    ErrorsRanked(c);
    ErrorsListFailures(c);
    ErrorsOf("username", c.username) + ErrorsOf("email", c.email)
    + ErrorsOf("password", c.password) + ErrorsOf("role", c.role)
  }

  /** Every field of the body passes its checks, validators included. */
  predicate FieldsPass(users: seq<Utilisateur>, input: RegisterInput) {
    && RequiredChar(input.username).Success? && !UsernameTaken(users, RequiredChar(input.username).value)
    && RequiredChar(input.email).Success? && ValidateEmail(users, RequiredChar(input.email).value).Success?
    && RequiredChar(input.password).Success?
    && RoleChoice(input.role).Success?
  }

  /**
   * `v` holds the body's trimmed username, address and password, none of
   * them blank, the address with an '@', username and address new to the
   * table, and the body's role, which is one of the four.
   */
  predicate ValidatedFrom(v: Registration, users: seq<Utilisateur>, input: RegisterInput) {
    && input.username.Some? && input.email.Some? && input.password.Some? && input.role.Some?
    && v.username == Text.Trim(input.username.value) && !UsernameTaken(users, v.username)
    && v.email == Text.Trim(input.email.value) && '@' in v.email
    && !EmailTaken(users, v.email)
    && v.password == Text.Trim(input.password.value) && v.password != []
    && v.role == input.role && RoleOf(input.role.value).Some?
  }

  /** `RegisterSerializer.is_valid`: every field is checked and every failure reported. */
  function ValidateRegistration(users: seq<Utilisateur>, input: RegisterInput): (r: Result<Registration, FieldErrors>)
    ensures r.Success? ==> ValidatedFrom(r.value, users, input)
    ensures r.Failure? ==> r.error != []
    ensures r.Failure? ==> ReportsFailures(r.error, CheckFields(users, input))
    ensures input.role.None? ==> r.Failure? && ("role", RequiredText) in r.error
  {
    var c := CheckFields(users, input);
    var errors := Errors(c);
    if errors == [] then
      Success(Registration(c.username.value, c.email.value, c.password.value,
                           OptionalChar(input.firstName), OptionalChar(input.lastName), input.role))
    else Failure(errors)
  }

  /** The body validates exactly when every field passes its checks, validators included. */
  lemma ValidIffFieldsPass(users: seq<Utilisateur>, input: RegisterInput)
    ensures ValidateRegistration(users, input).Success? <==> FieldsPass(users, input)
  {
  }

  /**
   * A trimmed address without '@' is reported as malformed even when it is
   * also taken: the format check runs first.
   */
  lemma MalformedEmailReported(users: seq<Utilisateur>, input: RegisterInput)
    requires input.email.Some? && Text.Trim(input.email.value) != [] && '@' !in Text.Trim(input.email.value)
    ensures ValidateRegistration(users, input).Failure?
    ensures ("email", BadEmailText) in ValidateRegistration(users, input).error
  {
    var c := CheckFields(users, input);
    assert c.email == ValidateEmail(users, Text.Trim(input.email.value)) == Failure(BadEmailText);
    assert FailedWith(c, "email", BadEmailText);
  }

  /** `normalize_email` of Django's user manager: the part after the last '@' is lower-cased. */
  function NormalizeEmail(email: string): (r: string)
    ensures |r| == |email|
    ensures Text.LastIndexOf(email, '@') < 0 ==> r == email
    ensures Text.LastIndexOf(email, '@') >= 0 ==>
            r[..Text.LastIndexOf(email, '@') + 1] == email[..Text.LastIndexOf(email, '@') + 1]
  {
    var i := Text.LastIndexOf(email, '@');
    if i < 0 then email else email[..i] + "@" + Text.Lower(email[i + 1..])
  }

  /** Normalising lower-cases exactly the domain: the text after the last '@', which itself is kept. */
  lemma NormalizeEmailLowersDomain(email: string)
    requires Text.LastIndexOf(email, '@') >= 0
    ensures NormalizeEmail(email)[Text.LastIndexOf(email, '@')] == '@'
    ensures NormalizeEmail(email)[Text.LastIndexOf(email, '@') + 1..] == Text.Lower(email[Text.LastIndexOf(email, '@') + 1..])
  {
    var i := Text.LastIndexOf(email, '@');
    var r := NormalizeEmail(email);
    assert r == email[..i] + "@" + Text.Lower(email[i + 1..]);
    assert r[i + 1..] == Text.Lower(email[i + 1..]);
  }

  /** Normalising twice is normalising once. */
  lemma NormalizeEmailIdempotent(email: string)
    ensures NormalizeEmail(NormalizeEmail(email)) == NormalizeEmail(email)
  {
    var i := Text.LastIndexOf(email, '@');
    if i >= 0 {
      var domain := email[i + 1..];
      var r := NormalizeEmail(email);
      assert r == email[..i] + "@" + Text.Lower(domain);
      forall k | i < k < |r|
        ensures r[k] != '@'
      {
        Text.LowerAt(domain, k - i - 1);
      }
      var j := Text.LastIndexOf(r, '@');
      assert r[i] == '@';
      assert j == i;
      Text.LowerIdempotent(domain);
      assert r[i + 1..] == Text.Lower(domain);
    }
  }

  /** Why `create_user` fails once validation passed: a unique column collides. */
  datatype CreateError = UniqueViolation

  /**
   * `RegisterSerializer.create`: `create_user` with the optional names
   * defaulting to '' and the role to 'joueur'; the address is normalised
   * before it is stored, so the unique column can still refuse it.
   */
  function CreateUser(users: seq<Utilisateur>, v: Registration): (r: Result<Utilisateur, CreateError>)
    ensures r.Success? <==> !EmailTaken(users, NormalizeEmail(v.email)) && !UsernameTaken(users, v.username)
    ensures r.Success? ==>
            && r.value.username == v.username && r.value.email == NormalizeEmail(v.email)
            && r.value.password == v.password && r.value.isActive
            && r.value.firstName == v.firstName.GetOr("") && r.value.lastName == v.lastName.GetOr("")
            && r.value.role == v.role.GetOr(RoleCode(Joueur))
            && forall i :: 0 <= i < |users| ==> users[i].id != r.value.id
  {
    var email := NormalizeEmail(v.email);
    if (exists i :: 0 <= i < |users| && users[i].email == email) ||
       (exists i :: 0 <= i < |users| && users[i].username == v.username) then
      Failure(UniqueViolation)
    else
      var id := SeqFilter.NextKey(users, (u: Utilisateur) => u.id);
      Success(Utilisateur(id, v.username, email, v.password, v.firstName.GetOr(""), v.lastName.GetOr(""),
                          v.role.GetOr(RoleCode(Joueur)), true))
  }

  /**
   * `u` is the user a registration body gives: its trimmed username, its
   * trimmed first and last names (empty when not sent), its role, its
   * normalised trimmed address (which holds an '@' and is new to the
   * table), its non-blank trimmed password, and an active account.
   */
  predicate NewUserFrom(u: Utilisateur, users: seq<Utilisateur>, input: RegisterInput) {
    && input.username.Some? && u.username == Text.Trim(input.username.value)
    && u.firstName == OptionalChar(input.firstName).GetOr("")
    && u.lastName == OptionalChar(input.lastName).GetOr("")
    && input.role.Some? && u.role == input.role.value
    && input.email.Some? && u.email == NormalizeEmail(Text.Trim(input.email.value))
    && '@' in u.email && !EmailTaken(users, u.email)
    && input.password.Some? && Text.Trim(input.password.value) != [] && u.password == Text.Trim(input.password.value)
    && u.isActive
  }

  /** `users'` is `users` with one row appended, the user `NewUserFrom` describes. */
  predicate AppendsNewUser(users: seq<Utilisateur>, users': seq<Utilisateur>, input: RegisterInput) {
    && |users'| == |users| + 1 && users'[..|users|] == users
    && NewUserFrom(users'[|users|], users, input)
  }

  /** A body that validates and is inserted gives the user `NewUserFrom` describes. */
  lemma CreatedFromInput(users: seq<Utilisateur>, input: RegisterInput)
    requires ValidateRegistration(users, input).Success?
    requires CreateUser(users, ValidateRegistration(users, input).value).Success?
    ensures NewUserFrom(CreateUser(users, ValidateRegistration(users, input).value).value, users, input)
  {
    var v := ValidateRegistration(users, input).value;
    var u := CreateUser(users, v).value;
    assert ValidatedFrom(v, users, input);
    var i := Text.LastIndexOf(v.email, '@');
    assert i >= 0;
    assert u.email[i] == '@';
  }

  /** A created user keeps every identity in the table unique. */
  lemma CreateUserKeepsIdentitiesUnique(users: seq<Utilisateur>, v: Registration)
    requires UniqueIdentities(users)
    requires CreateUser(users, v).Success?
    ensures UniqueIdentities(users + [CreateUser(users, v).value])
  {
    var u := CreateUser(users, v).value;
    var all := users + [u];
    forall i, j | 0 <= i < j < |all|
      ensures all[i].id != all[j].id && all[i].username != all[j].username && all[i].email != all[j].email
    {
      if j == |users| {
        assert all[j] == u;
        assert all[i] == users[i];
      }
    }
  }

  /** Why a registration stores nothing: the body is invalid, or the insert collides. */
  datatype Refused = Rejected(errors: FieldErrors) | Collision

  /** `is_valid()` followed by `save()`: the user to store, or why there is none. */
  function RegisterUser(users: seq<Utilisateur>, input: RegisterInput): (r: Result<Utilisateur, Refused>)
    ensures r.Failure? && r.error.Rejected? <==> ValidateRegistration(users, input).Failure?
    ensures r.Failure? && r.error.Rejected? ==> r.error.errors == ValidateRegistration(users, input).error
    ensures r.Success? ==> NewUserFrom(r.value, users, input)
  {
    var v := ValidateRegistration(users, input);
    if v.Failure? then Failure(Rejected(v.error))
    else
      var created := CreateUser(users, v.value);
      if created.Failure? then Failure(Collision)
      else
        CreatedFromInput(users, input);
        Success(created.value)
  }

  /** A registered user keeps every identity in the table unique. */
  lemma RegisterUserKeepsIdentitiesUnique(users: seq<Utilisateur>, input: RegisterInput)
    requires UniqueIdentities(users)
    requires RegisterUser(users, input).Success?
    ensures UniqueIdentities(users + [RegisterUser(users, input).value])
  {
    CreateUserKeepsIdentitiesUnique(users, ValidateRegistration(users, input).value);
  }

  /** `UserSerializer`: the fields a client sees of a user. */
  datatype UserView = UserView(id: int, email: string, firstName: string, lastName: string, role: string)

  function SerializeUser(u: Utilisateur): UserView {
    UserView(u.id, u.email, u.firstName, u.lastName, u.role)
  }

  /**
   * Two users look the same to a client exactly when they agree on the five
   * listed fields: password, username and the active flag never show.
   */
  lemma UserViewShowsOnlyPublicFields(u1: Utilisateur, u2: Utilisateur)
    ensures SerializeUser(u1) == SerializeUser(u2) <==>
            u1.id == u2.id && u1.email == u2.email && u1.firstName == u2.firstName &&
            u1.lastName == u2.lastName && u1.role == u2.role
  {
  }

  /** The outcome of a serializer's `validate`: accepted, refused, or a `KeyError` (a 500 answer). */
  datatype Check = Valid | Invalid(message: string) | KeyErrorRaised

  const DateOrderText := "La date de fin doit être postérieure à la date de début"
  const SameTeamText := "Une équipe ne peut pas jouer contre elle-même"

  /** `TournoiSerializer.validate`; a partial update without both dates has no key to read. */
  function ValidateTournoi(dateDebut: Option<int>, dateFin: Option<int>): (c: Check)
    ensures c == Valid <==> dateDebut.Some? && dateFin.Some? && dateFin.value > dateDebut.value
    ensures c == KeyErrorRaised <==> dateDebut.None? || dateFin.None?
    ensures c.Invalid? ==> c.message == DateOrderText
  {
    if dateDebut.None? || dateFin.None? then KeyErrorRaised
    else if dateFin.value <= dateDebut.value then Invalid(DateOrderText)
    else Valid
  }

  /** A tournament that passes validation with a non-negative price meets the table's constraints. */
  lemma ValidTournoiMeetsConstraints(id: int, nom: string, description: string, kind: string, dateDebut: int,
                                     dateFin: int, organisateurId: int, prix: Option<int>, statut: Option<string>)
    requires ValidateTournoi(Some(dateDebut), Some(dateFin)) == Valid
    requires prix.GetOr(DefaultPrice) >= 0
    ensures TournoiConstraints(NewTournoi(id, nom, description, kind, dateDebut, dateFin, organisateurId, prix, statut))
  {
  }

  /** `RencontreSerializer.validate`; a partial update without both teams has no key to read. */
  function ValidateRencontre(equipe1: Option<int>, equipe2: Option<int>): (c: Check)
    ensures c == Valid <==> equipe1.Some? && equipe2.Some? && equipe1.value != equipe2.value
    ensures c == KeyErrorRaised <==> equipe1.None? || equipe2.None?
    ensures c.Invalid? ==> c.message == SameTeamText
  {
    if equipe1.None? || equipe2.None? then KeyErrorRaised
    else if equipe1.value == equipe2.value then Invalid(SameTeamText)
    else Valid
  }

  /**
   * Teams that pass validation give a match the table accepts; `date_heure`
   * is a required field of the serializer, since its column is not null
   * and has no default.
   */
  lemma ValidRencontreMeetsConstraints(r: Rencontre)
    requires r.dateHeure.Some?
    requires ValidateRencontre(Some(r.equipe1), r.equipe2) == Valid
    ensures RencontreConstraints(r)
  {
  }
}

=== FILE: signals.dfy ===
/**
 * `backend/tournois/signals.py`: the two `post_save` receivers on users.
 * The first creates the profile row that matches a new user's role. The
 * second saves the profile found under `<role>_profile`. Those attributes
 * do not exist: the one-to-one fields declare no `related_name`, so the
 * reverse accessors are the lower-cased model names.
 */
module Signals {
  import opened Wrappers
  import opened Models

  /** `create_user_profile`: one profile row for a newly created user with a known role. */
  function CreateUserProfile(u: Utilisateur, created: bool, profiles: seq<Profile>): (r: seq<Profile>)
    ensures created && RoleOf(u.role).Some? ==> r == profiles + [Profile(RoleOf(u.role).value, u.id)]
    ensures !created || RoleOf(u.role).None? ==> r == profiles
  {
    if created && RoleOf(u.role).Some? then profiles + [Profile(RoleOf(u.role).value, u.id)] else profiles
  }

  /** The number of profile rows that belong to a user. */
  function ProfilesOf(profiles: seq<Profile>, userId: int): (n: nat)
    ensures n <= |profiles|
  {
    if profiles == [] then 0
    else (if profiles[|profiles| - 1].userId == userId then 1 else 0) + ProfilesOf(profiles[..|profiles| - 1], userId)
  }

  /** A user created with a known role and no profile yet ends with exactly one profile, of that role. */
  lemma {:induction false} OneProfilePerCreatedUser(u: Utilisateur, profiles: seq<Profile>)
    requires RoleOf(u.role).Some? && ProfilesOf(profiles, u.id) == 0
    ensures ProfilesOf(CreateUserProfile(u, true, profiles), u.id) == 1
    ensures CreateUserProfile(u, true, profiles)[|profiles|].kind == RoleOf(u.role).value
  {
    var r := CreateUserProfile(u, true, profiles);
    assert r[..|r| - 1] == profiles;
  }

  /** The attribute name `save_user_profile` looks up for a role. */
  function ProfileAttribute(r: Role): string {
    RoleCode(r) + "_profile"
  }

  /** Django's reverse accessors for the four one-to-one profile fields. */
  const DefaultAccessors: set<string> := {"joueur", "organisateur", "administrateur", "arbitre"}

  /** `save_user_profile`: the profile it saves, given the attribute names a user instance has. */
  function SaveUserProfile(u: Utilisateur, accessors: set<string>): (saved: Option<Role>)
    ensures saved.Some? <==> RoleOf(u.role).Some? && ProfileAttribute(RoleOf(u.role).value) in accessors
    ensures saved.Some? ==> saved.value == RoleOf(u.role).value
  {
    var r := RoleOf(u.role);
    if r.Some? && ProfileAttribute(r.value) in accessors then Some(r.value) else None
  }

  /** With the accessors Django actually defines, saving a user never saves a profile. */
  lemma SaveUserProfileIsInert(u: Utilisateur)
    ensures SaveUserProfile(u, DefaultAccessors).None?
  {
    var r := RoleOf(u.role);
    if r.Some? {
      var name := ProfileAttribute(r.value);
      assert name[|RoleCode(r.value)|] == '_';
      forall a | a in DefaultAccessors
        ensures '_' !in a
      {
      }
    }
  }
}

=== FILE: text.dfy ===
/**
 * String operations the pages and the backend rely on: lower-casing,
 * substring search (`includes`) and whitespace trimming.
 * Lower-casing is ASCII-only; trimming uses a fixed whitespace set.
 */
module Text {

  /** ASCII lower-casing of one character; every other character is unchanged. */
  function LowerChar(c: char): char {
    if 'A' <= c <= 'Z' then (c as int + 32) as char else c
  }

  /** `toLowerCase()`, character by character. */
  function Lower(s: string): (r: string)
    ensures |r| == |s|
  {
    if s == [] then [] else [LowerChar(s[0])] + Lower(s[1..])
  }

  lemma {:induction false} LowerAt(s: string, i: int)
    requires 0 <= i < |s|
    ensures Lower(s)[i] == LowerChar(s[i])
    decreases |s|
  {
    if i > 0 {
      LowerAt(s[1..], i - 1);
    }
  }

  lemma {:induction false} LowerAppend(a: string, b: string)
    ensures Lower(a + b) == Lower(a) + Lower(b)
    decreases |a|
  {
    if a != [] {
      var ab := a + b;
      assert ab[0] == a[0] && ab[1..] == a[1..] + b;
      assert Lower(ab) == [LowerChar(ab[0])] + Lower(ab[1..]);
      LowerAppend(a[1..], b);
      assert Lower(a) == [LowerChar(a[0])] + Lower(a[1..]);
      assert [LowerChar(a[0])] + (Lower(a[1..]) + Lower(b)) == ([LowerChar(a[0])] + Lower(a[1..])) + Lower(b);
    } else {
      assert a + b == b;
    }
  }

  lemma {:induction false} LowerSlice(s: string, i: int, j: int)
    requires 0 <= i <= j <= |s|
    ensures Lower(s[i..j]) == Lower(s)[i..j]
  {
    assert s == s[..i] + s[i..j] + s[j..];
    LowerAppend(s[..i] + s[i..j], s[j..]);
    LowerAppend(s[..i], s[i..j]);
  }

  /** Lower-casing twice is lower-casing once. */
  lemma {:induction false} LowerIdempotent(s: string)
    ensures Lower(Lower(s)) == Lower(s)
    decreases |s|
  {
    if s != [] {
      LowerIdempotent(s[1..]);
    }
  }

  /** `needle` occurs in `hay` starting at offset `k`. */
  predicate OccursAt(hay: string, needle: string, k: int) {
    0 <= k && k + |needle| <= |hay| && hay[k..k + |needle|] == needle
  }

  /** `hay.includes(needle)`: `needle` occurs in `hay` at some offset. */
  predicate Contains(hay: string, needle: string) {
    exists k :: 0 <= k <= |hay| - |needle| && OccursAt(hay, needle, k)
  }

  /** Every string contains the empty string (`"abc".includes("")` is true). */
  lemma ContainsEmpty(hay: string)
    ensures Contains(hay, "")
  {
    assert OccursAt(hay, "", 0);
  }

  /** Containment is transitive: a longer query only ever narrows a search. */
  lemma ContainsTransitive(a: string, b: string, c: string)
    requires Contains(a, b) && Contains(b, c)
    ensures Contains(a, c)
  {
    var i :| 0 <= i <= |a| - |b| && OccursAt(a, b, i);
    var j :| 0 <= j <= |b| - |c| && OccursAt(b, c, j);
    forall k | 0 <= k < |c|
      ensures a[i + j + k] == c[k]
    {
      assert a[i..i + |b|][j + k] == b[j + k];
      assert b[j..j + |c|][k] == c[k];
    }
    assert a[i + j..i + j + |c|] == c;
    assert OccursAt(a, c, i + j);
  }

  /** Lower-casing both sides preserves an occurrence. */
  lemma LowerPreservesContains(a: string, b: string)
    requires Contains(a, b)
    ensures Contains(Lower(a), Lower(b))
  {
    var i :| 0 <= i <= |a| - |b| && OccursAt(a, b, i);
    LowerSlice(a, i, i + |b|);
    assert OccursAt(Lower(a), Lower(b), i);
  }

  /** `hay.toLowerCase().includes(needle.toLowerCase())`: the search every list page performs. */
  predicate IncludesIgnoringCase(hay: string, needle: string) {
    Contains(Lower(hay), Lower(needle))
  }

  /**
   * A query of one character that is not a letter is found, ignoring case,
   * only in a text that holds that very character.
   */
  lemma {:induction false} IncludesNonLetter(hay: string, c: char)
    requires !('A' <= c <= 'Z') && !('a' <= c <= 'z')
    ensures IncludesIgnoringCase(hay, [c]) <==> c in hay
  {
    LowerAt([c], 0);
    assert Lower([c]) == [c];
    if Contains(Lower(hay), [c]) {
      var k :| 0 <= k <= |Lower(hay)| - 1 && OccursAt(Lower(hay), [c], k);
      LowerAt(hay, k);
      assert Lower(hay)[k] == c;
      assert hay[k] == c;
    }
    if c in hay {
      var k :| 0 <= k < |hay| && hay[k] == c;
      LowerAt(hay, k);
      assert Lower(hay)[k..k + 1] == [c];
      assert OccursAt(Lower(hay), [c], k);
    }
  }

  /** The empty query is found in every text. */
  lemma EveryTextIncludesEmpty(hay: string)
    ensures IncludesIgnoringCase(hay, "")
  {
    ContainsEmpty(Lower(hay));
  }

  /** A text that matches a query also matches every part of that query. */
  lemma NarrowerQuery(hay: string, q1: string, q2: string)
    requires IncludesIgnoringCase(hay, q2) && IncludesIgnoringCase(q2, q1)
    ensures IncludesIgnoringCase(hay, q1)
  {
    LowerIdempotent(q2);
    LowerIdempotent(q1);
    ContainsTransitive(Lower(hay), Lower(q2), Lower(q1));
  }

  /** Lower-casing keeps a character whitespace exactly when it was. */
  lemma {:induction false} LowerKeepsSpaces(s: string)
    ensures AllSpace(Lower(s)) <==> AllSpace(s)
  {
    forall i | 0 <= i < |s|
      ensures IsSpace(Lower(s)[i]) <==> IsSpace(s[i])
    {
      LowerAt(s, i);
    }
  }

  /**
   * The whitespace `trim()` strips: tab, line feed, vertical tab, form feed,
   * carriage return, space, no-break space, line and paragraph separators
   * and the byte-order mark.
   */
  predicate IsSpace(c: char) {
    c == ' ' || c == '\t' || c == '\n' || c == '\r'
    || c as int == 0x0B || c as int == 0x0C || c as int == 0xA0
    || c as int == 0x2028 || c as int == 0x2029 || c as int == 0xFEFF
  }

  predicate AllSpace(s: string) {
    forall i :: 0 <= i < |s| ==> IsSpace(s[i])
  }

  /** Leading whitespace removed: the result is the suffix of `s` after its whitespace run. */
  function TrimStart(s: string): (r: string)
    ensures |r| <= |s| && r == s[|s| - |r|..]
    ensures AllSpace(s[..|s| - |r|])
    ensures r == [] || !IsSpace(r[0])
    decreases |s|
  {
    if s != [] && IsSpace(s[0]) then TrimStart(s[1..]) else s
  }

  /** Trailing whitespace removed: the result is the prefix of `s` before its whitespace run. */
  function TrimEnd(s: string): (r: string)
    ensures |r| <= |s| && r == s[..|r|]
    ensures AllSpace(s[|r|..])
    ensures r == [] || !IsSpace(r[|r| - 1])
    decreases |s|
  {
    if s != [] && IsSpace(s[|s| - 1]) then TrimEnd(s[..|s| - 1]) else s
  }

  /** `trim()`: both whitespace runs removed. */
  function Trim(s: string): (r: string)
    ensures |r| <= |s|
  {
    TrimEnd(TrimStart(s))
  }

  /** A string trims to the empty string exactly when it is all whitespace. */
  lemma TrimEmptyIffAllSpace(s: string)
    ensures Trim(s) == [] <==> AllSpace(s)
  {
    var t := TrimStart(s);
    if Trim(s) == [] {
      forall i | 0 <= i < |s|
        ensures IsSpace(s[i])
      {
        assert s[i] == s[..|s| - |t|][i];
      }
    }
  }

  /** The position of the last `c` in `s`, as Python's `rsplit(c, 1)` finds it. */
  function LastIndexOf(s: string, c: char): (i: int)
    ensures -1 <= i < |s|
    ensures i >= 0 ==> s[i] == c
    ensures forall k :: i < k < |s| ==> s[k] != c
    decreases |s|
  {
    if s == [] then -1
    else if s[|s| - 1] == c then |s| - 1
    else LastIndexOf(s[..|s| - 1], c)
  }
}

=== FILE: tournament_errors.dfy ===
/**
 * The error-body normaliser written out twice, in `pages/CreerTournoiPage.tsx`
 * and `pages/ModifierTournoiPage.tsx`. It reads a failed submit in a fixed
 * precedence: a string `detail`, then field errors, then a generic message
 * shown behind a page-specific prefix.
 */
module TournamentErrors {
  import opened Wrappers
  import opened Client
  import opened Js

  const UnknownText := "Une erreur inconnue est survenue."
  const ValidationText := "Erreur de validation du formulaire."
  const DetailKey := "detail"

  /**
   * What a submit can throw: an axios error (its response body, `undefined`
   * when there was no response, the interceptor's `customMessage` and the
   * axios `message`), another `Error`, or any other value.
   */
  datatype SubmitError =
    | AxiosFailure(data: JsVal, customMessage: Option<string>, message: string)
    | PlainError(message: string)
    | OtherThrown

  /** `response?.data && typeof response.data === 'object'`. */
  predicate ObjectBody(d: JsVal) {
    Truthy(d) && IsObject(d)
  }

  /** `errorData.detail && typeof errorData.detail === 'string'`. */
  predicate HasDetail(d: JsVal) {
    Get(d, DetailKey).JStr? && Get(d, DetailKey).s != ""
  }

  /** Some key other than `detail`, whatever its value. */
  predicate HasFieldErrors(es: seq<(string, JsVal)>) {
    exists i :: 0 <= i < |es| && es[i].0 != DetailKey
  }

  /** The toasts one entry of the body produces: one per array element, one for a string, none otherwise. */
  function EntryToasts(e: (string, JsVal)): seq<Toast> {
    if e.0 == DetailKey then []
    else
      match e.1
      case JArr(items) => seq(|items|, i requires 0 <= i < |items| => ToastError(e.0 + ": " + ToString(items[i])))
      case JStr(s) => [ToastError(e.0 + ": " + s)]
      case _ => []
  }

  /** The toasts of all entries, in `Object.entries` order. */
  function FieldToasts(es: seq<(string, JsVal)>): seq<Toast>
    decreases |es|
  {
    if es == [] then [] else EntryToasts(es[0]) + FieldToasts(es[1..])
  }

  /** How the page reads the failure before it shows anything. */
  datatype Reading = ShowDetail(text: string) | ShowFieldErrors(entries: seq<(string, JsVal)>) | ShowGeneric(message: string)

  function Read(err: SubmitError): (r: Reading)
    ensures r.ShowDetail? <==> err.AxiosFailure? && ObjectBody(err.data) && HasDetail(err.data)
    ensures r.ShowDetail? ==> r.text == Get(err.data, DetailKey).s
    ensures r.ShowFieldErrors? <==>
              err.AxiosFailure? && ObjectBody(err.data) && !HasDetail(err.data) && HasFieldErrors(Entries(err.data))
    ensures r.ShowFieldErrors? ==> r.entries == Entries(err.data)
    ensures r.ShowGeneric? && err.AxiosFailure? && ObjectBody(err.data) ==>
              r.message == if |Entries(err.data)| > 0 then ValidationText else UnknownText
    ensures err.AxiosFailure? && !ObjectBody(err.data) && err.customMessage.Some? && err.customMessage.value != "" ==>
              r == ShowGeneric(err.customMessage.value)
    ensures err.AxiosFailure? && !ObjectBody(err.data) && !(err.customMessage.Some? && err.customMessage.value != "") ==>
              r == ShowGeneric(if err.message != "" then err.message else UnknownText)
    ensures err.PlainError? ==> r == ShowGeneric(err.message)
    ensures err.OtherThrown? ==> r == ShowGeneric(UnknownText)
  {
    match err
    case AxiosFailure(d, cm, m) =>
      if ObjectBody(d) then
        if HasDetail(d) then ShowDetail(Get(d, DetailKey).s)
        else if HasFieldErrors(Entries(d)) then ShowFieldErrors(Entries(d))
        else if |Entries(d)| > 0 then ShowGeneric(ValidationText)
        else ShowGeneric(UnknownText)
      else if cm.Some? && cm.value != "" then ShowGeneric(cm.value)
      else if m != "" then ShowGeneric(m)
      else ShowGeneric(UnknownText)
    case PlainError(m) => ShowGeneric(m)
    case OtherThrown => ShowGeneric(UnknownText)
  }

  /** The toasts shown for a failure; only the generic message carries the page's prefix. */
  function Toasts(err: SubmitError, prefix: string): (ts: seq<Toast>)
    ensures Read(err).ShowDetail? ==> ts == [ToastError(Read(err).text)]
    ensures Read(err).ShowFieldErrors? ==> ts == FieldToasts(Read(err).entries)
    ensures Read(err).ShowGeneric? ==> ts == [ToastError(prefix + Read(err).message)]
  {
    match Read(err)
    case ShowDetail(t) => [ToastError(t)]
    case ShowFieldErrors(es) => FieldToasts(es)
    case ShowGeneric(m) => [ToastError(prefix + m)]
  }

  predicate StartsWith(s: string, p: string) {
    |p| <= |s| && s[..|p|] == p
  }

  /** The toast names a field of the body other than `detail`. */
  predicate FromField(es: seq<(string, JsVal)>, t: Toast) {
    exists i :: 0 <= i < |es| && es[i].0 != DetailKey && StartsWith(t.text, es[i].0 + ": ")
  }

  /** Every field toast is `<field>: …` for a non-detail field of the body. */
  lemma {:induction false} FieldToastsNameTheirField(es: seq<(string, JsVal)>)
    ensures forall j :: 0 <= j < |FieldToasts(es)| ==> FromField(es, FieldToasts(es)[j])
    decreases |es|
  {
    if es != [] {
      FieldToastsNameTheirField(es[1..]);
      var head := EntryToasts(es[0]);
      var rest := FieldToasts(es[1..]);
      assert FieldToasts(es) == head + rest;
      forall j | 0 <= j < |FieldToasts(es)|
        ensures FromField(es, FieldToasts(es)[j])
      {
        if j < |head| {
          assert es[0].0 != DetailKey;
          assert StartsWith(head[j].text, es[0].0 + ": ");
        } else {
          assert FieldToasts(es)[j] == rest[j - |head|];
          var i :| 0 <= i < |es[1..]| && es[1..][i].0 != DetailKey && StartsWith(rest[j - |head|].text, es[1..][i].0 + ": ");
          assert es[i + 1] == es[1..][i];
        }
      }
    }
  }

  /** A string-valued field error is always shown, as `<field>: <message>`. */
  lemma {:induction false} StringFieldIsShown(es: seq<(string, JsVal)>, i: int)
    requires 0 <= i < |es| && es[i].0 != DetailKey && es[i].1.JStr?
    ensures ToastError(es[i].0 + ": " + es[i].1.s) in FieldToasts(es)
    decreases |es|
  {
    assert FieldToasts(es) == EntryToasts(es[0]) + FieldToasts(es[1..]);
    if i > 0 {
      assert es[1..][i - 1] == es[i];
      StringFieldIsShown(es[1..], i - 1);
    } else {
      assert EntryToasts(es[0]) == [ToastError(es[0].0 + ": " + es[0].1.s)];
    }
  }

  /** A string `detail` wins over everything else the body holds. */
  lemma DetailWins(rest: seq<(string, JsVal)>, detail: string, cm: Option<string>, m: string, prefix: string)
    requires detail != ""
    ensures Toasts(AxiosFailure(JObj([(DetailKey, JStr(detail))] + rest), cm, m), prefix) == [ToastError(detail)]
  {
    var es := [(DetailKey, JStr(detail))] + rest;
    assert Lookup(es, DetailKey) == JStr(detail);
  }

  /**
   * A body holding only a non-string `detail` is read as a validation
   * failure; an empty body keeps the unknown-error text even when the
   * interceptor supplied a `customMessage`.
   */
  lemma BodyWithoutUsableFields(v: JsVal, cm: Option<string>, m: string)
    requires !(v.JStr? && v.s != "")
    ensures Read(AxiosFailure(JObj([(DetailKey, v)]), cm, m)) == ShowGeneric(ValidationText)
    ensures Read(AxiosFailure(JObj([]), cm, m)) == ShowGeneric(UnknownText)
  {
    var es := [(DetailKey, v)];
    assert !HasFieldErrors(es);
  }

  /** A field whose value is neither array nor string still suppresses every other toast. */
  lemma OddFieldSilencesPage(field: string, n: int, cm: Option<string>, m: string, prefix: string)
    requires field != DetailKey
    ensures Toasts(AxiosFailure(JObj([(field, JNum(n))]), cm, m), prefix) == []
  {
    var es := [(field, JNum(n))];
    assert es[0].0 != DetailKey;
    assert FieldToasts(es) == EntryToasts(es[0]) + FieldToasts(es[1..]);
  }

  /** The two pages differ only in the prefix of the generic toast. */
  lemma PrefixOnlyTouchesGeneric(err: SubmitError, p: string, q: string)
    ensures Read(err).ShowGeneric? ==> Toasts(err, q) == [ToastError(q + Read(err).message)]
    ensures !Read(err).ShowGeneric? ==> Toasts(err, p) == Toasts(err, q)
  {
  }
}

=== FILE: tournament_form.dfy ===
/**
 * The tournament form shared by the create and edit pages, and the JSON
 * object both pages send: the form's text fields, the parsed price and a
 * status. `parseFloat` is not modelled; the parsed price is an input.
 */
module TournamentForm {
  import opened Js

  /** The editable fields of both pages, all held as text (the price included). */
  datatype Form = Form(nom: string, description: string, kind: string, regles: string,
                       dateDebut: string, dateFin: string, prixInscription: string)

  /** The keys of the object sent to the backend, in order. */
  const PayloadKeys: seq<string> :=
    ["nom", "description", "type", "regles", "date_debut", "date_fin", "prix_inscription", "statut"]

  /** The form field a text key of the body is read from; the backend's `type` is the form's `kind`. */
  function TextField(f: Form, key: string): string {
    if key == "nom" then f.nom
    else if key == "description" then f.description
    else if key == "type" then f.kind
    else if key == "regles" then f.regles
    else if key == "date_debut" then f.dateDebut
    else f.dateFin
  }

  /**
   * The request body: the six text keys carry their form fields as strings,
   * `prix_inscription` carries the parsed price and `statut` the given status.
   */
  function Payload(f: Form, price: JsVal, statut: string): (p: JsVal)
    ensures p.JObj? && |p.entries| == |PayloadKeys|
    ensures forall i :: 0 <= i < |PayloadKeys| ==> p.entries[i].0 == PayloadKeys[i]
    ensures forall i :: 0 <= i < 6 ==> p.entries[i].1 == JStr(TextField(f, PayloadKeys[i]))
    ensures p.entries[6].1 == price && p.entries[7].1 == JStr(statut)
  {
    JObj([("nom", JStr(f.nom)), ("description", JStr(f.description)), ("type", JStr(f.kind)),
          ("regles", JStr(f.regles)), ("date_debut", JStr(f.dateDebut)), ("date_fin", JStr(f.dateFin)),
          ("prix_inscription", price), ("statut", JStr(statut))])
  }

  /**
   * The body carries the given status and no organiser key. The backend's
   * tournament serializer lists `organisateur` as a required field, so it
   * refuses such a body with 400 before `perform_create` is reached.
   */
  lemma PayloadStatus(f: Form, price: JsVal, statut: string)
    ensures Get(Payload(f, price, statut), "statut") == JStr(statut)
    ensures Get(Payload(f, price, statut), "organisateur") == JUndefined
    ensures Get(Payload(f, price, statut), "organisateur_id") == JUndefined
  {
    var es := Payload(f, price, statut).entries;
    LookupFirst(es, "statut", 7);
    LookupAbsent(es, "organisateur");
    LookupAbsent(es, "organisateur_id");
  }
}

=== FILE: tournament_signup.dfy ===
/**
 * `pages/InscriptionTournoi.tsx`: the player sign-up form. It checks the
 * game, then the tournament name, then calls the gateway's two-argument
 * `tournaments.register` with a single object, so that object becomes the
 * tournament id and no body is sent.
 */
module TournamentSignup {
  import opened Wrappers
  import opened Client
  import opened Js
  import ApiGateway

  const NoGameText := "Veuillez sélectionner un jeu"
  const NoNameText := "Veuillez entrer le nom du tournoi"
  const SuccessText := "Inscription au tournoi réussie !"
  const FailureText := "Erreur lors de l'inscription au tournoi"
  const PendingStatus := "en_attente"

  datatype SignupForm = SignupForm(nomTournoi: string, pseudo: string, niveau: string, experience: string,
                                   commentaire: string, equipe: string)

  const EmptyForm := SignupForm("", "", "", "", "", "")

  /** The keys of the six form fields, in the order the page spreads them. */
  const FormKeys: seq<string> := ["nom_tournoi", "pseudo", "niveau", "experience", "commentaire", "equipe"]

  /** The form field held under a key. */
  function FormValue(f: SignupForm, key: string): string {
    if key == "nom_tournoi" then f.nomTournoi
    else if key == "pseudo" then f.pseudo
    else if key == "niveau" then f.niveau
    else if key == "experience" then f.experience
    else if key == "commentaire" then f.commentaire
    else f.equipe
  }

  /**
   * The object the page builds: each form field under its own key, then
   * the selected game and status `en_attente`.
   */
  function Submitted(f: SignupForm, game: string): (o: JsVal)
    ensures o.JObj? && |o.entries| == |FormKeys| + 2
    ensures forall i :: 0 <= i < |FormKeys| ==> o.entries[i] == (FormKeys[i], JStr(FormValue(f, FormKeys[i])))
    ensures o.entries[6] == ("jeu", JStr(game)) && o.entries[7] == ("statut", JStr(PendingStatus))
  {
    JObj([("nom_tournoi", JStr(f.nomTournoi)), ("pseudo", JStr(f.pseudo)), ("niveau", JStr(f.niveau)),
          ("experience", JStr(f.experience)), ("commentaire", JStr(f.commentaire)), ("equipe", JStr(f.equipe)),
          ("jeu", JStr(game)), ("statut", JStr(PendingStatus))])
  }

  /** `tournaments.register(tournoiId, data)`: the path built from the stringified id, and the body. */
  function RegisterCall(tournoiId: JsVal, data: Option<JsVal>): (r: (string, Option<JsVal>))
    ensures r.0 == "/api/tournois/" + ToString(tournoiId) + "/inscrire_joueur/"
    ensures r.1 == data
  {
    ApiGateway.FourSegmentPath("api", "tournois", ToString(tournoiId), "inscrire_joueur");
    assert "/" + "api" + "/" + "tournois" + "/" == "/api/tournois/";
    assert "/" + "inscrire_joueur" + "/" == "/inscrire_joueur/";
    (ApiGateway.Path(ApiGateway.RegisterPlayer(ToString(tournoiId))), data)
  }

  /** The effects of one submit: the call made (path, body), the toasts and the navigation. */
  datatype Effect = Effect(request: Option<(string, Option<JsVal>)>, toasts: seq<Toast>, navigation: Option<string>)

  /** `handleSubmit`, given whether the call succeeds. */
  function Submit(f: SignupForm, game: string, succeeds: bool): (e: Effect)
    ensures game == "" ==> e == Effect(None, [ToastError(NoGameText)], None)
    ensures game != "" && f.nomTournoi == "" ==> e == Effect(None, [ToastError(NoNameText)], None)
    ensures e.request.Some? <==> game != "" && f.nomTournoi != ""
    ensures e.request.Some? ==> e.request.value == RegisterCall(Submitted(f, game), None)
    ensures e.request.Some? && succeeds ==> e.toasts == [ToastSuccess(SuccessText)] && e.navigation == Some(ProfileRoute)
    ensures e.request.Some? && !succeeds ==> e.toasts == [ToastError(FailureText)] && e.navigation.None?
  {
    if game == "" then Effect(None, [ToastError(NoGameText)], None)
    else if f.nomTournoi == "" then Effect(None, [ToastError(NoNameText)], None)
    else
      var call := RegisterCall(Submitted(f, game), None);
      if succeeds then Effect(Some(call), [ToastSuccess(SuccessText)], Some(ProfileRoute))
      else Effect(Some(call), [ToastError(FailureText)], None)
  }

  /**
   * Every call the page makes goes to the one URL whose id segment is
   * `[object Object]`, whatever the form holds, and carries no body: the
   * built object never reaches the server.
   */
  lemma CallIgnoresForm(f: SignupForm, game: string, f': SignupForm, game': string, succeeds: bool)
    requires Submit(f, game, succeeds).request.Some? && Submit(f', game', succeeds).request.Some?
    ensures Submit(f, game, succeeds).request.value
            == (ApiGateway.Path(ApiGateway.RegisterPlayer("[object Object]")), None)
    ensures Submit(f, game, succeeds).request == Submit(f', game', succeeds).request
  {
    assert ToString(Submitted(f, game)) == "[object Object]";
    assert ToString(Submitted(f', game')) == "[object Object]";
  }

  /** The render guard: without a user the page navigates to /login and renders nothing. */
  function RenderRedirect(user: Option<User>): (nav: Option<string>)
    ensures nav.Some? <==> user.None?
    ensures nav.Some? ==> nav.value == LoginRoute
  {
    if user.None? then Some(LoginRoute) else None
  }
}

=== FILE: tournaments_page.dfy ===
/**
 * `pages/Tournaments.tsx`: the tournament list filtered by a free-text
 * search, a game selector and a status selector whose French labels map
 * onto the data's status codes.
 */
module TournamentsPage {
  import opened Wrappers
  import Text
  import SeqFilter

  /** The selectors' "no restriction" value. */
  const AllLabel := "Tous"

  datatype Tournament = Tournament(id: int, title: string, game: string, status: string)

  /** The status code a selector choice asks for; `None` for labels outside the four. */
  function StatusOfLabel(choice: string): (code: Option<string>)
    ensures choice == "En direct" <==> code == Some("live")
    ensures choice == "À venir" <==> code == Some("upcoming")
    ensures choice == "Inscriptions ouvertes" <==> code == Some("registration")
    ensures choice == "Terminés" <==> code == Some("completed")
  {
    if choice == "En direct" then Some("live")
    else if choice == "À venir" then Some("upcoming")
    else if choice == "Inscriptions ouvertes" then Some("registration")
    else if choice == "Terminés" then Some("completed")
    else None
  }

  predicate MatchesSearch(t: Tournament, query: string) {
    Text.IncludesIgnoringCase(t.title, query) || Text.IncludesIgnoringCase(t.game, query)
  }

  predicate MatchesGame(t: Tournament, game: string) {
    game == AllLabel || t.game == game
  }

  predicate MatchesStatus(t: Tournament, choice: string) {
    choice == AllLabel || (StatusOfLabel(choice).Some? && t.status == StatusOfLabel(choice).value)
  }

  predicate Keep(t: Tournament, query: string, game: string, choice: string) {
    MatchesSearch(t, query) && MatchesGame(t, game) && MatchesStatus(t, choice)
  }

  /** `filteredTournaments`. */
  function Filtered(ts: seq<Tournament>, query: string, game: string, choice: string): (r: seq<Tournament>)
    ensures SeqFilter.IsSubseq(r, ts)
    ensures forall i :: 0 <= i < |r| ==> Keep(r[i], query, game, choice)
  {
    SeqFilter.Filter(ts, t => Keep(t, query, game, choice))
  }

  /** A tournament is listed exactly when it is in the data and passes all three filters. */
  lemma FilteredMembership(ts: seq<Tournament>, query: string, game: string, choice: string, t: Tournament)
    ensures t in Filtered(ts, query, game, choice) <==> t in ts && Keep(t, query, game, choice)
  {
    SeqFilter.FilterMembership(ts, u => Keep(u, query, game, choice), t);
  }

  /** The reset button's state ("", "Tous", "Tous") lists every tournament. */
  lemma ResetShowsAll(ts: seq<Tournament>)
    ensures Filtered(ts, "", AllLabel, AllLabel) == ts
  {
    forall i | 0 <= i < |ts|
      ensures Keep(ts[i], "", AllLabel, AllLabel)
    {
      Text.EveryTextIncludesEmpty(ts[i].title);
    }
    SeqFilter.FilterAll(ts, t => Keep(t, "", AllLabel, AllLabel));
  }

  /** A status choice outside the four (and other than "Tous") lists nothing. */
  lemma UnknownLabelShowsNothing(ts: seq<Tournament>, query: string, game: string, choice: string)
    requires choice != AllLabel && StatusOfLabel(choice).None?
    ensures Filtered(ts, query, game, choice) == []
  {
    SeqFilter.FilterNone(ts, t => Keep(t, query, game, choice));
  }

  /**
   * Tightening any filter never enlarges the list: a query that extends
   * the old one (ignoring case), a specific game instead of "Tous", a
   * specific status instead of "Tous".
   */
  lemma TighteningNeverEnlarges(ts: seq<Tournament>, q1: string, g1: string, s1: string,
                                q2: string, g2: string, s2: string)
    requires Text.IncludesIgnoringCase(q2, q1)
    requires g1 == AllLabel || g2 == g1
    requires s1 == AllLabel || s2 == s1
    ensures SeqFilter.IsSubseq(Filtered(ts, q2, g2, s2), Filtered(ts, q1, g1, s1))
    ensures |Filtered(ts, q2, g2, s2)| <= |Filtered(ts, q1, g1, s1)|
  {
    forall i | 0 <= i < |ts| && Keep(ts[i], q2, g2, s2)
      ensures Keep(ts[i], q1, g1, s1)
    {
      if Text.IncludesIgnoringCase(ts[i].title, q2) {
        Text.NarrowerQuery(ts[i].title, q1, q2);
      } else {
        Text.NarrowerQuery(ts[i].game, q1, q2);
      }
    }
    SeqFilter.FilterMonotone(ts, t => Keep(t, q2, g2, s2), t => Keep(t, q1, g1, s1));
  }
}

=== FILE: views.dfy ===
/**
 * The endpoints of `backend/tournois/views.py` as decision functions over
 * the database: each takes the requester, the store and the request's
 * fields, and returns the new store and the reply. DRF's order is kept:
 * the permission check, then the object lookup (404), then the handler.
 */
module Views {
  import opened Wrappers
  import opened Models
  import opened Permissions
  import Serializers
  import Signals
  import SeqFilter
  import Text

  /** A reply's body; tokens and exception texts are left abstract. */
  datatype Body =
    | Message(text: string)
    | Error(text: string)
    | NotFound
    | PermissionDenied
    | NotAuthenticated
    | ServerError
    | FieldErrors(errors: Serializers.FieldErrors)
    | Payments(items: seq<Paiement>)
    | Created(user: Serializers.UserView, text: string)
    | SignedIn(user: Serializers.UserView)

  datatype Reply = Reply(status: int, body: Body)

  /**
   * The reply to a refused permission check: 403 for a signed-in user the
   * class refuses, 500 for the `AttributeError` an anonymous write raises.
   */
  function Refusal(d: Decision): (r: Reply)
    requires d != Allow
    ensures d == Deny ==> r.status == 403 && r.body == PermissionDenied
    ensures d == Raises ==> r.status == 500 && r.body == ServerError
  {
    if d == Deny then Reply(403, PermissionDenied) else Reply(500, ServerError)
  }

  // ----- Payments ---------------------------------------------------------

  /**
   * `PaiementViewSet` listing: signed-in users only; an administrator sees
   * every payment, anyone else the payments whose player is themselves.
   */
  function ListPayments(who: Requester, ps: seq<Paiement>): (r: Reply)
    ensures r.status == 200 <==> IsAuthenticated(who)
    ensures who.Anonymous? ==> r == Reply(401, NotAuthenticated)
    ensures r.status == 200 ==> r.body.Payments? && SeqFilter.IsSubseq(r.body.items, ps)
    ensures r.status == 200 && who.user.role == RoleCode(Administrateur) ==> r.body.items == ps
    ensures r.status == 200 && who.user.role != RoleCode(Administrateur) ==>
            forall i :: 0 <= i < |r.body.items| ==> r.body.items[i].joueurId == who.user.id
    ensures r.status == 200 && SeqFilter.Descending(ps, PaidAt) ==> SeqFilter.Descending(r.body.items, PaidAt)
  {
    match who
    case Anonymous => Reply(401, NotAuthenticated)
    case Authenticated(u) =>
      if u.role == RoleCode(Administrateur) then
        SeqFilter.SubseqRefl(ps);
        Reply(200, Payments(ps))
      else
        var mine := SeqFilter.Filter(ps, (p: Paiement) => p.joueurId == u.id);
        if SeqFilter.Descending(ps, PaidAt) then
          SeqFilter.SubseqKeepsDescending(mine, ps, PaidAt);
          Reply(200, Payments(mine))
        else Reply(200, Payments(mine))
  }

  /** A payment is listed exactly when the caller is an administrator or the payment is theirs. */
  lemma ListedPaymentsMembership(u: Utilisateur, ps: seq<Paiement>, p: Paiement)
    ensures p in ListPayments(Authenticated(u), ps).body.items <==>
            p in ps && (u.role == RoleCode(Administrateur) || p.joueurId == u.id)
  {
    if u.role != RoleCode(Administrateur) {
      SeqFilter.FilterMembership(ps, (q: Paiement) => q.joueurId == u.id, p);
    }
  }

  // ----- Team registration ------------------------------------------------

  const TeamNotFoundText := "Équipe non trouvée"
  const AlreadyRegisteredText := "L'équipe est déjà inscrite à ce tournoi"
  const RegisteredText := "Équipe inscrite avec succès"
  const PlannedStatus := "planifie"

  predicate HasTournoi(s: Store, id: int) {
    exists i :: 0 <= i < |s.tournois| && s.tournois[i].id == id
  }

  /** `tournoi.rencontre_set.filter(equipe1=…)` or `filter(equipe2=…)` is non-empty. */
  predicate Registered(rs: seq<Rencontre>, tournoiId: int, equipeId: int) {
    exists i :: 0 <= i < |rs| && rs[i].tournoiId == tournoiId && (rs[i].equipe1 == equipeId || rs[i].equipe2 == Some(equipeId))
  }

  /**
   * The match `inscrire_equipe` builds: a fresh key, the team as
   * `equipe1`, status `planifie`, and no name, date, scores or opponent.
   */
  function PendingMatch(s: Store, tournoiId: int, equipeId: int): (m: Rencontre)
    ensures forall i :: 0 <= i < |s.rencontres| ==> s.rencontres[i].id != m.id
    ensures m.tournoiId == tournoiId && m.equipe1 == equipeId && m.statut == PlannedStatus
    ensures m.nom == "" && m.dateHeure.None? && m.equipe2.None? && m.score1.None? && m.score2.None?
  {
    Rencontre(SeqFilter.NextKey(s.rencontres, (r: Rencontre) => r.id), tournoiId, "", None, None, None, PlannedStatus,
              equipeId, None)
  }

  /**
   * `inscrire_equipe` as written: the match is created through
   * `Rencontre.save`, whose name-building reads the missing `equipe2`.
   * That raises `RelatedObjectDoesNotExist`, a subclass of
   * `Equipe.DoesNotExist`, which the view's own handler turns into
   * "team not found". No match is ever stored.
   */
  function InscrireEquipeAsWritten(who: Requester, s: Store, tournoiId: int, equipeId: Option<int>)
    : (res: (Store, Reply))
    ensures res.0 == s
    ensures res.1.status != 201
    ensures IsOrganisateurOrReadOnly(Post, who) != Allow ==> res.1 == Refusal(IsOrganisateurOrReadOnly(Post, who))
    ensures IsOrganisateurOrReadOnly(Post, who) == Allow && HasTournoi(s, tournoiId) && equipeId.Some? &&
            TeamName(s.equipes, equipeId.value).Some? && !Registered(s.rencontres, tournoiId, equipeId.value) ==>
            res.1 == Reply(404, Error(TeamNotFoundText))
  {
    var d := IsOrganisateurOrReadOnly(Post, who);
    if d != Allow then (s, Refusal(d))
    else if !HasTournoi(s, tournoiId) then (s, Reply(404, NotFound))
    else if equipeId.None? || TeamName(s.equipes, equipeId.value).None? then (s, Reply(404, Error(TeamNotFoundText)))
    else if Registered(s.rencontres, tournoiId, equipeId.value) then (s, Reply(400, Error(AlreadyRegisteredText)))
    else
      match SaveRencontre(PendingMatch(s, tournoiId, equipeId.value), s.equipes)
      case Failure(TeamDoesNotExist) => (s, Reply(404, Error(TeamNotFoundText)))
      case Failure(IntegrityError) => (s, Reply(500, ServerError))
      case Success(m) => (s.(rencontres := s.rencontres + [m]), Reply(201, Message(RegisteredText)))
  }

  /**
   * `inscrire_equipe` as evidently intended: the same checks in the same
   * order, then one pending match stored for the team, with no opponent.
   */
  function InscrireEquipe(who: Requester, s: Store, tournoiId: int, equipeId: Option<int>): (res: (Store, Reply))
    ensures res.1.status == 201 <==>
            IsOrganisateurOrReadOnly(Post, who) == Allow && HasTournoi(s, tournoiId) && equipeId.Some? &&
            TeamName(s.equipes, equipeId.value).Some? && !Registered(s.rencontres, tournoiId, equipeId.value)
    ensures res.1.status == 201 ==> res.0 == s.(rencontres := s.rencontres + [PendingMatch(s, tournoiId, equipeId.value)])
    ensures res.1.status != 201 ==> res.0 == s
    ensures IsOrganisateurOrReadOnly(Post, who) != Allow ==> res.1 == Refusal(IsOrganisateurOrReadOnly(Post, who))
    ensures IsOrganisateurOrReadOnly(Post, who) == Allow && !HasTournoi(s, tournoiId) ==> res.1 == Reply(404, NotFound)
    ensures (IsOrganisateurOrReadOnly(Post, who) == Allow && HasTournoi(s, tournoiId) &&
             (equipeId.None? || TeamName(s.equipes, equipeId.value).None?)) ==>
            res.1 == Reply(404, Error(TeamNotFoundText))
    ensures IsOrganisateurOrReadOnly(Post, who) == Allow && HasTournoi(s, tournoiId) && equipeId.Some? &&
            TeamName(s.equipes, equipeId.value).Some? && Registered(s.rencontres, tournoiId, equipeId.value) ==>
            res.1 == Reply(400, Error(AlreadyRegisteredText))
  {
    var d := IsOrganisateurOrReadOnly(Post, who);
    if d != Allow then (s, Refusal(d))
    else if !HasTournoi(s, tournoiId) then (s, Reply(404, NotFound))
    else if equipeId.None? || TeamName(s.equipes, equipeId.value).None? then (s, Reply(404, Error(TeamNotFoundText)))
    else if Registered(s.rencontres, tournoiId, equipeId.value) then (s, Reply(400, Error(AlreadyRegisteredText)))
    else (s.(rencontres := s.rencontres + [PendingMatch(s, tournoiId, equipeId.value)]), Reply(201, Message(RegisteredText)))
  }

  /** After a registration, the same team is registered, so a second attempt is refused with 400. */
  lemma SecondRegistrationRefused(who: Requester, s: Store, tournoiId: int, equipeId: int)
    requires InscrireEquipe(who, s, tournoiId, Some(equipeId)).1.status == 201
    ensures InscrireEquipe(who, InscrireEquipe(who, s, tournoiId, Some(equipeId)).0, tournoiId, Some(equipeId)).1
            == Reply(400, Error(AlreadyRegisteredText))
  {
    var s' := InscrireEquipe(who, s, tournoiId, Some(equipeId)).0;
    assert s'.rencontres[|s.rencontres|] == PendingMatch(s, tournoiId, equipeId);
    assert Registered(s'.rencontres, tournoiId, equipeId);
    assert s'.tournois == s.tournois && s'.equipes == s.equipes;
  }

  /**
   * The stored pending match is the one row that breaks the non-null rules:
   * it has neither a `date_heure` nor an `equipe2`.
   */
  lemma PendingMatchBreaksConstraints(who: Requester, s: Store, tournoiId: int, equipeId: int)
    requires WellFormed(s)
    requires InscrireEquipe(who, s, tournoiId, Some(equipeId)).1.status == 201
    ensures !RencontreConstraints(InscrireEquipe(who, s, tournoiId, Some(equipeId)).0.rencontres[|s.rencontres|])
    ensures InscrireEquipe(who, s, tournoiId, Some(equipeId)).0.rencontres[|s.rencontres|].dateHeure.None?
    ensures InscrireEquipe(who, s, tournoiId, Some(equipeId)).0.rencontres[|s.rencontres|].equipe2.None?
    ensures forall i :: 0 <= i < |s.rencontres| ==>
              RencontreConstraints(InscrireEquipe(who, s, tournoiId, Some(equipeId)).0.rencontres[i])
  {
  }

  // ----- Score validation -------------------------------------------------

  const ScoresRequiredText := "Les deux scores sont requis"
  const ScoreValidatedText := "Score validé avec succès"

  /** Python truthiness of a submitted score: present and non-zero. */
  predicate Truthy(score: Option<int>) {
    score.Some? && score.value != 0
  }

  /** `valider_score`: both scores must be truthy; the match is then finished and saved. */
  function ValiderScore(who: Requester, s: Store, rencontreId: int, score1: Option<int>, score2: Option<int>)
    : (res: (Store, Reply))
    ensures res.1.status != 200 ==> res.0 == s
    ensures res.1.status == 200 ==>
            IsArbitreOrReadOnly(Post, who) == Allow && Truthy(score1) && Truthy(score2) &&
            exists i :: 0 <= i < |s.rencontres| && s.rencontres[i].id == rencontreId &&
              |res.0.rencontres| == |s.rencontres| &&
              res.0 == s.(rencontres := s.rencontres[i := res.0.rencontres[i]]) &&
              res.0.rencontres[i] == s.rencontres[i].(nom := res.0.rencontres[i].nom, score1 := score1,
                                                      score2 := score2, statut := FinishedStatus)
    ensures IsArbitreOrReadOnly(Post, who) != Allow ==> res.1 == Refusal(IsArbitreOrReadOnly(Post, who))
    ensures (IsArbitreOrReadOnly(Post, who) == Allow &&
             forall i :: 0 <= i < |s.rencontres| ==> s.rencontres[i].id != rencontreId) ==>
            res.1 == Reply(404, NotFound)
    ensures (IsArbitreOrReadOnly(Post, who) == Allow &&
             (exists i :: 0 <= i < |s.rencontres| && s.rencontres[i].id == rencontreId) &&
             (!Truthy(score1) || !Truthy(score2))) ==>
            res.1 == Reply(400, Error(ScoresRequiredText))
  {
    var d := IsArbitreOrReadOnly(Post, who);
    if d != Allow then (s, Refusal(d))
    else
      var found := SeqFilter.FirstIndex(s.rencontres, (r: Rencontre) => r.id == rencontreId);
      if found.None? then (s, Reply(404, NotFound))
      else if !Truthy(score1) || !Truthy(score2) then (s, Reply(400, Error(ScoresRequiredText)))
      else
        var i := found.value;
        var updated := s.rencontres[i].(score1 := score1, score2 := score2, statut := FinishedStatus);
        match SaveRencontre(updated, s.equipes)
        case Failure(_) => (s, Reply(500, ServerError))
        case Success(m) => (s.(rencontres := s.rencontres[i := m]), Reply(200, Message(ScoreValidatedText)))
  }

  /**
   * On a well-formed database a referee's validation with two truthy scores
   * of an existing match succeeds, and the database stays well-formed.
   */
  lemma ValiderScoreKeepsWellFormed(u: Utilisateur, s: Store, rencontreId: int, score1: Option<int>, score2: Option<int>)
    requires WellFormed(s) && u.role == RoleCode(Arbitre)
    requires exists i :: 0 <= i < |s.rencontres| && s.rencontres[i].id == rencontreId
    requires Truthy(score1) && Truthy(score2)
    ensures ValiderScore(Authenticated(u), s, rencontreId, score1, score2).1 == Reply(200, Message(ScoreValidatedText))
    ensures WellFormed(ValiderScore(Authenticated(u), s, rencontreId, score1, score2).0)
  {
    var found := SeqFilter.FirstIndex(s.rencontres, (r: Rencontre) => r.id == rencontreId);
    var i := found.value;
    var updated := s.rencontres[i].(score1 := score1, score2 := score2, statut := FinishedStatus);
    assert RencontreConstraints(s.rencontres[i]) && TeamsExist(s.equipes, s.rencontres[i]);
    ValidRowSaves(updated, s.equipes);
    ReplacedRencontreKeepsWellFormed(s, i, SaveRencontre(updated, s.equipes).value);
  }

  /** A score of 0 is refused like a missing one, even for a referee and an existing match. */
  lemma ZeroScoreRefused(u: Utilisateur, s: Store, rencontreId: int, score: int)
    requires u.role == RoleCode(Arbitre)
    requires exists i :: 0 <= i < |s.rencontres| && s.rencontres[i].id == rencontreId
    ensures ValiderScore(Authenticated(u), s, rencontreId, Some(score), Some(0)) == (s, Reply(400, Error(ScoresRequiredText)))
    ensures ValiderScore(Authenticated(u), s, rencontreId, Some(0), Some(score)) == (s, Reply(400, Error(ScoresRequiredText)))
  {
  }

  // ----- Registration -----------------------------------------------------

  const UserCreatedText := "Utilisateur créé avec succès"

  /**
   * `RegisterAPI.post`: 400 with the serializer's errors, 500 when the
   * insert fails, otherwise 201 with the new user. Only the user row is
   * stored: the `post_save` receivers of `Signals` are never connected
   * (no module imports them and the app config has no `ready` hook), so
   * no profile row is added.
   */
  function RegisterPost(s: Store, input: Serializers.RegisterInput): (res: (Store, Reply))
    ensures res.1.status in {201, 400, 500}
    ensures res.1.status == 400 <==> Serializers.ValidateRegistration(s.users, input).Failure?
    ensures res.1.status == 400 ==> res.1.body == FieldErrors(Serializers.ValidateRegistration(s.users, input).error)
    ensures res.1.status == 201 <==> Serializers.RegisterUser(s.users, input).Success?
  {
    match Serializers.RegisterUser(s.users, input)
    case Failure(Rejected(errors)) => (s, Reply(400, FieldErrors(errors)))
    case Failure(Collision) => (s, Reply(500, ServerError))
    case Success(u) => (s.(users := s.users + [u]), Reply(201, Created(Serializers.SerializeUser(u), UserCreatedText)))
  }

  /**
   * What registration stores: on 201 exactly one user row is appended, the
   * user built from the body, and nothing else changes (no profile row);
   * on 400 or 500 nothing changes.
   */
  lemma RegisterPostStores(s: Store, input: Serializers.RegisterInput)
    ensures var res := RegisterPost(s, input);
            res.1.status != 201 ==> res.0 == s
    ensures var res := RegisterPost(s, input);
            res.1.status == 201 ==>
            && res.0 == s.(users := res.0.users) && res.0.profiles == s.profiles
            && Serializers.AppendsNewUser(s.users, res.0.users, input)
            && res.1.body == Created(Serializers.SerializeUser(res.0.users[|s.users|]), UserCreatedText)
  {
    var r := Serializers.RegisterUser(s.users, input);
    if r.Success? {
      var u := r.value;
      assert (s.users + [u])[..|s.users|] == s.users;
      assert Serializers.AppendsNewUser(s.users, s.users + [u], input);
    }
  }

  /** Registration keeps the database well-formed. */
  lemma RegisterKeepsWellFormed(s: Store, input: Serializers.RegisterInput)
    requires WellFormed(s)
    ensures WellFormed(RegisterPost(s, input).0)
  {
    var r := Serializers.RegisterUser(s.users, input);
    if r.Success? {
      Serializers.RegisterUserKeepsIdentitiesUnique(s.users, input);
      assert RegisterPost(s, input).0 == s.(users := s.users + [r.value]);
    } else {
      assert RegisterPost(s, input).0 == s;
    }
  }

  // ----- Login ------------------------------------------------------------

  const CredentialsRequiredText := "Email et mot de passe requis"
  const UserNotFoundText := "Utilisateur non trouvé"
  const WrongPasswordText := "Mot de passe incorrect"

  /**
   * `LoginAPI.post`: 400 without both fields, 404 for an unknown address,
   * 401 unless `authenticate` accepts (right password and an active
   * account), otherwise 200 with the user (and tokens).
   */
  function LoginPost(s: Store, email: Option<string>, password: Option<string>): (r: Reply)
    ensures email.None? || email.value == "" || password.None? || password.value == "" ==>
            r == Reply(400, Error(CredentialsRequiredText))
    ensures r.status == 404 <==>
            email.Some? && email.value != "" && password.Some? && password.value != "" &&
            forall i :: 0 <= i < |s.users| ==> s.users[i].email != email.value
    ensures r.status == 404 ==> r.body == Error(UserNotFoundText)
    ensures r.status == 200 ==>
            exists i :: 0 <= i < |s.users| && s.users[i].email == email.value &&
              s.users[i].password == password.value && s.users[i].isActive &&
              r.body == SignedIn(Serializers.SerializeUser(s.users[i]))
    ensures r.status in {200, 400, 401, 404}
    ensures r.status == 401 ==> r.body == Error(WrongPasswordText)
  {
    if email.None? || email.value == "" || password.None? || password.value == "" then
      Reply(400, Error(CredentialsRequiredText))
    else
      var found := SeqFilter.FirstIndex(s.users, (u: Utilisateur) => u.email == email.value);
      if found.None? then Reply(404, Error(UserNotFoundText))
      else
        var u := s.users[found.value];
        if u.password == password.value && u.isActive then Reply(200, SignedIn(Serializers.SerializeUser(u)))
        else Reply(401, Error(WrongPasswordText))
  }

  /** Sign-in with the address of the first user holding it is decided by that user's password and flag. */
  lemma {:induction false} LoginDecidedByFirstHolder(s: Store, i: int, password: string)
    requires 0 <= i < |s.users| && s.users[i].email != "" && password != ""
    requires forall k :: 0 <= k < i ==> s.users[k].email != s.users[i].email
    ensures LoginPost(s, Some(s.users[i].email), Some(password)) ==
            if s.users[i].password == password && s.users[i].isActive
            then Reply(200, SignedIn(Serializers.SerializeUser(s.users[i])))
            else Reply(401, Error(WrongPasswordText))
  {
    var found := SeqFilter.FirstIndex(s.users, (u: Utilisateur) => u.email == s.users[i].email);
    assert found.Some?;
    assert found.value == i;
  }

  /**
   * On a well-formed database, a known address with the right password
   * signs in exactly when the account is active; an inactive account gets
   * the wrong-password answer.
   */
  lemma LoginAcceptsRightPassword(s: Store, i: int, password: string)
    requires WellFormed(s) && 0 <= i < |s.users|
    requires s.users[i].email != "" && password != "" && s.users[i].password == password
    ensures LoginPost(s, Some(s.users[i].email), Some(password)).status == 200 <==> s.users[i].isActive
    ensures !s.users[i].isActive ==>
            LoginPost(s, Some(s.users[i].email), Some(password)) == Reply(401, Error(WrongPasswordText))
  {
    LoginDecidedByFirstHolder(s, i, password);
  }

  /** What a successful registration leaves in the users table, in the terms sign-in looks at. */
  lemma RegisteredUserFacts(s: Store, input: Serializers.RegisterInput) returns (s': Store)
    requires input.email.Some? && input.password.Some?
    requires RegisterPost(s, input).1.status == 201
    ensures s' == RegisterPost(s, input).0
    ensures |s'.users| == |s.users| + 1 && s'.users[..|s.users|] == s.users
    ensures s'.users[|s.users|].email == Serializers.NormalizeEmail(Text.Trim(input.email.value))
    ensures '@' in s'.users[|s.users|].email && !Serializers.EmailTaken(s.users, s'.users[|s.users|].email)
    ensures s'.users[|s.users|].password == Text.Trim(input.password.value) && input.password.value != ""
    ensures s'.users[|s.users|].isActive
  {
    RegisterPostStores(s, input);
    s' := RegisterPost(s, input).0;
  }

  /**
   * Registering and then signing in with the same address and password
   * succeeds, as the new user, when both are sent as stored: the address
   * already trimmed and normalised, the password without surrounding
   * whitespace.
   */
  lemma RegisterThenLogin(s: Store, input: Serializers.RegisterInput)
    requires input.email.Some? && input.password.Some?
    requires RegisterPost(s, input).1.status == 201
    requires Serializers.NormalizeEmail(Text.Trim(input.email.value)) == input.email.value
    requires Text.Trim(input.password.value) == input.password.value
    ensures LoginPost(RegisterPost(s, input).0, input.email, input.password) ==
            Reply(200, SignedIn(Serializers.SerializeUser(RegisterPost(s, input).0.users[|s.users|])))
  {
    var s' := RegisteredUserFacts(s, input);
    NewUserSignsInAs(s, s', input.email.value, input.password.value);
  }

  /**
   * The password is stored trimmed and sign-in does not trim: the same
   * password sent again with its surrounding whitespace is refused.
   */
  lemma PaddedPasswordRefused(s: Store, input: Serializers.RegisterInput)
    requires input.email.Some? && input.password.Some?
    requires RegisterPost(s, input).1.status == 201
    requires Serializers.NormalizeEmail(Text.Trim(input.email.value)) == input.email.value
    requires Text.Trim(input.password.value) != input.password.value
    ensures LoginPost(RegisterPost(s, input).0, input.email, input.password) == Reply(401, Error(WrongPasswordText))
  {
    var s' := RegisteredUserFacts(s, input);
    NewUserSignsInAs(s, s', input.email.value, input.password.value);
  }

  /** A user appended under an address nobody held is the one sign-in with that address finds. */
  lemma NewUserSignsInAs(s: Store, s': Store, email: string, password: string)
    requires |s'.users| == |s.users| + 1 && s'.users[..|s.users|] == s.users
    requires s'.users[|s.users|].email == email && '@' in email && !Serializers.EmailTaken(s.users, email)
    requires password != ""
    ensures LoginPost(s', Some(email), Some(password)) ==
            if s'.users[|s.users|].password == password && s'.users[|s.users|].isActive
            then Reply(200, SignedIn(Serializers.SerializeUser(s'.users[|s.users|])))
            else Reply(401, Error(WrongPasswordText))
  {
    var i := |s.users|;
    forall k | 0 <= k < i
      ensures s'.users[k].email != email
    {
      assert s'.users[k] == s.users[k];
    }
    LoginDecidedByFirstHolder(s', i, password);
  }

  // ----- Creations that need the organiser's profile ----------------------

  /** `request.user.organisateur_profile`: the organiser row's key, when that attribute exists. */
  function OrganiserProfile(u: Utilisateur, accessors: set<string>): (p: Option<int>)
    ensures p.Some? <==> Signals.ProfileAttribute(Organisateur) in accessors
  {
    if Signals.ProfileAttribute(Organisateur) in accessors then Some(u.id) else None
  }

  /**
   * The `create` of `EquipeViewSet` and `TournoiViewSet`: permission, then
   * the serializer's validation, then `perform_create`, which reads the
   * organiser's profile through `organisateur_profile`.
   */
  function CreateOwned(who: Requester, check: Serializers.Check, accessors: set<string>): (r: Reply)
    ensures r.status == 201 <==>
            IsOrganisateurOrReadOnly(Post, who) == Allow && check == Serializers.Valid &&
            OrganiserProfile(who.user, accessors).Some?
    ensures IsOrganisateurOrReadOnly(Post, who) != Allow ==> r == Refusal(IsOrganisateurOrReadOnly(Post, who))
    ensures IsOrganisateurOrReadOnly(Post, who) == Allow && check.Invalid? ==> r == Reply(400, Error(check.message))
  {
    var d := IsOrganisateurOrReadOnly(Post, who);
    if d != Allow then Refusal(d)
    else match check
      case Invalid(message) => Reply(400, Error(message))
      case KeyErrorRaised => Reply(500, ServerError)
      case Valid =>
        if OrganiserProfile(who.user, accessors).Some? then Reply(201, Message(""))
        else Reply(500, ServerError)
  }

  /** With the accessors Django defines, no team or tournament is ever created through the API. */
  lemma OwnedCreationAlwaysFails(who: Requester, check: Serializers.Check)
    ensures CreateOwned(who, check, Signals.DefaultAccessors).status != 201
    ensures IsOrganisateurOrReadOnly(Post, who) == Allow && check == Serializers.Valid ==>
            CreateOwned(who, check, Signals.DefaultAccessors) == Reply(500, ServerError)
  {
    var name := Signals.ProfileAttribute(Organisateur);
    assert name[|RoleCode(Organisateur)|] == '_';
    forall a | a in Signals.DefaultAccessors
      ensures '_' !in a
    {
    }
  }
}

=== FILE: wrappers.dfy ===
/** Failure-carrying values shared by every module of the model. */
module Wrappers {

  /** A value that may be absent: JavaScript's `undefined`/`null`, Python's `None`. */
  datatype Option<+T> = None | Some(value: T) {
    function GetOr(default: T): T {
      match this
      case Some(v) => v
      case None => default
    }
  }

  /** The outcome of an operation that either yields a value or fails with an error. */
  datatype Result<+R, +E> = Success(value: R) | Failure(error: E)
}
